=== FILE: README.md ===
# ToastPop core in Dafny

ToastPop is a Windows desktop client. It downloads an obfuscated banner
configuration document, reads its settings and then cycles through a list of
sites in a tabbed WebView2 browser. Behind a probability gate, it loads each
site, keeps it for a dwell time and then waits a cycle gap. This project models
the parts of the client that make those decisions, and proves what they do:

- **Configuration reader** (`config_reader.dfy`). The `ConfigReader` class
  holds the document, its root and every value `LoadInformation` extracts:
  - 21 program settings, whose element and attribute names are hex literals
    decoded with JhCrypt;
  - the five-slot lower and upper band arrays built from the `subper1..5`
    percentages;
  - the click ranges and time queries;
  - the site list and the market query.

  Each loop of `LoadInformation` is a method proved against a specification
  function (`Load`, `LoadProgram`, `Bands`, `ClickRanges`, `TimeQueries`). The
  properties of those functions are proved as lemmas: which settings hold what
  after a failure, cumulative bands, and which click ranges and time queries
  are kept. `InstallReader`'s two lookups are modelled here as well.
- **JhCrypt and Xor256Stream** (`jh_crypt.dfy`, `xor256.dfy`).
  - The stream cipher over two 256-byte arrays is an imperative class proved
    against `Cipher`; `Cipher`'s encrypt/decrypt inverse property is proved.
  - The hex text wrapper is proved to round-trip, and to cut a plaintext at its
    first zero byte.
  - SHA-256 and UTF-8 are parameters of the model.
- **Main view model** (`main_view_model.dfy`).
  - The tab list: adding, closing (never left empty) and disposing tabs.
  - The two-phase scheduler. A key-cycle tick counts and moves round-robin
    through the site items. An execute tick yields a plan: the address it
    loads, the delays it waits in milliseconds, and the exception that cuts it
    short.
  - The draws of `System.Random` are inputs. Timers and `Task.Delay` become
    returned values.
- **Browser tab** (`browser_tab.dfy`). URL normalisation, proved to produce a
  normalised address and to be idempotent. Navigation of the tab and of its
  web view.
- **Application start-up** (`app.dfy`). Command-line processing: an uninstall
  switch stops the processing; the update and boot switches set flags.
- **System utilities and constants** (`system_utils.dfy`,
  `app_constants.dfy`).
  - Folder-token expansion in paths.
  - The quoted "Run" key command line, which reads back the path and the
    arguments.
  - The client id, whose tick count can be read back.
  - The percentage draw.
  - The server address placeholders.
  - The kernel object names derived from the operation title.

`numbers.dfy` models the pieces of the .NET runtime the code depends on:
- 32-bit wrap-around;
- `int.ToString`;
- `ToString("X")`;
- `int.TryParse`;
- `Random.Next`.

`text.dfy`, `wrappers.dfy` and `xml_tree.dfy` model strings, results and
LINQ to XML elements.

Three behaviours of the scheduler and the reader are worth stating plainly:
- **Key-cycle order.** The site index advances on the tick that brings the
  repeat counter to its maximum. For three items and a maximum of 2 the items
  are visited 0, 1, 1, 2, 2, 0 (`KeyTicksFromStart`).
- **The site index survives a reload.** It is kept as it was when the
  configuration is reloaded. An index past the end makes the execute tick only
  rearm the timer.
- **LoadInformation clears its state before reading.** A read that throws in
  the program section leaves the settings read so far and returns false.

## Model

| member | source | states |
|---|---|---|
| ConfigReader.Ordinal | ToastPop.Core/Xml/ConfigReader.cs:128-148 | each of the 21 settings has its own position in the fixed reading order |
| ConfigReader.DecryptAttr | ToastPop.Core/Xml/ConfigReader.cs:286-293 | an empty literal stays empty; anything else is what JhCrypt.Decrypt makes of it |
| ConfigReader.GetChildAttrValue | ToastPop.Core/Xml/ConfigReader.cs:281-284 | throws exactly when a name is not a valid XML name; "" when the child is missing; a non-empty result is the attribute of the first child of that name |
| ConfigReader.ClearedValues | ToastPop.Core/Xml/ConfigReader.cs:216-250 | after an unload every setting is empty |
| ConfigReader.Outcomes | ToastPop.Core/Xml/ConfigReader.cs:128-148 | there is one read outcome per setting |
| ConfigReader.Assign | ToastPop.Core/Xml/ConfigReader.cs:128-148 | the assignments keep one value per setting |
| ConfigReader.ValuesAfter | ToastPop.Core/Xml/ConfigReader.cs:128-148 | the values after n successful reads keep one value per setting |
| ConfigReader.AssignReads | ToastPop.Core/Xml/ConfigReader.cs:128-148 | no failure iff every read returned, and then the first n settings hold what they read |
| ConfigReader.AssignFailure | ToastPop.Core/Xml/ConfigReader.cs:124-148 | after a failure some read f threw, the settings before f hold their values and the rest stay empty |
| ConfigReader.AssignStep | ToastPop.Core/Xml/ConfigReader.cs:128-148 | one more assignment sets its setting, or records the exception and sets nothing |
| ConfigReader.AssignStops | ToastPop.Core/Xml/ConfigReader.cs:124-148 | after a throw no later setting is assigned |
| ConfigReader.BandCount | ToastPop.Core/Xml/ConfigReader.cs:153 | the band loop visits min(nSub, 5) slots, none for a non-positive count |
| ConfigReader.SubPerNameValid | ToastPop.Core/Xml/ConfigReader.cs:155 | "subper1".."subper5" are valid XML names, so reading a band never throws |
| ConfigReader.SubPercentRead | ToastPop.Core/Xml/ConfigReader.cs:155 | reading band slot k yields the subper{k+1} text of the hidden-settings child |
| ConfigReader.SlotOf | ToastPop.Core/Xml/ConfigReader.cs:155-160 | a slot is empty iff its text is empty; otherwise its weight is ParseInt(text, 0) |
| ConfigReader.Bands | ToastPop.Core/Xml/ConfigReader.cs:151-162 | the band loop always yields two five-slot arrays |
| ConfigReader.BandStep | ToastPop.Core/Xml/ConfigReader.cs:156-160 | one pass keeps both arrays at five slots |
| ConfigReader.BandsSnoc | ToastPop.Core/Xml/ConfigReader.cs:153-161 | one more visited slot is one more pass of the loop |
| ConfigReader.WeightBeforeMonotone | ToastPop.Core/Xml/ConfigReader.cs:156-160 | with non-negative weights the running total never decreases |
| ConfigReader.WeightBeforePrefix | ToastPop.Core/Xml/ConfigReader.cs:156-160 | the total of the first m slots does not depend on later slots |
| ConfigReader.NoOverflowPrefix | ToastPop.Core/Xml/ConfigReader.cs:156-160 | a prefix of slots with non-negative weights and a total below int.MaxValue has both properties too |
| ConfigReader.BandsCumulative | ToastPop.Core/Xml/ConfigReader.cs:151-162 | for non-negative weights whose total stays below int.MaxValue, each filled slot spans [1 + weights before it, weights up to it], an empty slot stays 0, and the bound ends one past the total |
| ConfigReader.BandsCumulativeStep | ToastPop.Core/Xml/ConfigReader.cs:156-160 | one more slot keeps the bands cumulative |
| ConfigReader.BandsStepNext | ToastPop.Core/Xml/ConfigReader.cs:159 | the running bound ends one past the total weight |
| ConfigReader.BandsStepAt | ToastPop.Core/Xml/ConfigReader.cs:156-160 | each slot's band is cumulative after one more pass |
| ConfigReader.BandsStepFilled | ToastPop.Core/Xml/ConfigReader.cs:156-159 | a filled slot spans its weight from the current bound; the other slots are unchanged |
| ConfigReader.WeightsEmptyBetween | ToastPop.Core/Xml/ConfigReader.cs:155-160 | empty slots add no weight |
| ConfigReader.BandsContiguous | ToastPop.Core/Xml/ConfigReader.cs:151-162 | consecutive filled slots have adjacent bands, with no gap and no overlap |
| ConfigReader.BandsExample | ToastPop.Core/Xml/ConfigReader.cs:151-162 | weights 200, 300 and 500 give the bands [1,200], [201,500] and [501,1000] |
| ConfigReader.SlotOfText | ToastPop.Core/Xml/ConfigReader.cs:295-301 | a percentage written by int.ToString() fills its slot with that number |
| ConfigReader.ClickRangeOf | ToastPop.Core/Xml/ConfigReader.cs:168-179 | an idx entry is kept only with a positive per and gaper |
| ConfigReader.ClickRanges | ToastPop.Core/Xml/ConfigReader.cs:165-180 | every kept click range has a positive per and gaper |
| ConfigReader.ClickRangesPositive | ToastPop.Core/Xml/ConfigReader.cs:175 | the filter keeps only ranges with both values positive |
| ConfigReader.ClickRangesSound | ToastPop.Core/Xml/ConfigReader.cs:165-180 | every kept range comes from an idx entry under the first clrange |
| ConfigReader.ClickRangesComplete | ToastPop.Core/Xml/ConfigReader.cs:165-180 | every idx entry under the first clrange with a positive per and gaper is kept |
| ConfigReader.TimeQueryOf | ToastPop.Core/Xml/ConfigReader.cs:191-198 | a qlist entry is kept iff its url is present and non-empty, and then it carries that url |
| ConfigReader.TimeQueries | ToastPop.Core/Xml/ConfigReader.cs:191-198 | at most one query per qlist child, and every query has a non-empty url |
| ConfigReader.TimeQueriesMember | ToastPop.Core/Xml/ConfigReader.cs:184-199 | a query is kept iff some qlist child carries its non-empty url |
| ConfigReader.HiddenElementValid | ToastPop.Core/Xml/ConfigReader.cs:151-155 | once every setting was read, the hidden-settings child name is valid, so the band loop cannot throw |
| ConfigReader.BandSlots | ToastPop.Core/Xml/ConfigReader.cs:153-155 | there are as many slots as the loop visits |
| ConfigReader.BandSlotsAt | ToastPop.Core/Xml/ConfigReader.cs:155 | slot k is read from the subper{k+1} text |
| ConfigReader.VisitedSlots | ToastPop.Core/Xml/ConfigReader.cs:151-155 | the loop visits BandCount(ParseInt(subcycleb, 0)) slots, at most five |
| ConfigReader.Cleared | ToastPop.Core/Xml/ConfigReader.cs:216-250 | an unload leaves every setting empty, zero bands, no click ranges or time queries, and no site list or market query |
| ConfigReader.LoadProgram | ToastPop.Core/Xml/ConfigReader.cs:124-181 | the program section succeeds iff every setting read returns |
| ConfigReader.LoadProgramFailed | ToastPop.Core/Xml/ConfigReader.cs:124-148 | a throw leaves only the settings read so far; bands and click ranges stay cleared |
| ConfigReader.LoadProgramRead | ToastPop.Core/Xml/ConfigReader.cs:124-181 | with every read returning, the settings, the bands over the visited slots and the click ranges are all set |
| ConfigReader.Load | ToastPop.Core/Xml/ConfigReader.cs:114-211 | success iff no program-section read throws; a failure leaves only setting values; a success sets the site list and market query to the widelist and mktquery children |
| ConfigReader.LoadSettings | ToastPop.Core/Xml/ConfigReader.cs:128-148 | after a successful load every setting holds what reading it gave |
| ConfigReader.LoadValues | ToastPop.Core/Xml/ConfigReader.cs:124-148 | the loaded setting values are those the assignments leave |
| ConfigReader.LoadFailure | ToastPop.Core/Xml/ConfigReader.cs:207-210 | a failed load had a program section; one read threw; the settings before it hold their values and the later ones are empty |
| ConfigReader.LoadBands | ToastPop.Core/Xml/ConfigReader.cs:151-162 | after a successful load whose weights are non-negative with a total below int.MaxValue, the band arrays hold the cumulative bands of the visited slots |
| ConfigReader.BandsOfInfo | ToastPop.Core/Xml/ConfigReader.cs:151-162 | for non-negative weights whose total stays below int.MaxValue, band arrays computed over the visited slots are cumulative |
| ConfigReader.LoadKeepsBands | ToastPop.Core/Xml/ConfigReader.cs:151-205 | the later sections do not disturb the bands the loop computed |
| ConfigReader.LogUrl | ToastPop.Core/Xml/ConfigReader.cs:255-277 | "" unless the root is "global"; a non-empty result is the url attribute of set/{name} |
| ConfigReader.LogUrlExample | ToastPop.Core/Xml/ConfigReader.cs:255-268 | a present ilog url is returned; a missing ulog gives "" |
| ConfigReader.DecryptAttrWith | ToastPop.Core/Xml/ConfigReader.cs:286-293 | decryption through the shared JhCrypt password agrees with DecryptAttr |
| ConfigReader.ReadOne | ToastPop.Core/Xml/ConfigReader.cs:128-148 | one setting line decodes both names and reads the attribute |
| ConfigReader.ReadNth | ToastPop.Core/Xml/ConfigReader.cs:128-148 | reading setting i gives outcome i |
| ConfigReader.ConfigReader.constructor | ToastPop.Core/Xml/ConfigReader.cs:13-54 | a new reader has no document and cleared information |
| ConfigReader.ConfigReader.LoadXml | ToastPop.Core/Xml/ConfigReader.cs:97-109 | a parse failure returns false and keeps the old document; otherwise the document is replaced and the result says whether there is a root |
| ConfigReader.ConfigReader.UnloadInformation | ToastPop.Core/Xml/ConfigReader.cs:216-250 | the extracted information becomes Cleared; the document is kept |
| ConfigReader.ConfigReader.LoadInformation | ToastPop.Core/Xml/ConfigReader.cs:114-211 | false without a root and nothing changes; otherwise the state and result are exactly Load's |
| ConfigReader.ConfigReader.Reload | ToastPop.Core/Xml/ConfigReader.cs:121-205 | from cleared state, the state and result are Load's |
| ConfigReader.ConfigReader.ReadRest | ToastPop.Core/Xml/ConfigReader.cs:184-203 | tmquery, widelist and mktquery are set as Finish describes |
| ConfigReader.ConfigReader.ReadProgram | ToastPop.Core/Xml/ConfigReader.cs:124-181 | the state and result are LoadProgram's |
| ConfigReader.ConfigReader.ReadTables | ToastPop.Core/Xml/ConfigReader.cs:151-180 | the bands and click ranges are set as LoadProgram says |
| ConfigReader.ConfigReader.ReadSettings | ToastPop.Core/Xml/ConfigReader.cs:128-148 | the settings are those Assign leaves; the result is true iff no read threw |
| ConfigReader.ConfigReader.ReadNext | ToastPop.Core/Xml/ConfigReader.cs:128-148 | a returning read assigns its setting; a throw ends with the final assignment state |
| ConfigReader.ConfigReader.ReadBands | ToastPop.Core/Xml/ConfigReader.cs:151-162 | the band arrays become Bands of the visited slots |
| ConfigReader.ConfigReader.VisitSlot | ToastPop.Core/Xml/ConfigReader.cs:153-161 | one pass moves the arrays and bound from s to s + 1 slots |
| ConfigReader.ConfigReader.ReadSlot | ToastPop.Core/Xml/ConfigReader.cs:155 | the slot read is SlotOf the subper text |
| ConfigReader.ConfigReader.FillSlot | ToastPop.Core/Xml/ConfigReader.cs:156-160 | the arrays and bound become BandStep's |
| ConfigReader.ConfigReader.ReadClickRanges | ToastPop.Core/Xml/ConfigReader.cs:165-180 | the click ranges become ClickRanges(program) |
| ConfigReader.ConfigReader.ReadRanges | ToastPop.Core/Xml/ConfigReader.cs:168-179 | the loop keeps the filtered idx entries in document order |
| ConfigReader.ConfigReader.AddClickRange | ToastPop.Core/Xml/ConfigReader.cs:168-179 | one pass extends the filtered list by entry j |
| ConfigReader.ConfigReader.AppendClickRange | ToastPop.Core/Xml/ConfigReader.cs:175-178 | a range is appended iff both values are positive |
| ConfigReader.ConfigReader.ReadTimeQuery | ToastPop.Core/Xml/ConfigReader.cs:184-199 | stime, etime and qcnt are read, defaulting to ""; the queries become TimeQueries |
| ConfigReader.ConfigReader.ReadQueries | ToastPop.Core/Xml/ConfigReader.cs:191-198 | the loop keeps the qlist entries with a url, in order |
| ConfigReader.ConfigReader.AddTimeQuery | ToastPop.Core/Xml/ConfigReader.cs:191-198 | one pass extends the filtered list by entry j |
| ConfigReader.ConfigReader.AppendTimeQuery | ToastPop.Core/Xml/ConfigReader.cs:193-197 | a query is appended iff its url is non-empty |
| ConfigReader.FindNProgram | ToastPop.Core/Xml/ConfigReader.cs:336-339 | None iff no program name matches ignoring case; otherwise a listed program |
| ConfigReader.FindNFile | ToastPop.Core/Xml/ConfigReader.cs:344-349 | None iff no file matches both program name (ignoring case) and id; otherwise the first match |
| Numbers.TryParseInt32 | ToastPop.Core/Xml/ConfigReader.cs:300 | what int.TryParse accepts is a 32-bit value |
| Numbers.ParseInt | ToastPop.Core/Xml/ConfigReader.cs:295-301 | the default for null, empty or rejected text; otherwise what int.TryParse reads |
| Numbers.ParseIntText | ToastPop.App/ViewModels/MainViewModel.cs:333-337 | any 32-bit number written by int.ToString() parses back to itself, whatever the default |
| Numbers.RandomNext | ToastPop.Core/Utils/SystemUtils.cs:360 | throws iff min > max; min when the bounds are equal; otherwise a value in [min, max) |
| Numbers.RandomNextCovers | ToastPop.Core/Utils/SystemUtils.cs:360 | every value of the range is drawn by some generator output |
| Xor256.KeyFromHash | ToastPop.Core/Crypto/JhCrypt.cs:33-36 | key byte i is digest byte i mod the digest length, over 256 bytes |
| Xor256.KeyRepeatsDigest | ToastPop.Core/Crypto/JhCrypt.cs:30-36 | for a 32-byte SHA-256 digest the key is the digest eight times |
| Xor256.Step | ToastPop.Core/Crypto/JhCrypt.cs:46-72 | one turn emits one byte and keeps a 256-byte chain |
| Xor256.Cipher | ToastPop.Core/Crypto/JhCrypt.cs:46-72 | one output byte per input byte, 256-byte chain |
| Xor256.CipherSnoc | ToastPop.Core/Crypto/JhCrypt.cs:50-56 | one more input byte is one more loop turn |
| Xor256.StepInverse | ToastPop.Core/Crypto/JhCrypt.cs:46-72 | a decrypting turn undoes an encrypting turn from the same chain, and both advance the chain alike |
| Xor256.StepInverseDecrypt | ToastPop.Core/Crypto/JhCrypt.cs:46-72 | an encrypting turn undoes a decrypting turn |
| Xor256.XorCancels | ToastPop.Core/Crypto/JhCrypt.cs:52-66 | XOR with the same chain byte twice is the identity |
| Xor256.DecryptEncrypt | ToastPop.Core/Crypto/JhCrypt.cs:46-72 | decrypting from the same starting chain returns the plaintext and ends on the same chain |
| Xor256.EncryptDecrypt | ToastPop.Core/Crypto/JhCrypt.cs:46-72 | encrypting a decryption returns the ciphertext |
| Xor256.CipherUntouchedSlots | ToastPop.Core/Crypto/JhCrypt.cs:50-56 | up to 256 bytes, unreached chain slots keep their starting value |
| Xor256.CipherShortInput | ToastPop.Core/Crypto/JhCrypt.cs:50-56 | up to 256 bytes, output i is input i XOR starting chain byte i |
| Xor256.CipherOutputPrefix | ToastPop.Core/Crypto/JhCrypt.cs:46-72 | the output for a prefix of the input is the prefix of the output |
| Xor256.Xor256Stream.constructor | ToastPop.Core/Crypto/JhCrypt.cs:11-14 | two fresh zero 256-byte arrays, block size -1, not disposed |
| Xor256.Xor256Stream.Initialize | ToastPop.Core/Crypto/JhCrypt.cs:23-39 | null or empty throws ArgumentException and changes nothing; otherwise key = KeyFromHash(sha256) and chain = key |
| Xor256.Xor256Stream.ResetChain | ToastPop.Core/Crypto/JhCrypt.cs:41-44 | the chain becomes a copy of the key |
| Xor256.Xor256Stream.Encrypt | ToastPop.Core/Crypto/JhCrypt.cs:46-58 | null gives an empty array; otherwise the output and new chain are Cipher's |
| Xor256.Xor256Stream.Decrypt | ToastPop.Core/Crypto/JhCrypt.cs:60-72 | null gives an empty array; otherwise the output and new chain are Cipher's in decrypting direction |
| Xor256.Xor256Stream.Run | ToastPop.Core/Crypto/JhCrypt.cs:46-72 | the shared loop computes Cipher's output and chain |
| Xor256.Xor256Stream.Turn | ToastPop.Core/Crypto/JhCrypt.cs:52-56 | one loop body produces Step's output byte and chain |
| Xor256.Xor256Stream.Dispose | ToastPop.Core/Crypto/JhCrypt.cs:74-82 | the first call zeroes both arrays; later calls change nothing |
| JhCrypt.HexPair | ToastPop.Core/Crypto/JhCrypt.cs:112 | a byte is written as two characters |
| JhCrypt.ToHexString | ToastPop.Core/Crypto/JhCrypt.cs:112 | two characters per byte |
| JhCrypt.FromHexString | ToastPop.Core/Crypto/JhCrypt.cs:129 | fails iff the length is odd or a pair is not hex; otherwise pair k is byte k |
| JhCrypt.ToHexStringAt | ToastPop.Core/Crypto/JhCrypt.cs:112 | the digits of byte k sit at positions 2k and 2k+1 |
| JhCrypt.ToHexStringUpperCase | ToastPop.Core/Crypto/JhCrypt.cs:112 | only upper-case hex digits are written |
| JhCrypt.PairRoundTrip | ToastPop.Core/Crypto/JhCrypt.cs:112-129 | a byte's two digits read back as the byte |
| JhCrypt.PairOfDigits | ToastPop.Core/Crypto/JhCrypt.cs:112-129 | the digits of n/16 and n%16 read back as n |
| JhCrypt.FromToHexString | ToastPop.Core/Crypto/JhCrypt.cs:112-129 | FromHexString reads back exactly what ToHexString wrote |
| JhCrypt.UntilFirstZero | ToastPop.Core/Crypto/JhCrypt.cs:133-134 | the longest zero-free prefix, which stops at a zero byte or the end |
| JhCrypt.UntilFirstZeroNoZero | ToastPop.Core/Crypto/JhCrypt.cs:133-134 | zero-free bytes are kept whole |
| JhCrypt.InitialChain | ToastPop.Core/Crypto/JhCrypt.cs:23-39 | a fresh stream starts from a 256-byte chain |
| JhCrypt.EncryptText | ToastPop.Core/Crypto/JhCrypt.cs:100-113 | "" for ""; throws iff the password encodes to nothing; otherwise hex of twice the UTF-8 length |
| JhCrypt.DecryptText | ToastPop.Core/Crypto/JhCrypt.cs:118-142 | "" for empty input, an empty password or text that is not hex |
| JhCrypt.DecryptEncryptText | ToastPop.Core/Crypto/JhCrypt.cs:100-142 | Decrypt undoes Encrypt for a non-empty password and zero-free UTF-8 text |
| JhCrypt.DecryptEncryptTruncates | ToastPop.Core/Crypto/JhCrypt.cs:100-142 | a plaintext with a zero byte comes back cut at that zero |
| JhCrypt.Crypt.constructor | ToastPop.Core/Crypto/JhCrypt.cs:90 | the password starts at its default |
| JhCrypt.Crypt.SetPassword | ToastPop.Core/Crypto/JhCrypt.cs:92-95 | the password is replaced |
| JhCrypt.Crypt.Encrypt | ToastPop.Core/Crypto/JhCrypt.cs:100-113 | the result is EncryptText under the current password |
| JhCrypt.Crypt.Decrypt | ToastPop.Core/Crypto/JhCrypt.cs:118-142 | the result is DecryptText under the current password |
| JhCrypt.ToArray | ToastPop.Core/Crypto/JhCrypt.cs:129 | a fresh array holding the bytes |
| JhCrypt.FindZero | ToastPop.Core/Crypto/JhCrypt.cs:133-134 | the index of the first zero, or the length, delimits UntilFirstZero |
| JhCrypt.UntilFirstZeroPrefix | ToastPop.Core/Crypto/JhCrypt.cs:133-134 | a zero-free prefix ending at a zero or the end is UntilFirstZero |
| MainViewModel.SiteItems | ToastPop.App/ViewModels/MainViewModel.cs:187-189 | no items without a site list |
| MainViewModel.KeyTick | ToastPop.App/ViewModels/MainViewModel.cs:192-204 | without reaching the maximum the index stays; on reaching it the counter resets and the index stays in range |
| MainViewModel.RoundRobin | ToastPop.App/ViewModels/MainViewModel.cs:198-203 | increment-and-reset is (site + 1) mod count |
| MainViewModel.KeyTickKeepsValid | ToastPop.App/ViewModels/MainViewModel.cs:192-204 | ticks keep the counter and index non-negative and free of wrap-around; below the maximum a tick only counts |
| MainViewModel.EveryTickAdvances | ToastPop.App/ViewModels/MainViewModel.cs:193-195 | with a maximum of 1 or less every tick moves to the next site |
| MainViewModel.KeyTicksCount | ToastPop.App/ViewModels/MainViewModel.cs:192-195 | before the maximum the ticks only count |
| MainViewModel.KeyTicksPeriod | ToastPop.App/ViewModels/MainViewModel.cs:192-204 | from a reset counter, keyCycleMax ticks move to the next item, wrapping after the last |
| MainViewModel.KeyTicksFromStart | ToastPop.App/ViewModels/MainViewModel.cs:192-204 | three items, maximum 2, from a fresh model: indexes 0,1,1,2,2,0 |
| MainViewModel.GateDraw | ToastPop.App/ViewModels/MainViewModel.cs:305 | the draw lies in 1..1000 |
| MainViewModel.MClick | ToastPop.App/ViewModels/MainViewModel.cs:304 | 1000 when the attribute is missing; always a 32-bit value |
| MainViewModel.Gate | ToastPop.App/ViewModels/MainViewModel.cs:301-307 | passes iff the draw from 1..1000 is at most mclick |
| MainViewModel.GateExtremes | ToastPop.App/ViewModels/MainViewModel.cs:301-307 | mclick >= 1000 always passes; mclick <= 0 never does |
| MainViewModel.Below | ToastPop.App/ViewModels/MainViewModel.cs:305 | the 1000 possible draws are counted exactly |
| MainViewModel.GatePasses | ToastPop.App/ViewModels/MainViewModel.cs:301-307 | exactly clamp(mclick, 0, 1000) of the 1000 draws pass: probability mclick/1000 |
| MainViewModel.PickSeconds | ToastPop.App/ViewModels/MainViewModel.cs:312-331 | down when down >= up; otherwise a value in [down, up]; when up is int.MaxValue, up + 1 wraps and Random.Next throws |
| MainViewModel.PickSecondsCovers | ToastPop.App/ViewModels/MainViewModel.cs:312-331 | every second of [down, up] can be chosen |
| MainViewModel.MillisNotInfinite | ToastPop.App/ViewModels/MainViewModel.cs:279 | seconds * 1000 never wraps to -1 (infinite wait) |
| MainViewModel.DelayMillis | ToastPop.App/ViewModels/MainViewModel.cs:279 | throws iff the wrapped product is negative; otherwise that many milliseconds, exactly seconds*1000 for small values |
| MainViewModel.Pause | ToastPop.App/ViewModels/MainViewModel.cs:312-331 | bounds with down >= up wait `down` seconds; the only exception is ArgumentOutOfRangeException |
| MainViewModel.PauseBounds | ToastPop.App/ViewModels/MainViewModel.cs:278-279 | ordinary bounds give a wait between down and up seconds |
| MainViewModel.TimingOf | ToastPop.App/ViewModels/MainViewModel.cs:312-331 | empty settings give the defaults 3/10 and 5/15 |
| MainViewModel.CycleGap | ToastPop.App/ViewModels/MainViewModel.cs:286-289 | the cycle gap keeps the loaded target |
| MainViewModel.ExecutePlan | ToastPop.App/ViewModels/MainViewModel.cs:238-296 | without a site list nothing is loaded, awaited or thrown; a loaded address is never empty; at most two delays are awaited |
| MainViewModel.ExecuteOutOfRange | ToastPop.App/ViewModels/MainViewModel.cs:242-253 | without an item at the index, nothing loads and nothing is awaited; it throws iff there is a site list and the index is negative |
| MainViewModel.ExecuteLoads | ToastPop.App/ViewModels/MainViewModel.cs:255-275 | loads iff the item's url is non-empty and passes the gate, and then loads that url |
| MainViewModel.ExecuteWaits | ToastPop.App/ViewModels/MainViewModel.cs:259-289 | waits for the dwell time only after a load, and for the cycle gap last |
| MainViewModel.ExecuteDefaultTiming | ToastPop.App/ViewModels/MainViewModel.cs:278-288 | with default timing a load is watched 3-10 s and followed by a 5-15 s gap |
| MainViewModel.MainViewModel.constructor | ToastPop.App/ViewModels/MainViewModel.cs:17-42 | no tabs, cursor at (0,0), "ready" status, cleared reader |
| MainViewModel.MainViewModel.OnTimerKeyCycle | ToastPop.App/ViewModels/MainViewModel.cs:182-221 | with items, one KeyTick and the execute timer is armed; otherwise the cursor stays and it rearms after 3000 ms |
| MainViewModel.MainViewModel.Tick | ToastPop.App/ViewModels/MainViewModel.cs:192-204 | the cursor becomes KeyTick of the old cursor |
| MainViewModel.MainViewModel.OnTimerExecute | ToastPop.App/ViewModels/MainViewModel.cs:238-296 | the plan is ExecutePlan of the state; a target goes to the status line and is navigated to by the selected tab, whose web view then gets the request; without a target the status, the tab and its web view are unchanged |
| MainViewModel.MainViewModel.Load | ToastPop.App/ViewModels/MainViewModel.cs:267-275 | the status reads "loading: url", and the selected tab is navigated to the url exactly as BrowserTab.Navigate states, its web view included |
| MainViewModel.MainViewModel.AddNewTab | ToastPop.App/ViewModels/MainViewModel.cs:74-90 | appends a fresh "새 탭" tab on url, not loading and without history; closeable unless first; selected when asked |
| MainViewModel.MainViewModel.NewTab | ToastPop.App/ViewModels/MainViewModel.cs:48-52 | appends and selects a blank tab |
| MainViewModel.MainViewModel.CloseTab | ToastPop.App/ViewModels/MainViewModel.cs:54-67 | null does nothing; otherwise the tab is disposed, its first occurrence removed, and an empty list gets a new blank tab |
| MainViewModel.MainViewModel.Dispose | ToastPop.App/ViewModels/MainViewModel.cs:344-353 | every tab is disposed, and one that was not drops its web view; no other field of a tab changes |
| BrowserTab.NormalizeUrl | ToastPop.App/ViewModels/BrowserTabViewModel.cs:110-129 | blank for null or white space; the trimmed text if it is about:blank or has a scheme; otherwise http:// + trimmed |
| BrowserTab.BlankNormalized | ToastPop.App/ViewModels/BrowserTabViewModel.cs:112-118 | about:blank is normalised |
| BrowserTab.PrefixedNormalized | ToastPop.App/ViewModels/BrowserTabViewModel.cs:121-126 | http:// + trimmed text is normalised |
| BrowserTab.NormalizeUrlNormalized | ToastPop.App/ViewModels/BrowserTabViewModel.cs:110-129 | every result is normalised: trimmed, and blank or with a scheme |
| BrowserTab.TrimmedNormalized | ToastPop.App/ViewModels/BrowserTabViewModel.cs:115-128 | non-blank input normalises to a normalised address |
| BrowserTab.NormalizeUrlFixes | ToastPop.App/ViewModels/BrowserTabViewModel.cs:110-129 | a normalised address is left as is |
| BrowserTab.NormalizeUrlIdempotent | ToastPop.App/ViewModels/BrowserTabViewModel.cs:110-129 | normalising twice is normalising once |
| BrowserTab.WebView.constructor | ToastPop.App/ViewModels/BrowserTabViewModel.cs:14 | a control with the given core readiness and no requests |
| BrowserTab.WebView.Navigate | ToastPop.App/ViewModels/BrowserTabViewModel.cs:85-88 | the address is appended to the requested loads |
| BrowserTab.BrowserTab.constructor | ToastPop.App/ViewModels/BrowserTabViewModel.cs:14-40 | "새 탭", about:blank, closeable, idle, no web view |
| BrowserTab.BrowserTab.SetWebView | ToastPop.App/ViewModels/BrowserTabViewModel.cs:102-105 | the tab drives w; only the web view field changes |
| BrowserTab.BrowserTab.Navigate | ToastPop.App/ViewModels/BrowserTabViewModel.cs:76-89 | blank input changes nothing, the web view's requests included; otherwise shows NormalizeUrl, is loading, and a ready core is asked to load it; the web view, title, closeability and history flags are kept |
| BrowserTab.BrowserTab.Show | ToastPop.App/ViewModels/BrowserTabViewModel.cs:81-88 | shows the address, is loading, and a ready core is asked to load it; nothing else of the tab changes |
| BrowserTab.BrowserTab.GoHome | ToastPop.App/ViewModels/BrowserTabViewModel.cs:70-74 | shows about:blank, is loading, and a ready core is asked to load it |
| BrowserTab.BrowserTab.Dispose | ToastPop.App/ViewModels/BrowserTabViewModel.cs:179-184 | the first call drops the web view; later calls change nothing; only the web view and the disposed flag can change |
| App.Normalize | ToastPop.App/App.xaml.cs:98 | never longer, and never starts with '/' or '-' |
| App.NormalizeIgnoresSwitches | ToastPop.App/App.xaml.cs:98 | any switch prefix is ignored and the word lower-cased |
| App.SwitchedWord | ToastPop.App/App.xaml.cs:98-114 | a word after any run of '/' and '-' asks for the command its lower-case form names |
| App.BootSwitch | ToastPop.App/App.xaml.cs:111-113 | "/byboot" is the boot switch |
| App.TrailingSwitch | ToastPop.App/App.xaml.cs:98 | only leading switch characters are removed |
| App.Commands | ToastPop.App/App.xaml.cs:96-100 | one command per argument |
| App.Process | ToastPop.App/App.xaml.cs:96-115 | flags are only ever set, never cleared |
| App.ProcessUninstalls | ToastPop.App/App.xaml.cs:102-105 | processing ends in an uninstall iff some argument asks for it |
| App.ProcessFrom | ToastPop.App/App.xaml.cs:96-115 | processing from i looks at argument i first |
| App.Examined | ToastPop.App/App.xaml.cs:96-115 | examines all arguments, or up to and including the first uninstall |
| App.ProcessFlags | ToastPop.App/App.xaml.cs:107-113 | a flag is set iff already set or its switch is among the examined arguments |
| App.ProcessAppend | ToastPop.App/App.xaml.cs:96-115 | processing is left to right and stops at an uninstall |
| App.ProcessSingle | ToastPop.App/App.xaml.cs:100-114 | a single command processed alone |
| App.StartupEntryMarksBoot | ToastPop.App/App.xaml.cs:143 | the startup entry reads back as the path and "/byboot", which sets only the boot flag |
| App.App.constructor | ToastPop.App/App.xaml.cs:18-19 | both flags start false |
| App.App.Handle | ToastPop.App/App.xaml.cs:100-114 | uninstall calls PerformUninstall then Shutdown and stops; otherwise the named flag is set |
| App.App.ProcessCommandLineArgs | ToastPop.App/App.xaml.cs:94-116 | the flags become Process's; an uninstall adds exactly PerformUninstall, Shutdown |
| SystemUtils.PathFilter | ToastPop.Core/Utils/SystemUtils.cs:138-153 | null and "" are returned as given; any other path gives a result |
| SystemUtils.PathFilterPlain | ToastPop.Core/Utils/SystemUtils.cs:146-150 | a path without '%' is unchanged |
| SystemUtils.PathFilterLocalAppData | ToastPop.Core/Utils/SystemUtils.cs:147-148 | %LOCALAPPDATA expands to the local folder, untouched by the %APPDATA pass before it |
| SystemUtils.PathFilterAppData | ToastPop.Core/Utils/SystemUtils.cs:147 | %APPDATA expands to the roaming folder |
| SystemUtils.StartupValue | ToastPop.Core/Utils/SystemUtils.cs:23 | the value starts with the executable path in double quotes, and is exactly that iff the arguments are null or empty |
| SystemUtils.StartupValueRoundTrip | ToastPop.Core/Utils/SystemUtils.cs:23 | the stored command line reads back as the path and the arguments |
| SystemUtils.GenerateClientId | ToastPop.Core/Utils/SystemUtils.cs:314-319 | the id has no ':' and no upper-case letter |
| SystemUtils.ClientIdTicks | ToastPop.Core/Utils/SystemUtils.cs:316-318 | the ticks follow the '_' and parse back from the lower-case hex |
| SystemUtils.NextPercent | ToastPop.Core/Utils/SystemUtils.cs:370 | a value in 1..range for a normal range; 1 for range 0; throws for a negative range or int.MaxValue |
| SystemUtils.NextPercentCovers | ToastPop.Core/Utils/SystemUtils.cs:370 | every percentage 1..range can be drawn |
| AppConstants.DerivedNamesDistinct | ToastPop.Core/Config/AppConstants.cs:27-35 | each derived name is the title plus its own suffix, so all are distinct |
| AppConstants.GlobalInfo.constructor | ToastPop.Core/Config/AppConstants.cs:51-56 | client id "tga_default", everything else empty |
| AppConstants.PackUrlPlain | ToastPop.Core/Config/AppConstants.cs:67-73 | an address without placeholders is unchanged |
| AppConstants.PackUrlClientId | ToastPop.Core/Config/AppConstants.cs:67-73 | the substituted client id is itself subject to the later %MACADDR and %IP passes |
| AppConstants.PackUrlNestedToken | ToastPop.Core/Config/AppConstants.cs:67-73 | a client id "%MACADDR" expands to the MAC address |
| AppConstants.PackUrlDefaultClient | ToastPop.Core/Config/AppConstants.cs:51-73 | before assignment %CLIENTID expands to "tga_default" |
| AppConstants.ClientQueryUrl | ToastPop.Core/Config/AppConstants.cs:16-18 | a %CLIENTID query names the client |
| AppConstants.ClientMacQueryUrl | ToastPop.Core/Config/AppConstants.cs:14 | a %CLIENTID…%MACADDR query names the client and its MAC |
| Text.Replace | ToastPop.Core/Config/AppConstants.cs:69-72 | string.Replace keeps the length when the pattern and its replacement are equally long, and is the identity when they are equal |
| Text.ReplaceAbsent | ToastPop.Core/Utils/SystemUtils.cs:146-150 | a path without an occurrence of the placeholder is left as it is |
| Text.ReplaceLeading | ToastPop.Core/Config/AppConstants.cs:70 | an occurrence at the front is replaced and the scan continues after it, not inside the replacement |
| Text.ReplaceRemoves | ToastPop.Core/Utils/SystemUtils.cs:316 | replacing ":" by "" leaves no ":" in the MAC address |
| Seqs.RemoveFirst | ToastPop.App/ViewModels/MainViewModel.cs:60 | Collection.Remove leaves the tabs unchanged iff the tab is not among them |
| Seqs.RemoveFirstSize | ToastPop.App/ViewModels/MainViewModel.cs:59-60 | removing a tab that is present removes exactly one occurrence of it, and nothing else |
| XmlTree.ToXName | ToastPop.Core/Xml/ConfigReader.cs:283 | the string-to-XName conversion succeeds iff the name is a valid NCName, and keeps it |

## Left out

- File, URL and registry loading (`LoadUrlAsync`, `LoadFile`, `InstallReader.LoadRegistry`) are I/O. `LoadXml` takes the parser as a parameter.
- SHA-256, the UTF-8 codec and `XDocument.Parse` are parameters of the model, not implementations.
- `LoadConfigAndStartAsync` and `ChooseUserAgentAsync` are left out: HTTP download, user-agent selection and copying the click ranges into `GlobalInfo`.
- Timers, `Dispatcher.InvokeAsync` and `Task.Delay` are not modelled. The handlers return what they arm or wait for (`KeyStep`, `Plan`).
- The catch path of `OnTimerKeyCycleAsync` is left out: nothing in its try block throws in the model.
- `GoBack`, `GoForward`, `Refresh`, `Close` and the `CloseRequested` event wiring only forward to WebView2 or the window. The same goes for `BlockWebPageElementsAsync`, which injects script into the page.
- Exceptions thrown by WebView2 itself are not modelled.
- WPF's own change of `SelectedTab` when a tab is removed is not modelled.
- Case folding (`ToLowerInvariant`, `OrdinalIgnoreCase`) is ASCII only. Characters outside A–Z keep their case.
- Names are plain local names; the `{namespace}local` form of an XName is not modelled.
- `OnStartup`, `OnExit`, `InitializeGlobalInfo`, `CheckSingleInstance`, `CheckUpdater` and the body of `PerformUninstall` are left out. They act on the registry, events, mutexes and the updater.
- `EnsureStartupRegistration` is modelled only by the value it stores.
- The registry, file, process, OS-version and mouse helpers of SystemUtils are system calls. The folder locations, MAC address and clock are parameters.
- `ConfigReader.ConfigReader.GetILogUrl`, `GetULogUrl` and `GetDLogUrl` are one-line calls of `LogUrl`, which carries their contract.
- `AppConstants.GlobalInfo.GetPackUrl` has no contract of its own. Its lemmas (`PackUrl*`, `Client*QueryUrl`) state what it does.
- Numbers.TryParseInt32 models `int.TryParse` on a subset: ASCII number white space around the text, an optional '-' or '+', ASCII decimal digits and the 32-bit range. The current culture's sign symbols and trailing NUL characters, which .NET also accepts, are not modelled.
- `ConfigReader.LoadBands` states the cumulative bands only for non-negative weights whose total stays below int.MaxValue. A negative weight such as `subper1="-5"` gives an inverted band (down 1, up -5), and a total that reaches int.MaxValue wraps around. In both cases the arrays are still those `Bands` computes with 32-bit wrap-around (`LoadKeepsBands`).

=== FILE: app.dfy ===
/**
 * The command-line handling of the application object
 * (ToastPop.App/App.xaml.cs): each argument, stripped of its leading '/'
 * and '-' and lower-cased, either asks for an uninstall, which runs the
 * uninstall and shuts the application down without looking at any later
 * argument, or marks the start as made by the updater or at boot.
 */
module App {
  import Text
  import SystemUtils
  import opened Wrappers

  /** The characters TrimStart removes from the front of an argument. */
  predicate IsSwitchChar(c: char) {
    c == '/' || c == '-'
  }

  /** The argument without its leading '/' and '-', in lower case. */
  function Normalize(arg: string): (r: string)
    ensures |r| <= |arg|
    ensures r == [] || !IsSwitchChar(r[0])
  {
    Text.ToLower(Text.TrimStartWhere(arg, IsSwitchChar))
  }

  /** A switch prefix of any length is ignored, and so is the case of the word after it. */
  lemma NormalizeIgnoresSwitches(prefix: string, word: string)
    requires forall i :: 0 <= i < |prefix| ==> IsSwitchChar(prefix[i])
    requires word == [] || !IsSwitchChar(word[0])
    ensures Normalize(prefix + word) == Text.ToLower(word)
  {
    var s := prefix + word;
    var t := Text.TrimStartWhere(s, IsSwitchChar);
    assert s[|prefix|..] == word;
    assert t == word;
  }

  /** What one argument asks for. */
  datatype Command = Uninstall | Update | ByBoot | Ignored

  /** The cases of the switch over a normalised argument; any other word is ignored. */
  function Keyword(word: string): Command {
    if word == "uninstall" then Uninstall
    else if word == "update" then Update
    else if word == "byboot" then ByBoot
    else Ignored
  }

  /** The command an argument asks for. */
  function CommandOf(arg: string): Command {
    Keyword(Normalize(arg))
  }

  /**
   * A lower-case word after any run of switch characters asks for the
   * command the word names; upper case is folded first.
   */
  lemma SwitchedWord(prefix: string, word: string)
    requires forall i :: 0 <= i < |prefix| ==> IsSwitchChar(prefix[i])
    requires word == [] || !IsSwitchChar(word[0])
    ensures CommandOf(prefix + word) == Keyword(Text.ToLower(word))
  {
    NormalizeIgnoresSwitches(prefix, word);
  }

  /** The switch the startup entry carries is the boot switch. */
  lemma BootSwitch()
    ensures CommandOf("/byboot") == ByBoot
  {
  }

  /** Only leading switch characters are removed: a trailing one spoils the word. */
  lemma TrailingSwitch()
    ensures CommandOf("byboot/") == Ignored
  {
  }

  /** The commands the arguments ask for, one per argument. */
  function Commands(args: seq<string>): (cs: seq<Command>)
    ensures |cs| == |args|
    ensures forall i :: 0 <= i < |args| ==> cs[i] == CommandOf(args[i])
  {
    seq(|args|, i requires 0 <= i < |args| => CommandOf(args[i]))
  }

  /** The two start-mode flags. */
  datatype Flags = Flags(byUpdater: bool, byBoot: bool)

  /** The flags after the arguments, and whether an uninstall ended the processing. */
  datatype Outcome = Outcome(flags: Flags, uninstalled: bool)

  /**
   * The commands taken left to right from flags `f`: an uninstall stops
   * the processing, an update or a boot switch sets its flag, and any
   * other argument changes nothing. Flags are only ever set, never cleared.
   */
  function Process(cs: seq<Command>, f: Flags): (o: Outcome)
    ensures f.byUpdater ==> o.flags.byUpdater
    ensures f.byBoot ==> o.flags.byBoot
    decreases |cs|
  {
    if cs == [] then Outcome(f, false)
    else if cs[0] == Uninstall then Outcome(f, true)
    else Process(cs[1..], Step(cs[0], f))
  }

  /** The flags after one command that is not an uninstall. */
  function Step(c: Command, f: Flags): Flags {
    match c
    case Update => f.(byUpdater := true)
    case ByBoot => f.(byBoot := true)
    case _ => f
  }

  /** The processing ends in an uninstall exactly when one of the arguments asks for it. */
  lemma {:induction false} ProcessUninstalls(cs: seq<Command>, f: Flags)
    ensures Process(cs, f).uninstalled <==> Uninstall in cs
    decreases |cs|
  {
    if cs != [] && cs[0] != Uninstall {
      ProcessUninstalls(cs[1..], Step(cs[0], f));
      assert cs == [cs[0]] + cs[1..];
    }
  }

  /** Processing from position i looks at command i first. */
  lemma ProcessFrom(cs: seq<Command>, i: nat, f: Flags)
    requires i < |cs|
    ensures Process(cs[i..], f)
         == if cs[i] == Uninstall then Outcome(f, true) else Process(cs[i + 1..], Step(cs[i], f))
  {
    assert cs[i..][0] == cs[i] && cs[i..][1..] == cs[i + 1..];
  }

  /** How many commands are examined: all of them, or those up to and including the first uninstall. */
  function Examined(cs: seq<Command>): (n: nat)
    ensures n <= |cs|
    ensures Uninstall !in cs[..n] || cs[n - 1] == Uninstall
    ensures Uninstall in cs ==> n > 0 && cs[n - 1] == Uninstall && Uninstall !in cs[..n - 1]
    decreases |cs|
  {
    if cs == [] then 0
    else if cs[0] == Uninstall then 1
    else
      var n := 1 + Examined(cs[1..]);
      assert cs[..n] == [cs[0]] + cs[1..][..n - 1];
      assert cs == [cs[0]] + cs[1..];
      n
  }

  /**
   * A flag ends up set exactly when it was set before or its switch is
   * among the commands examined.
   */
  lemma {:induction false} ProcessFlags(cs: seq<Command>, f: Flags)
    ensures Process(cs, f).flags.byUpdater <==> f.byUpdater || Update in cs[..Examined(cs)]
    ensures Process(cs, f).flags.byBoot <==> f.byBoot || ByBoot in cs[..Examined(cs)]
    decreases |cs|
  {
    if cs != [] && cs[0] != Uninstall {
      ProcessFlags(cs[1..], Step(cs[0], f));
      assert cs[..Examined(cs)] == [cs[0]] + cs[1..][..Examined(cs[1..])];
    } else if cs != [] {
      assert cs[..Examined(cs)] == [Uninstall];
    }
  }

  /**
   * Processing is left to right: the commands after a prefix are
   * processed from the flags the prefix left, unless the prefix asked for
   * an uninstall, after which nothing more is examined.
   */
  lemma {:induction false} ProcessAppend(a: seq<Command>, b: seq<Command>, f: Flags)
    ensures Process(a + b, f)
         == if Process(a, f).uninstalled then Process(a, f) else Process(b, Process(a, f).flags)
    decreases |a|
  {
    if a == [] {
      assert a + b == b;
    } else {
      assert (a + b)[0] == a[0];
      assert (a + b)[1..] == a[1..] + b;
      if a[0] != Uninstall {
        ProcessAppend(a[1..], b, Step(a[0], f));
      }
    }
  }

  /** The calls ProcessCommandLineArgs makes outside the object, in order. */
  datatype Effect = PerformUninstall | Shutdown

  class App {
    var isByUpdater: bool
    var isByBoot: bool
    /** The uninstall and shutdown calls made so far. */
    var effects: seq<Effect>

    constructor ()
      ensures !isByUpdater && !isByBoot && effects == []
    {
      isByUpdater, isByBoot := false, false;
      effects := [];
    }

    function CurrentFlags(): Flags
      reads this
    {
      Flags(isByUpdater, isByBoot)
    }

    /**
     * The switch over one argument's command: an uninstall runs the
     * uninstall and the shutdown and stops the processing; otherwise the
     * flag the command names, if any, is set.
     */
    method Handle(command: Command) returns (stop: bool)
      modifies this`isByUpdater, this`isByBoot, this`effects
      ensures stop <==> command == Uninstall
      ensures stop ==> CurrentFlags() == old(CurrentFlags()) && effects == old(effects) + [PerformUninstall, Shutdown]
      ensures !stop ==> CurrentFlags() == Step(command, old(CurrentFlags())) && effects == old(effects)
    {
      stop := false;
      match command {
        case Uninstall =>
          effects := effects + [PerformUninstall];
          effects := effects + [Shutdown];
          stop := true;
        case Update =>
          isByUpdater := true;
        case ByBoot =>
          isByBoot := true;
        case Ignored =>
      }
    }

    /**
     * ProcessCommandLineArgs: the flags become those Process computes; on
     * an uninstall the uninstall runs and then the shutdown.
     */
    method ProcessCommandLineArgs(args: seq<string>)
      modifies this`isByUpdater, this`isByBoot, this`effects
      ensures CurrentFlags() == Process(Commands(args), old(CurrentFlags())).flags
      ensures effects == old(effects)
        + (if Process(Commands(args), old(CurrentFlags())).uninstalled then [PerformUninstall, Shutdown] else [])
    {
      ghost var cs := Commands(args);
      var i := 0;
      while i < |args|
        invariant 0 <= i <= |args|
        invariant effects == old(effects)
        invariant Process(cs[i..], CurrentFlags()) == Process(cs, old(CurrentFlags()))
      {
        ProcessFrom(cs, i, CurrentFlags());
        var command := CommandOf(args[i]);
        var stop := Handle(command);
        if stop {
          return;
        }
        i := i + 1;
      }
      assert cs[i..] == [];
    }
  }

  /** A single command is processed by itself. */
  lemma ProcessSingle(c: Command, f: Flags)
    ensures Process([c], f) == if c == Uninstall then Outcome(f, true) else Outcome(Step(c, f), false)
  {
    assert [c][1..] == [];
  }

  /**
   * The startup entry EnsureStartupRegistration writes carries "/byboot":
   * read back, it yields the executable and that argument, and processing
   * that argument alone marks the start as made at boot and nothing else.
   */
  lemma StartupEntryMarksBoot(exePath: string, f: Flags)
    requires '"' !in exePath
    ensures SystemUtils.ParseStartupValue(SystemUtils.StartupValue(exePath, Some("/byboot")))
         == Some((exePath, "/byboot"))
    ensures Process(Commands(["/byboot"]), f) == Outcome(f.(byBoot := true), false)
  {
    SystemUtils.StartupValueRoundTrip(exePath, Some("/byboot"));
    BootSwitch();
    assert Commands(["/byboot"]) == [CommandOf("/byboot")];
    ProcessSingle(ByBoot, f);
  }
}

=== FILE: app_constants.dfy ===
/**
 * Application-wide constants and the process-wide GlobalInfo
 * (ToastPop.Core/Config/AppConstants.cs): the server addresses with their
 * %CLIENTID, %MACADDR and %IP placeholders, the names of the kernel objects
 * and files derived from the operation title, and the substitution of the
 * placeholders with the client's identity.
 */
module AppConstants {
  import Text

  const DefaultClientId: string := "tga_default"
  const OperationTitle: string := "MWOTP-x64"
  const CryptoPassword: string := "TGA_util"

  const UrlLogHeader: string := "https://bustabcc.net/PRG/lg_read.php?bid=%BID"
  const XmlInfo: string := "https://bustabcc.net/SWC/tsp_read.php?client=%CLIENTID&cid=%MACADDR"
  const UrlRobotCheck: string := "https://bustabcc.net/SWC/robotcheck_read.php"
  const XmlBannerInfo: string := "https://bustabcc.net/SWC/conf_read.php?client=%CLIENTID"
  const XmlExtInfo: string := "https://bustabcc.net/SWC/dki_read.php?client=%CLIENTID"
  const XmlIlv: string := "https://bustabcc.net/SWC/livechk_read.php?client=%CLIENTID"
  const XmlMobileAgent: string := "https://bustabcc.net/SWC/mag_read.php"
  const XmlUpdate: string := "https://bustabcc.net/SWC/ups_read.php?client=%CLIENTID&cid=%MACADDR"

  const RegistryPath: string := "Software\\ToastPop"
  const RegistryRunPath: string := "Software\\Microsoft\\Windows\\CurrentVersion\\Run"

  /** The names derived from OperationTitle: the quit events, the two mutexes, the main window and the project files. */
  const QuitEventName: string := OperationTitle + "_wq"
  const QuitEventUpdaterName: string := OperationTitle + "_wqu"
  const RunControlMutexName: string := OperationTitle + "_rctrn"
  const UpdateControlMutexName: string := OperationTitle + "_updctrl"
  const MainWindowName: string := OperationTitle + "_mwn"
  const UpgradeCurrentXml: string := OperationTitle + "prj"
  const UpgradePrevXml: string := OperationTitle + "prvprj"

  const HListPercentRange: int := 1000
  const RandAbcPercentRange: int := 1000
  const MaxSaveKeyword: int := 70

  /** The derived names, in declaration order. */
  const DerivedNames: seq<string> := [
    QuitEventName, QuitEventUpdaterName, RunControlMutexName, UpdateControlMutexName,
    MainWindowName, UpgradeCurrentXml, UpgradePrevXml]

  /**
   * Every derived name is the operation title followed by its own suffix, so
   * no two of the events, mutexes and files share a name.
   */
  lemma DerivedNamesDistinct()
    ensures forall i :: 0 <= i < |DerivedNames| ==>
      |DerivedNames[i]| > |OperationTitle| && DerivedNames[i][..|OperationTitle|] == OperationTitle
    ensures forall i, j :: 0 <= i < j < |DerivedNames| ==> DerivedNames[i] != DerivedNames[j]
    ensures QuitEventName == "MWOTP-x64_wq" && RunControlMutexName == "MWOTP-x64_rctrn"
  {
    forall i, j | 0 <= i < j < |DerivedNames| ensures DerivedNames[i] != DerivedNames[j] {
      var n := |OperationTitle|;
      assert DerivedNames[i][n..] != DerivedNames[j][n..];
    }
  }

  /** A string in which no placeholder can start. */
  predicate Plain(s: string) {
    '%' !in s
  }

  /**
   * GlobalInfo: the identity that the placeholders of a server address are
   * replaced with. The client id starts as "tga_default"; the MAC and host
   * addresses start empty.
   */
  class GlobalInfo {
    var clientId: string
    var macAddress: string
    var hostAddress: string
    var currentUserAgent: string
    var viewWidth: string
    var viewHeight: string

    constructor ()
      ensures clientId == DefaultClientId && macAddress == "" && hostAddress == ""
      ensures currentUserAgent == "" && viewWidth == "" && viewHeight == ""
    {
      clientId := DefaultClientId;
      macAddress, hostAddress := "", "";
      currentUserAgent, viewWidth, viewHeight := "", "", "";
    }

    /**
     * GetPackUrl: every %CLIENTID is replaced with the client id, then every
     * %MACADDR with the MAC address, then every %IP with the host address.
     */
    function GetPackUrl(url: string): (r: string)
      reads this
    {
      Text.Replace(Text.Replace(Text.Replace(url, "%CLIENTID", clientId), "%MACADDR", macAddress), "%IP", hostAddress)
    }
  }

  /** An address without placeholders is returned unchanged. */
  lemma PackUrlPlain(g: GlobalInfo, url: string)
    requires Plain(url)
    ensures g.GetPackUrl(url) == url
  {
    Text.ReplaceWithoutLead(url, "%CLIENTID", g.clientId);
    Text.ReplaceWithoutLead(url, "%MACADDR", g.macAddress);
    Text.ReplaceWithoutLead(url, "%IP", g.hostAddress);
  }

  /**
   * The substitutions run in order, so the client id is itself subject to
   * the %MACADDR and %IP substitutions that follow it.
   */
  lemma PackUrlClientId(g: GlobalInfo)
    ensures g.GetPackUrl("%CLIENTID")
         == Text.Replace(Text.Replace(g.clientId, "%MACADDR", g.macAddress), "%IP", g.hostAddress)
  {
    Text.ReplaceLeading("%CLIENTID", [], g.clientId);
    assert "%CLIENTID" + [] == "%CLIENTID";
    assert g.clientId + [] == g.clientId;
  }

  /** For instance, a client id "%MACADDR" is expanded to the MAC address. */
  lemma PackUrlNestedToken(g: GlobalInfo)
    requires g.clientId == "%MACADDR" && Plain(g.macAddress)
    ensures g.GetPackUrl("%CLIENTID") == g.macAddress
  {
    PackUrlClientId(g);
    Text.ReplaceLeading("%MACADDR", [], g.macAddress);
    assert "%MACADDR" + [] == "%MACADDR";
    assert g.macAddress + [] == g.macAddress;
    Text.ReplaceWithoutLead(g.macAddress, "%IP", g.hostAddress);
  }

  /** Before a client id is assigned, %CLIENTID expands to "tga_default". */
  lemma PackUrlDefaultClient(g: GlobalInfo)
    requires g.clientId == DefaultClientId
    ensures g.GetPackUrl("%CLIENTID") == "tga_default"
  {
    PackUrlClientId(g);
    Text.ReplaceWithoutLead(DefaultClientId, "%MACADDR", g.macAddress);
    Text.ReplaceWithoutLead(DefaultClientId, "%IP", g.hostAddress);
  }

  /**
   * An address that ends in a %CLIENTID query, such as XmlBannerInfo,
   * names the client, for a client id without placeholders.
   */
  lemma ClientQueryUrl(g: GlobalInfo, prefix: string)
    requires Plain(prefix) && Plain(g.clientId)
    ensures g.GetPackUrl(prefix + "%CLIENTID") == prefix + g.clientId
  {
    assert prefix + "%CLIENTID" == prefix + ("%CLIENTID" + []);
    Text.ReplaceAfterPlain(prefix, "%CLIENTID" + [], "%CLIENTID", g.clientId);
    Text.ReplaceLeading("%CLIENTID", [], g.clientId);
    assert g.clientId + [] == g.clientId;
    var expanded := prefix + g.clientId;
    Text.ReplaceWithoutLead(expanded, "%MACADDR", g.macAddress);
    Text.ReplaceWithoutLead(expanded, "%IP", g.hostAddress);
  }

  /**
   * An address with a %CLIENTID and then a %MACADDR query, such as XmlInfo
   * and XmlUpdate, names the client and its MAC address.
   */
  lemma ClientMacQueryUrl(g: GlobalInfo, prefix: string, middle: string)
    requires Plain(prefix) && Plain(middle) && Plain(g.clientId) && Plain(g.macAddress)
    ensures g.GetPackUrl(prefix + "%CLIENTID" + middle + "%MACADDR")
         == prefix + g.clientId + middle + g.macAddress
  {
    ClientIdReplaced(prefix, middle, g.clientId);
    MacAddressReplaced(prefix + g.clientId + middle, g.macAddress);
    Text.ReplaceWithoutLead(prefix + g.clientId + middle + g.macAddress, "%IP", g.hostAddress);
  }

  /** The %CLIENTID pass replaces the one placeholder and leaves the %MACADDR that follows it. */
  lemma ClientIdReplaced(prefix: string, middle: string, clientId: string)
    requires Plain(prefix) && Plain(middle)
    ensures Text.Replace(prefix + "%CLIENTID" + middle + "%MACADDR", "%CLIENTID", clientId)
         == prefix + clientId + middle + "%MACADDR"
  {
    var pat, mac := "%CLIENTID", "%MACADDR";
    assert pat[0] == '%' && |mac| < |pat|;
    var tail := middle + mac;
    calc {
      Text.Replace(prefix + pat + middle + mac, pat, clientId);
      { assert prefix + pat + middle + mac == prefix + (pat + tail); }
      Text.Replace(prefix + (pat + tail), pat, clientId);
      { Text.ReplaceAfterPlain(prefix, pat + tail, pat, clientId); }
      prefix + Text.Replace(pat + tail, pat, clientId);
      { Text.ReplaceLeading(pat, tail, clientId); }
      prefix + (clientId + Text.Replace(tail, pat, clientId));
      { Text.ReplaceAfterPlain(middle, mac, pat, clientId);
        Text.ReplaceWithoutLeadShort(mac, pat, clientId); }
      prefix + (clientId + (middle + mac));
      { assert prefix + (clientId + (middle + mac)) == prefix + clientId + middle + mac; }
      prefix + clientId + middle + mac;
    }
  }

  /** The %MACADDR pass replaces a trailing placeholder after text without '%'. */
  lemma MacAddressReplaced(head: string, macAddress: string)
    requires Plain(head)
    ensures Text.Replace(head + "%MACADDR", "%MACADDR", macAddress) == head + macAddress
  {
    assert head + "%MACADDR" == head + ("%MACADDR" + []);
    Text.ReplaceAfterPlain(head, "%MACADDR" + [], "%MACADDR", macAddress);
    Text.ReplaceLeading("%MACADDR", [], macAddress);
    assert macAddress + [] == macAddress;
  }

}

=== FILE: browser_tab.dfy ===
/**
 * One browser tab of the ToastPop window
 * (ToastPop.App/ViewModels/BrowserTabViewModel.cs): the address it shows,
 * its loading flag, the WebView2 control it drives, and URL normalisation.
 */
module BrowserTab {
  import opened Wrappers
  import Text

  const Blank: string := "about:blank"

  /** The schemes NormalizeUrl accepts as they are, compared ignoring case. */
  predicate HasScheme(url: string) {
    Text.StartsWithIgnoreCase(url, "http://")
    || Text.StartsWithIgnoreCase(url, "https://")
    || Text.StartsWithIgnoreCase(url, "file://")
  }

  /** string.IsNullOrWhiteSpace. */
  predicate IsNullOrWhiteSpace(url: Option<string>) {
    url.None? || Text.IsWhiteSpaceOnly(url.value)
  }

  /**
   * NormalizeUrl: "about:blank" for null or white space; otherwise the trimmed
   * text, prefixed with "http://" unless it is about:blank or already starts
   * with http://, https:// or file:// (all ignoring case).
   */
  function NormalizeUrl(url: Option<string>): (r: string)
    ensures IsNullOrWhiteSpace(url) ==> r == Blank
    ensures !IsNullOrWhiteSpace(url) && (Text.EqualsIgnoreCase(Text.Trim(url.value), Blank) || HasScheme(Text.Trim(url.value)))
      ==> r == Text.Trim(url.value)
    ensures !IsNullOrWhiteSpace(url) && !Text.EqualsIgnoreCase(Text.Trim(url.value), Blank) && !HasScheme(Text.Trim(url.value))
      ==> r == "http://" + Text.Trim(url.value)
  {
    if IsNullOrWhiteSpace(url) then Blank
    else
      var trimmed := Text.Trim(url.value);
      if Text.EqualsIgnoreCase(trimmed, Blank) || HasScheme(trimmed) then trimmed
      else "http://" + trimmed
  }

  /** A normalised URL: no surrounding white space, and about:blank or one of the three schemes. */
  predicate IsNormalized(url: string) {
    url != []
    && !Text.IsWhiteSpace(url[0]) && !Text.IsWhiteSpace(url[|url| - 1])
    && (Text.EqualsIgnoreCase(url, Blank) || HasScheme(url))
  }

  /** "about:blank" is normalised. */
  lemma BlankNormalized()
    ensures IsNormalized(Blank)
  {
    assert Blank[0] == 'a' && Blank[|Blank| - 1] == 'k';
  }

  /** Prefixing "http://" to trimmed text gives a normalised address. */
  lemma PrefixedNormalized(trimmed: string)
    requires trimmed != [] && !Text.IsWhiteSpace(trimmed[|trimmed| - 1])
    ensures IsNormalized("http://" + trimmed)
  {
    var r := "http://" + trimmed;
    assert r[..7] == "http://";
    assert r[|r| - 1] == trimmed[|trimmed| - 1];
  }

  /** Every result of NormalizeUrl is normalised. */
  lemma NormalizeUrlNormalized(url: Option<string>)
    ensures IsNormalized(NormalizeUrl(url))
  {
    if IsNullOrWhiteSpace(url) {
      BlankNormalized();
    } else {
      TrimmedNormalized(url.value);
    }
  }

  /** NormalizeUrl of text that is not all white space is normalised. */
  lemma TrimmedNormalized(url: string)
    requires !Text.IsWhiteSpaceOnly(url)
    ensures IsNormalized(NormalizeUrl(Some(url)))
  {
    var trimmed := Text.Trim(url);
    Text.TrimEmptyIffWhiteSpace(url);
    Text.TrimEnds(url);
    assert !IsNullOrWhiteSpace(Some(url));
    if Text.EqualsIgnoreCase(trimmed, Blank) || HasScheme(trimmed) {
      assert NormalizeUrl(Some(url)) == trimmed;
    } else {
      PrefixedNormalized(trimmed);
      assert NormalizeUrl(Some(url)) == "http://" + trimmed;
    }
  }

  /** A normalised URL is its own normalisation. */
  lemma NormalizeUrlFixes(url: string)
    requires IsNormalized(url)
    ensures NormalizeUrl(Some(url)) == url
  {
    Text.TrimNoop(url);
  }

  /** NormalizeUrl is idempotent. */
  lemma NormalizeUrlIdempotent(url: Option<string>)
    ensures NormalizeUrl(Some(NormalizeUrl(url))) == NormalizeUrl(url)
  {
    NormalizeUrlNormalized(url);
    NormalizeUrlFixes(NormalizeUrl(url));
  }

  /** The WebView2 control a tab drives: whether its CoreWebView2 exists, and the addresses it was asked to load. */
  class WebView {
    var coreReady: bool
    var requested: seq<string>

    constructor (coreReady: bool)
      ensures this.coreReady == coreReady && requested == []
    {
      this.coreReady := coreReady;
      requested := [];
    }

    /** CoreWebView2.Navigate: the control is asked to load `url`. */
    method Navigate(url: string)
      requires coreReady
      modifies this
      ensures coreReady && requested == old(requested) + [url]
    {
      requested := requested + [url];
    }
  }

  /** The title of a new tab, "새 탭" ("new tab"). */
  const NewTabTitle: string := "\U{C0C8} \U{D0ED}"

  class BrowserTab {
    var webView: Option<WebView>
    var disposed: bool
    var title: string
    var currentUrl: string
    var isCloseable: bool
    var isLoading: bool
    var canGoBack: bool
    var canGoForward: bool

    /** The web view the tab may touch, if any. */
    function Control(): set<object>
      reads this
    {
      if webView.Some? then {webView.value} else {}
    }

    /** A new tab: titled "새 탭", showing about:blank, closeable, idle, without a web view. */
    constructor ()
      ensures webView.None? && !disposed && title == NewTabTitle && currentUrl == Blank
      ensures isCloseable && !isLoading && !canGoBack && !canGoForward
    {
      webView := None;
      disposed := false;
      title := NewTabTitle;
      currentUrl := Blank;
      isCloseable := true;
      isLoading := false;
      canGoBack := false;
      canGoForward := false;
    }

    /** SetWebView: the tab drives `w` from now on. */
    method SetWebView(w: WebView)
      modifies this`webView
      ensures webView == Some(w)
      ensures disposed == old(disposed) && title == old(title) && currentUrl == old(currentUrl)
      ensures isCloseable == old(isCloseable) && isLoading == old(isLoading)
    {
      webView := Some(w);
    }

    /**
     * Everything but the address and the loading flag is as it was: the web
     * view, whose core stays as it is, the disposed flag, the title,
     * closeability and the history flags.
     */
    twostate predicate Kept()
      reads this, Control()
    {
      webView == old(webView) && disposed == old(disposed) && title == old(title) && isCloseable == old(isCloseable)
      && canGoBack == old(canGoBack) && canGoForward == old(canGoForward)
      && (webView.Some? ==> webView.value.coreReady == old(webView.value.coreReady))
    }

    /** The tab shows `address` and is loading, and a web view whose core exists was asked to load it. */
    twostate predicate Shown(address: string)
      reads this, Control()
    {
      Kept() && currentUrl == address && isLoading
      && (webView.Some? ==>
            webView.value.requested == old(webView.value.requested) + (if webView.value.coreReady then [address] else []))
    }

    /**
     * What Navigate(url) does: null or white space changes nothing, and
     * anything else shows the normalised address.
     */
    twostate predicate Navigated(url: Option<string>)
      reads this, Control()
    {
      (IsNullOrWhiteSpace(url) ==>
         Kept() && currentUrl == old(currentUrl) && isLoading == old(isLoading)
         && (webView.Some? ==> webView.value.requested == old(webView.value.requested)))
      && (!IsNullOrWhiteSpace(url) ==> Shown(NormalizeUrl(url)))
    }

    /**
     * Navigate: null or white space changes nothing; otherwise the tab shows
     * the normalised address and is loading, and a web view whose core exists
     * is asked to load that address.
     */
    method Navigate(url: Option<string>)
      modifies this`currentUrl, this`isLoading, Control()
      ensures Navigated(url)
    {
      if IsNullOrWhiteSpace(url) {
        return;
      }
      Show(NormalizeUrl(url));
    }

    /** The tab shows `address` and is loading; a web view whose core exists is asked to load it. */
    method Show(address: string)
      modifies this`currentUrl, this`isLoading, Control()
      ensures Shown(address)
    {
      currentUrl := address;
      isLoading := true;
      if webView.Some? && webView.value.coreReady {
        webView.value.Navigate(address);
      }
    }

    /** GoHome: navigates to about:blank. */
    method GoHome()
      modifies this`currentUrl, this`isLoading, Control()
      ensures Shown(Blank)
    {
      assert !IsNullOrWhiteSpace(Some(Blank)) by {
        assert !Text.IsWhiteSpace(Blank[0]);
      }
      BlankNormalized();
      NormalizeUrlFixes(Blank);
      Navigate(Some(Blank));
    }

    /** Dispose: the first call drops the web view and marks the tab disposed; later calls do nothing. */
    method Dispose()
      modifies this`webView, this`disposed
      ensures old(disposed) ==> webView == old(webView)
      ensures disposed
      ensures !old(disposed) ==> disposed && webView.None?
      ensures title == old(title) && currentUrl == old(currentUrl) && isCloseable == old(isCloseable) && isLoading == old(isLoading)
    {
      if disposed {
        return;
      }
      webView := None;
      disposed := true;
    }
  }
}

=== FILE: config_reader.dfy ===
/**
 * ConfigReader (ToastPop.Core/Xml/ConfigReader.cs): loads the banner
 * configuration document and extracts its settings. The names of the
 * program settings are hex literals decoded with JhCrypt.Decrypt; what they
 * decode to depends on SHA-256 and stays a parameter of the model.
 */
module ConfigReader {
  import opened Wrappers
  import Seqs
  import Numbers
  import Text
  import opened XmlTree
  import JhCrypt

  /** The settings of the program section, in the order LoadInformation reads them. */
  datatype Setting =
    | RefDom | OnOff | Bwc | CTime | CTimeDown | CTimeUp | STimeDown | STimeUp
    | RandA | RandB | RandC | RandV | RandNeo | RandPower | RandN2s | RandAdnc | RandCriteo
    | MUserAgent | KeyCycleB | SubCycleB | NeoBack3

  const AllSettings: seq<Setting> := [
    RefDom, OnOff, Bwc, CTime, CTimeDown, CTimeUp, STimeDown, STimeUp,
    RandA, RandB, RandC, RandV, RandNeo, RandPower, RandN2s, RandAdnc, RandCriteo,
    MUserAgent, KeyCycleB, SubCycleB, NeoBack3]

  const SettingCount: nat := 21

  /** The position of a setting in AllSettings. */
  function Ordinal(s: Setting): (i: nat)
    ensures i < SettingCount && |AllSettings| == SettingCount && AllSettings[i] == s
  {
    match s
    case RefDom => 0 case OnOff => 1 case Bwc => 2 case CTime => 3 case CTimeDown => 4
    case CTimeUp => 5 case STimeDown => 6 case STimeUp => 7 case RandA => 8 case RandB => 9
    case RandC => 10 case RandV => 11 case RandNeo => 12 case RandPower => 13 case RandN2s => 14
    case RandAdnc => 15 case RandCriteo => 16 case MUserAgent => 17 case KeyCycleB => 18
    case SubCycleB => 19 case NeoBack3 => 20
  }

  /** The encrypted name of the child element that holds every setting but RefDom. */
  const HiddenElement: string := "CCD2DAF2C92D"

  /** The encrypted name of the child element that holds a setting. */
  function ElementLiteral(s: Setting): string {
    if s == RefDom then "E2C0DE1E1F38" else HiddenElement
  }

  /** The encrypted name of the attribute that holds a setting. */
  function AttributeLiteral(s: Setting): string {
    match s
    case RefDom => "E6C0F06FC4"
    case OnOff => "CBB6EDF42B3D6F"
    case Bwc => "D2BEDB"
    case CTime => "D5C0431C13"
    case CTimeDown => "D5C0431C134575FFC3"
    case CTimeUp => "D5C0431C13344B"
    case STimeDown => "E5D0F30CC335450FF3"
    case STimeUp => "E5D0F30CC3445B"
    case RandA => "E2D4D2FA2348"
    case RandB => "E2D4D2FA2357"
    case RandC => "E2D4D2FA235E"
    case RandV => "E2D4D2FA2363"
    case RandNeo => "E2D4D2FA234B6527"
    case RandPower => "E2D4D2FA2359694B98E6"
    case RandN2s => "E2D4D2FA234B505E"
    case RandAdnc => "E2D4D2FA23487B4A7D"
    case RandCriteo => "E2D4D2FA235E671B99E81D"
    case MUserAgent => "831714FDFA5478526FE1FF"
    case KeyCycleB => "CDCB441D1E21583887CD"
    case SubCycleB => "E5D3F118FB46210598F6"
    case NeoBack3 => "CEDCF1F7C8373F3930"
  }

  /** DecryptAttr: an empty literal is returned as is, anything else goes through JhCrypt.Decrypt. */
  function DecryptAttr(env: JhCrypt.Platform, password: string, encrypted: string): (r: string)
    ensures encrypted == "" ==> r == ""
    ensures encrypted != "" ==> r == JhCrypt.DecryptText(env, password, encrypted)
  {
    if encrypted == "" then encrypted else JhCrypt.DecryptText(env, password, encrypted)
  }

  /**
   * GetChildAttrValue: the value of attribute `attrName` of the first child
   * named `childName`, or "" when either is missing. Converting a name that
   * is not an NCName to an XName throws; the attribute name is converted only
   * when the child exists.
   */
  function GetChildAttrValue(parent: Element, childName: string, attrName: string): (r: Result<string>)
    ensures r.Thrown? <==> !IsNCName(childName) || (FirstChild(parent, childName).Some? && !IsNCName(attrName))
    ensures r.Ok? && FirstChild(parent, childName).None? ==> r.value == ""
    ensures r.Ok? && r.value != "" ==>
      FirstChild(parent, childName).Some? && AttributeValue(FirstChild(parent, childName).value, attrName) == Some(r.value)
  {
    match ElementNamed(parent, childName)
    case Thrown(x) => Thrown(x)
    case Ok(None) => Ok("")
    case Ok(Some(child)) =>
      match AttributeNamed(child, attrName)
      case Thrown(x) => Thrown(x)
      case Ok(None) => Ok("")
      case Ok(Some(v)) => Ok(v)
  }

  /** Reading one setting: both names are decoded, then looked up under the program section. */
  function ReadSetting(env: JhCrypt.Platform, password: string, program: Element, s: Setting): Result<string> {
    GetChildAttrValue(program, DecryptAttr(env, password, ElementLiteral(s)),
                      DecryptAttr(env, password, AttributeLiteral(s)))
  }

  /** The values of the settings before any is read: all empty. */
  function ClearedValues(): (r: seq<string>)
    ensures |r| == SettingCount && forall k :: 0 <= k < |r| ==> r[k] == ""
  {
    seq(SettingCount, _ => "")
  }

  /** The outcome of reading every setting, in the order of AllSettings. */
  function Outcomes(env: JhCrypt.Platform, password: string, program: Element): (r: seq<Result<string>>)
    ensures |r| == SettingCount
  {
    seq(SettingCount, k requires 0 <= k < SettingCount => ReadSetting(env, password, program, AllSettings[k]))
  }

  /** The setting values after the first `n` assignments, and the exception that stopped them, if any. */
  datatype SettingsRead = SettingsRead(values: seq<string>, failure: Option<Exception>)

  /**
   * The first `n` assignments of LoadInformation's program section, from
   * cleared values, given the outcome of each read. The first read that
   * throws ends the sequence: later settings keep their cleared value.
   */
  function Assign(outcomes: seq<Result<string>>, n: nat): (r: SettingsRead)
    requires |outcomes| == SettingCount && n <= SettingCount
    ensures |r.values| == SettingCount
  {
    if n == 0 then SettingsRead(ClearedValues(), None)
    else
      var prev := Assign(outcomes, n - 1);
      if prev.failure.Some? then prev
      else
        match outcomes[n - 1]
        case Thrown(x) => SettingsRead(prev.values, Some(x))
        case Ok(v) => SettingsRead(prev.values[n - 1 := v], None)
  }

  /** The value an outcome gives, or "" for a read that throws. */
  function ValueOf(outcome: Result<string>): string {
    match outcome
    case Ok(v) => v
    case Thrown(_) => ""
  }

  /** Whether the first `n` reads all return. */
  predicate AllRead(outcomes: seq<Result<string>>, n: nat)
    requires n <= |outcomes|
  {
    forall k :: 0 <= k < n ==> outcomes[k].Ok?
  }

  /** The values with the first `n` settings read and the rest cleared. */
  function ValuesAfter(outcomes: seq<Result<string>>, n: nat): (r: seq<string>)
    requires |outcomes| == SettingCount && n <= SettingCount
    ensures |r| == SettingCount
  {
    seq(SettingCount, k requires 0 <= k < SettingCount => if k < n then ValueOf(outcomes[k]) else "")
  }

  /** Read `f` threw after every earlier read returned, and only those earlier values were set. */
  predicate FailedAt(outcomes: seq<Result<string>>, f: nat, r: SettingsRead)
    requires |outcomes| == SettingCount && f < SettingCount
  {
    AllRead(outcomes, f)
    && r.failure.Some?
    && outcomes[f] == Thrown(r.failure.value)
    && r.values == ValuesAfter(outcomes, f)
  }

  /**
   * What the assignments leave without a failure: every read returned and
   * the first `n` settings hold their values.
   */
  lemma {:induction false} AssignReads(outcomes: seq<Result<string>>, n: nat)
    requires |outcomes| == SettingCount && n <= SettingCount
    ensures Assign(outcomes, n).failure.None? <==> AllRead(outcomes, n)
    ensures Assign(outcomes, n).failure.None? ==> Assign(outcomes, n).values == ValuesAfter(outcomes, n)
    decreases n
  {
    if n > 0 {
      AssignReads(outcomes, n - 1);
      var r := Assign(outcomes, n);
      if r.failure.None? {
        assert r.values == ValuesAfter(outcomes, n);
      }
    }
  }

  /**
   * What the assignments leave after a failure at setting f: the settings
   * before f hold their values and the rest stay cleared.
   */
  lemma {:induction false} AssignFailure(outcomes: seq<Result<string>>, n: nat)
    requires |outcomes| == SettingCount && n <= SettingCount
    requires Assign(outcomes, n).failure.Some?
    ensures exists f :: 0 <= f < n && FailedAt(outcomes, f, Assign(outcomes, n))
    decreases n
  {
    var prev := Assign(outcomes, n - 1);
    if prev.failure.Some? {
      AssignFailure(outcomes, n - 1);
    } else {
      AssignReads(outcomes, n - 1);
      assert FailedAt(outcomes, n - 1, Assign(outcomes, n));
    }
  }

  /** One more assignment: a read that returns sets its setting, a read that throws stops the sequence. */
  lemma AssignStep(outcomes: seq<Result<string>>, i: nat)
    requires |outcomes| == SettingCount && i < SettingCount && Assign(outcomes, i).failure.None?
    ensures outcomes[i].Ok? ==> Assign(outcomes, i + 1) == SettingsRead(Assign(outcomes, i).values[i := outcomes[i].value], None)
    ensures outcomes[i].Thrown? ==> Assign(outcomes, i + 1) == SettingsRead(Assign(outcomes, i).values, Some(outcomes[i].exception))
  {
  }

  /** Once a read has thrown, the remaining assignments do not happen. */
  lemma {:induction false} AssignStops(outcomes: seq<Result<string>>, i: nat, n: nat)
    requires |outcomes| == SettingCount && i <= n <= SettingCount && Assign(outcomes, i).failure.Some?
    ensures Assign(outcomes, n) == Assign(outcomes, i)
    decreases n - i
  {
    if i < n {
      AssignStops(outcomes, i, n - 1);
    }
  }

  /** The number of band slots LoadInformation visits: `s < nSub && s < 5`. */
  function BandCount(nSub: int): (r: nat)
    ensures r <= 5 && (nSub <= 0 ==> r == 0) && (0 <= nSub <= 5 ==> r == nSub) && (nSub >= 5 ==> r == 5)
  {
    if nSub <= 0 then 0 else if nSub < 5 then nSub else 5
  }

  /** The attribute name $"subper{k}". */
  function SubPerName(k: int): string {
    "subper" + Numbers.IntText(k)
  }

  /** "subper1" to "subper5" are valid XML names, so reading them cannot throw. */
  lemma SubPerNameValid(k: nat)
    requires 1 <= k <= 5
    ensures SubPerName(k) == "subper" + [Numbers.DigitChar(k)]
    ensures IsNCName(SubPerName(k))
  {
  }

  /** The percentage text of band slot `k`: attribute subper{k + 1} of the hidden-settings child, or "". */
  function SubPercent(program: Element, childName: string, k: nat): string {
    match FirstChild(program, childName)
    case None => ""
    case Some(child) => AttributeOrEmpty(child, SubPerName(k + 1))
  }

  /** Once the child name is known to be valid, reading a band slot gives SubPercent. */
  lemma SubPercentRead(program: Element, childName: string, k: nat)
    requires IsNCName(childName) && k < 5
    ensures GetChildAttrValue(program, childName, SubPerName(k + 1)) == Ok(SubPercent(program, childName, k))
  {
    SubPerNameValid(k + 1);
  }

  /** A visited band slot: an empty percentage text, or one with the value ParseInt(percent, 0). */
  datatype Slot = Empty | Filled(weight: int)

  function SlotOf(percent: string): (r: Slot)
    ensures r.Empty? <==> percent == ""
    ensures r.Filled? ==> r.weight == Numbers.ParseInt(Some(percent), 0)
  {
    if percent == "" then Empty else Filled(Numbers.ParseInt(Some(percent), 0))
  }

  /** The two five-slot band arrays and the running lower bound nSubDown. */
  datatype BandTable = BandTable(down: seq<int>, up: seq<int>, next: int)

  const ZeroBands: seq<int> := [0, 0, 0, 0, 0]

  /**
   * The band loop over the visited slots. An empty slot stays at 0 and
   * leaves the bound unchanged; a filled slot spans [bound, bound + weight - 1]
   * and the bound moves past it. The arithmetic is that of C# int, which
   * wraps around.
   */
  function Bands(slots: seq<Slot>): (r: BandTable)
    requires |slots| <= 5
    ensures |r.down| == 5 && |r.up| == 5
  {
    if slots == [] then BandTable(ZeroBands, ZeroBands, 1)
    else BandStep(Bands(slots[..|slots| - 1]), |slots| - 1, slots[|slots| - 1])
  }

  /** One pass of the band loop, over slot `s`. */
  function BandStep(prev: BandTable, s: nat, slot: Slot): (r: BandTable)
    requires s < 5 && |prev.down| == 5 && |prev.up| == 5
    ensures |r.down| == 5 && |r.up| == 5
  {
    match slot
    case Empty => prev
    case Filled(w) =>
      var up := Numbers.Wrap32(prev.next + w - 1);
      BandTable(prev.down[s := prev.next], prev.up[s := up], Numbers.Wrap32(up + 1))
  }

  /** One more visited slot is one more pass of the loop. */
  lemma BandsSnoc(prefix: seq<Slot>, slot: Slot)
    requires |prefix| < 5
    ensures Bands(prefix + [slot]) == BandStep(Bands(prefix), |prefix|, slot)
  {
    assert (prefix + [slot])[..|prefix|] == prefix;
  }

  function WeightOf(slot: Slot): int {
    if slot.Filled? then slot.weight else 0
  }

  /** The sum of the weights of the first `n` slots. */
  function WeightBefore(slots: seq<Slot>, n: nat): int
    requires n <= |slots|
  {
    if n == 0 then 0 else WeightBefore(slots, n - 1) + WeightOf(slots[n - 1])
  }

  /** No bound leaves the int range: every weight is non-negative and the total stays below int.MaxValue. */
  predicate NoOverflow(slots: seq<Slot>) {
    (forall i :: 0 <= i < |slots| ==> WeightOf(slots[i]) >= 0)
    && WeightBefore(slots, |slots|) < Numbers.Int32Max
  }

  lemma {:induction false} WeightBeforeMonotone(slots: seq<Slot>, m: nat, n: nat)
    requires m <= n <= |slots| && forall i :: 0 <= i < |slots| ==> WeightOf(slots[i]) >= 0
    ensures 0 <= WeightBefore(slots, m) <= WeightBefore(slots, n)
    decreases n
  {
    if m < n {
      WeightBeforeMonotone(slots, m, n - 1);
    } else if n > 0 {
      WeightBeforeMonotone(slots, n - 1, n - 1);
    }
  }

  lemma {:induction false} WeightBeforePrefix(slots: seq<Slot>, m: nat, n: nat)
    requires m <= n <= |slots|
    ensures WeightBefore(slots[..n], m) == WeightBefore(slots, m)
    decreases m
  {
    if m > 0 {
      WeightBeforePrefix(slots, m - 1, n);
    }
  }

  /** A prefix of slots without overflow has no overflow either. */
  lemma NoOverflowPrefix(slots: seq<Slot>, n: nat)
    requires n <= |slots| && NoOverflow(slots)
    ensures NoOverflow(slots[..n])
  {
    WeightBeforePrefix(slots, n, n);
    WeightBeforeMonotone(slots, n, |slots|);
  }

  /** Whether the table holds the cumulative bands of the slots. */
  predicate Cumulative(slots: seq<Slot>, t: BandTable)
    requires |slots| <= 5 && |t.down| == 5 && |t.up| == 5
  {
    t.next == 1 + WeightBefore(slots, |slots|)
    && (forall s :: 0 <= s < |slots| && slots[s].Filled? ==>
          t.down[s] == 1 + WeightBefore(slots, s) && t.up[s] == t.down[s] + slots[s].weight - 1)
    && (forall s :: 0 <= s < 5 && (s >= |slots| || slots[s].Empty?) ==> t.down[s] == 0 && t.up[s] == 0)
  }

  /**
   * Without overflow the bands are cumulative: a filled slot starts one
   * past the weights before it and spans its own weight, an empty slot stays
   * 0, and the running bound ends one past the total.
   */
  lemma {:induction false} BandsCumulative(slots: seq<Slot>)
    requires |slots| <= 5 && NoOverflow(slots)
    ensures Cumulative(slots, Bands(slots))
    decreases |slots|
  {
    if slots != [] {
      NoOverflowPrefix(slots, |slots| - 1);
      BandsCumulative(slots[..|slots| - 1]);
      BandsCumulativeStep(slots);
    }
  }

  /** The induction step of BandsCumulative: one more slot keeps the table cumulative. */
  lemma BandsCumulativeStep(slots: seq<Slot>)
    requires 0 < |slots| <= 5 && NoOverflow(slots)
    requires Cumulative(slots[..|slots| - 1], Bands(slots[..|slots| - 1]))
    ensures Cumulative(slots, Bands(slots))
  {
    BandsStepNext(slots);
    forall s | 0 <= s < 5
      ensures s < |slots| && slots[s].Filled? ==>
        Bands(slots).down[s] == 1 + WeightBefore(slots, s) && Bands(slots).up[s] == Bands(slots).down[s] + slots[s].weight - 1
      ensures s >= |slots| || slots[s].Empty? ==> Bands(slots).down[s] == 0 && Bands(slots).up[s] == 0
    {
      BandsStepAt(slots, s);
    }
  }

  /** One more slot moves the running bound past the total weight. */
  lemma BandsStepNext(slots: seq<Slot>)
    requires 0 < |slots| <= 5 && NoOverflow(slots)
    requires Cumulative(slots[..|slots| - 1], Bands(slots[..|slots| - 1]))
    ensures Bands(slots).next == 1 + WeightBefore(slots, |slots|)
  {
    var n := |slots|;
    var p := slots[..n - 1];
    WeightBeforePrefix(slots, n - 1, n - 1);
    WeightBeforeMonotone(slots, n - 1, n);
    if slots[n - 1].Filled? {
      BandsStepFilled(slots, slots[n - 1].weight);
    } else {
      assert Bands(slots) == Bands(p);
    }
  }

  /** One more slot keeps the band of slot `s` cumulative. */
  lemma BandsStepAt(slots: seq<Slot>, s: nat)
    requires 0 < |slots| <= 5 && NoOverflow(slots) && s < 5
    requires Cumulative(slots[..|slots| - 1], Bands(slots[..|slots| - 1]))
    ensures s < |slots| && slots[s].Filled? ==>
      Bands(slots).down[s] == 1 + WeightBefore(slots, s) && Bands(slots).up[s] == Bands(slots).down[s] + slots[s].weight - 1
    ensures s >= |slots| || slots[s].Empty? ==> Bands(slots).down[s] == 0 && Bands(slots).up[s] == 0
  {
    var n := |slots|;
    var p := slots[..n - 1];
    WeightBeforeMonotone(slots, n - 1, n);
    if slots[n - 1].Empty? {
      assert Bands(slots) == Bands(p);
      if s < n - 1 {
        assert slots[s] == p[s];
        WeightBeforePrefix(slots, s, n - 1);
      }
    } else {
      WeightBeforePrefix(slots, n - 1, n - 1);
      BandsStepFilled(slots, slots[n - 1].weight);
      if s < n - 1 {
        assert slots[s] == p[s];
        WeightBeforePrefix(slots, s, n - 1);
      }
    }
  }

  /** A filled last slot spans its weight from one past the weights before it; the other slots keep their bands. */
  lemma BandsStepFilled(slots: seq<Slot>, w: int)
    requires 0 < |slots| <= 5 && slots[|slots| - 1] == Filled(w)
    requires Numbers.IsInt32(Bands(slots[..|slots| - 1]).next + w - 1)
    requires Numbers.IsInt32(Bands(slots[..|slots| - 1]).next + w)
    ensures Bands(slots).next == Bands(slots[..|slots| - 1]).next + w
    ensures Bands(slots).down[|slots| - 1] == Bands(slots[..|slots| - 1]).next
    ensures Bands(slots).up[|slots| - 1] == Bands(slots[..|slots| - 1]).next + w - 1
    ensures forall i :: 0 <= i < 5 && i != |slots| - 1 ==>
      Bands(slots).down[i] == Bands(slots[..|slots| - 1]).down[i] && Bands(slots).up[i] == Bands(slots[..|slots| - 1]).up[i]
  {
  }

  lemma {:induction false} WeightsEmptyBetween(slots: seq<Slot>, m: nat, n: nat)
    requires m <= n <= |slots| && forall k :: m <= k < n ==> slots[k].Empty?
    ensures WeightBefore(slots, n) == WeightBefore(slots, m)
    decreases n
  {
    if m < n {
      WeightsEmptyBetween(slots, m, n - 1);
    }
  }

  /** A filled slot that follows another filled slot with only empty slots between starts right after it. */
  lemma BandsContiguous(slots: seq<Slot>, s: nat, t: nat)
    requires |slots| <= 5 && NoOverflow(slots)
    requires s < t < |slots| && slots[s].Filled? && slots[t].Filled?
    requires forall k :: s < k < t ==> slots[k].Empty?
    ensures Bands(slots).down[t] == Bands(slots).up[s] + 1
  {
    BandsCumulative(slots);
    WeightsEmptyBetween(slots, s + 1, t);
  }

  /** subcycleb 3 with subper 200, 300 and 500 gives the bands [1,200], [201,500] and [501,1000]. */
  lemma BandsExample()
    ensures Bands([Filled(200), Filled(300), Filled(500)])
         == BandTable([1, 201, 501, 0, 0], [200, 500, 1000, 0, 0], 1001)
  {
    var ps := [Filled(200), Filled(300), Filled(500)];
    assert ps[..2][..1][..0] == [];
    assert Bands(ps[..2][..1]) == BandTable([1, 0, 0, 0, 0], [200, 0, 0, 0, 0], 201);
    assert Bands(ps[..2]) == BandTable([1, 201, 0, 0, 0], [200, 500, 0, 0, 0], 501);
  }

  /** A percentage written by int.ToString() fills its slot with that value. */
  lemma SlotOfText(n: int)
    requires Numbers.IsInt32(n)
    ensures SlotOf(Numbers.IntText(n)) == Filled(n)
  {
    Numbers.ParseIntText(n, 0);
  }

  /** A click range: the per and gaper attributes of a clrange/idx entry. */
  datatype ClickRange = ClickRange(per: int, gapPer: int)

  /** A time query: the url attribute of a tmquery/qlist entry. */
  datatype TimeQuery = TimeQuery(url: string)

  /** The click range of an idx entry, kept only when both values are positive. */
  function ClickRangeOf(idx: Element): (r: Option<ClickRange>)
    ensures r.Some? ==> r.value.per > 0 && r.value.gapPer > 0
  {
    var per := Numbers.ParseInt(AttributeValue(idx, "per"), 0);
    var gapPer := Numbers.ParseInt(AttributeValue(idx, "gaper"), 0);
    if per > 0 && gapPer > 0 then Some(ClickRange(per, gapPer)) else None
  }

  /** The click ranges of the idx entries under clrange, in document order. */
  function ClickRanges(program: Element): (r: seq<ClickRange>)
    ensures forall i :: 0 <= i < |r| ==> r[i].per > 0 && r[i].gapPer > 0
  {
    match FirstChild(program, "clrange")
    case None => []
    case Some(clRange) =>
      var rs := Seqs.FilterMap(ChildrenNamed(clRange, "idx"), ClickRangeOf);
      ClickRangesPositive(ChildrenNamed(clRange, "idx"));
      rs
  }

  lemma ClickRangesPositive(idxs: seq<Element>)
    ensures forall i :: 0 <= i < |Seqs.FilterMap(idxs, ClickRangeOf)| ==>
      Seqs.FilterMap(idxs, ClickRangeOf)[i].per > 0 && Seqs.FilterMap(idxs, ClickRangeOf)[i].gapPer > 0
  {
    forall i | 0 <= i < |Seqs.FilterMap(idxs, ClickRangeOf)|
      ensures Seqs.FilterMap(idxs, ClickRangeOf)[i].per > 0 && Seqs.FilterMap(idxs, ClickRangeOf)[i].gapPer > 0
    {
      var c := Seqs.FilterMap(idxs, ClickRangeOf)[i];
      Seqs.FilterMapMember(idxs, ClickRangeOf, c);
    }
  }

  /** `idx` is an idx child of `clRange` whose per and gaper attributes parse to the values of `c`. */
  predicate IsIdxFor(clRange: Element, idx: Element, c: ClickRange) {
    idx in clRange.children && idx.name == "idx"
    && Numbers.ParseInt(AttributeValue(idx, "per"), 0) == c.per
    && Numbers.ParseInt(AttributeValue(idx, "gaper"), 0) == c.gapPer
  }

  /** Every kept click range comes from an idx entry under the first clrange child. */
  lemma ClickRangesSound(program: Element, c: ClickRange)
    requires FirstChild(program, "clrange").Some? && c in ClickRanges(program)
    ensures exists idx :: IsIdxFor(FirstChild(program, "clrange").value, idx, c)
  {
    var clRange := FirstChild(program, "clrange").value;
    var idxs := ChildrenNamed(clRange, "idx");
    Seqs.FilterMapMember(idxs, ClickRangeOf, c);
    var i :| 0 <= i < |idxs| && ClickRangeOf(idxs[i]) == Some(c);
    ChildrenNamedMember(clRange, "idx", idxs[i]);
    assert IsIdxFor(clRange, idxs[i], c);
  }

  /** Every idx entry under the first clrange child whose per and gaper are both positive is kept. */
  lemma ClickRangesComplete(program: Element, idx: Element, c: ClickRange)
    requires FirstChild(program, "clrange").Some? && IsIdxFor(FirstChild(program, "clrange").value, idx, c)
    requires c.per > 0 && c.gapPer > 0
    ensures c in ClickRanges(program)
  {
    var clRange := FirstChild(program, "clrange").value;
    var idxs := ChildrenNamed(clRange, "idx");
    ChildrenNamedMember(clRange, "idx", idx);
    var i :| 0 <= i < |idxs| && idxs[i] == idx;
    assert ClickRangeOf(idxs[i]) == Some(c);
    Seqs.FilterMapMember(idxs, ClickRangeOf, c);
  }

  /** The time query of a qlist entry, kept only when its url is present and non-empty. */
  function TimeQueryOf(qlist: Element): (r: Option<TimeQuery>)
    ensures r.Some? ==> r.value.url != "" && AttributeValue(qlist, "url") == Some(r.value.url)
    ensures r.None? <==> AttributeValue(qlist, "url").None? || AttributeValue(qlist, "url") == Some("")
  {
    match AttributeValue(qlist, "url")
    case Some(url) => if url != "" then Some(TimeQuery(url)) else None
    case None => None
  }

  /** The time queries of the qlist entries under tmquery, in document order. */
  function TimeQueries(tmQuery: Element): (r: seq<TimeQuery>)
    ensures |r| <= |ChildrenNamed(tmQuery, "qlist")|
    ensures forall i :: 0 <= i < |r| ==> r[i].url != ""
  {
    var qs := Seqs.FilterMap(ChildrenNamed(tmQuery, "qlist"), TimeQueryOf);
    TimeQueriesNonEmpty(ChildrenNamed(tmQuery, "qlist"));
    qs
  }

  lemma TimeQueriesNonEmpty(qlists: seq<Element>)
    ensures forall i :: 0 <= i < |Seqs.FilterMap(qlists, TimeQueryOf)| ==> Seqs.FilterMap(qlists, TimeQueryOf)[i].url != ""
  {
    forall i | 0 <= i < |Seqs.FilterMap(qlists, TimeQueryOf)|
      ensures Seqs.FilterMap(qlists, TimeQueryOf)[i].url != ""
    {
      var q := Seqs.FilterMap(qlists, TimeQueryOf)[i];
      Seqs.FilterMapMember(qlists, TimeQueryOf, q);
    }
  }

  /** A time query is kept exactly when some qlist child carries its url, which is non-empty. */
  lemma TimeQueriesMember(tmQuery: Element, q: TimeQuery)
    ensures q in TimeQueries(tmQuery) <==>
      q.url != "" && exists e :: e in tmQuery.children && e.name == "qlist" && AttributeValue(e, "url") == Some(q.url)
  {
    var qs := ChildrenNamed(tmQuery, "qlist");
    Seqs.FilterMapMember(qs, TimeQueryOf, q);
    if q in TimeQueries(tmQuery) {
      var i :| 0 <= i < |qs| && TimeQueryOf(qs[i]) == Some(q);
      ChildrenNamedMember(tmQuery, "qlist", qs[i]);
    }
    if q.url != "" && exists e :: e in tmQuery.children && e.name == "qlist" && AttributeValue(e, "url") == Some(q.url) {
      var e :| e in tmQuery.children && e.name == "qlist" && AttributeValue(e, "url") == Some(q.url);
      ChildrenNamedMember(tmQuery, "qlist", e);
      var i :| 0 <= i < |qs| && qs[i] == e;
      assert TimeQueryOf(qs[i]) == Some(q);
    }
  }

  /** Reading OnOff went through the hidden-settings child, so its decoded name is a valid XML name. */
  lemma HiddenElementValid(env: JhCrypt.Platform, password: string, program: Element)
    requires Assign(Outcomes(env, password, program), SettingCount).failure.None?
    ensures IsNCName(DecryptAttr(env, password, HiddenElement))
  {
    AssignReads(Outcomes(env, password, program), SettingCount);
    assert Outcomes(env, password, program)[Ordinal(OnOff)].Ok?;
  }

  /** The first `n` band slots, each from its subper text. */
  function BandSlots(program: Element, childName: string, n: nat): (r: seq<Slot>)
    ensures |r| == n
  {
    if n == 0 then [] else BandSlots(program, childName, n - 1) + [SlotOf(SubPercent(program, childName, n - 1))]
  }

  /** Slot `k` is read from the subper{k + 1} text. */
  lemma {:induction false} BandSlotsAt(program: Element, childName: string, n: nat, k: nat)
    requires k < n
    ensures BandSlots(program, childName, n)[k] == SlotOf(SubPercent(program, childName, k))
    decreases n
  {
    var prefix := BandSlots(program, childName, n - 1);
    var last := SlotOf(SubPercent(program, childName, n - 1));
    assert BandSlots(program, childName, n) == prefix + [last];
    if k < n - 1 {
      BandSlotsAt(program, childName, n - 1, k);
      assert (prefix + [last])[k] == prefix[k];
    } else {
      assert (prefix + [last])[k] == last;
    }
  }

  /** The slots the band loop visits: BandCount(ParseInt(subcycleb, 0)) of them. */
  function VisitedSlots(program: Element, childName: string, subCycle: string): (r: seq<Slot>)
    ensures |r| == BandCount(Numbers.ParseInt(Some(subCycle), 0)) && |r| <= 5
  {
    BandSlots(program, childName, BandCount(Numbers.ParseInt(Some(subCycle), 0)))
  }

  /** Everything LoadInformation sets. */
  datatype Info = Info(
    values: seq<string>,
    subPerDown: seq<int>, subPerUp: seq<int>,
    clickRanges: seq<ClickRange>,
    sTime: string, eTime: string, qCnt: string,
    timeQueries: seq<TimeQuery>,
    siteList: Option<Element>, mktQuery: Option<Element>)

  /** The state UnloadInformation leaves, which is also the state of a new reader. */
  function Cleared(): (r: Info)
    ensures |r.values| == SettingCount && forall k :: 0 <= k < SettingCount ==> r.values[k] == ""
    ensures r.subPerDown == ZeroBands && r.subPerUp == ZeroBands
    ensures r.clickRanges == [] && r.timeQueries == [] && r.siteList.None? && r.mktQuery.None?
  {
    Info(ClearedValues(), ZeroBands, ZeroBands, [], "", "", "", [], None, None)
  }

  /** What LoadInformation leaves and what it returns. */
  datatype Loaded = Loaded(info: Info, ok: bool)

  /** The program section: the settings, then the bands and the click ranges unless a read threw. */
  function LoadProgram(env: JhCrypt.Platform, password: string, program: Element): (r: Loaded)
    ensures r.ok <==> AllRead(Outcomes(env, password, program), SettingCount)
  {
    var read := Assign(Outcomes(env, password, program), SettingCount);
    AssignReads(Outcomes(env, password, program), SettingCount);
    if read.failure.Some? then Loaded(Cleared().(values := read.values), false)
    else
      var slots := VisitedSlots(program, DecryptAttr(env, password, HiddenElement), read.values[Ordinal(SubCycleB)]);
      var table := Bands(slots);
      Loaded(Cleared().(values := read.values, subPerDown := table.down, subPerUp := table.up,
                        clickRanges := ClickRanges(program)), true)
  }

  /** LoadProgram when a read throws: only the settings read so far are set. */
  lemma LoadProgramFailed(env: JhCrypt.Platform, password: string, program: Element)
    requires Assign(Outcomes(env, password, program), SettingCount).failure.Some?
    ensures LoadProgram(env, password, program)
         == Loaded(Cleared().(values := Assign(Outcomes(env, password, program), SettingCount).values), false)
  {
  }

  /** LoadProgram when every read returns: the settings, the bands over the visited slots and the click ranges. */
  lemma LoadProgramRead(env: JhCrypt.Platform, password: string, program: Element)
    requires Assign(Outcomes(env, password, program), SettingCount).failure.None?
    ensures var values := Assign(Outcomes(env, password, program), SettingCount).values;
      var table := Bands(VisitedSlots(program, DecryptAttr(env, password, HiddenElement), values[Ordinal(SubCycleB)]));
      LoadProgram(env, password, program)
      == Loaded(Cleared().(values := values, subPerDown := table.down, subPerUp := table.up,
                           clickRanges := ClickRanges(program)), true)
  {
  }

  /** The tmquery section: its three attributes and its time queries. */
  function LoadTimeQuery(info: Info, tmQuery: Element): Info {
    info.(sTime := AttributeOrEmpty(tmQuery, "stime"), eTime := AttributeOrEmpty(tmQuery, "etime"),
          qCnt := AttributeOrEmpty(tmQuery, "qcnt"), timeQueries := TimeQueries(tmQuery))
  }

  /**
   * LoadInformation on a document root, from cleared state: the program
   * section, then tmquery, widelist and mktquery. A read that throws in the
   * program section ends the load with false and keeps what was set so far.
   */
  function Load(env: JhCrypt.Platform, password: string, root: Element): (r: Loaded)
    ensures |r.info.values| == SettingCount
    ensures r.ok <==> FirstChild(root, "program").None?
                      || AllRead(Outcomes(env, password, FirstChild(root, "program").value), SettingCount)
    ensures !r.ok ==> r.info == Cleared().(values := r.info.values)
    ensures r.ok ==> r.info.siteList == FirstChild(root, "widelist") && r.info.mktQuery == FirstChild(root, "mktquery")
    ensures r.ok && FirstChild(root, "program").None? ==>
      r.info.values == ClearedValues() && r.info.subPerDown == ZeroBands && r.info.subPerUp == ZeroBands
      && r.info.clickRanges == []
    ensures r.ok && FirstChild(root, "tmquery").None? ==>
      r.info.sTime == "" && r.info.eTime == "" && r.info.qCnt == "" && r.info.timeQueries == []
  {
    var afterProgram := AfterProgram(env, password, root);
    if !afterProgram.ok then afterProgram else Loaded(Finish(afterProgram.info, root), true)
  }

  /** The state after the program section of Load, from cleared state. */
  function AfterProgram(env: JhCrypt.Platform, password: string, root: Element): Loaded {
    match FirstChild(root, "program")
    case None => Loaded(Cleared(), true)
    case Some(program) => LoadProgram(env, password, program)
  }

  /** The rest of Load after a program section that did not throw: tmquery, widelist and mktquery. */
  function Finish(info: Info, root: Element): Info {
    WithTimeQuery(info, root).(siteList := FirstChild(root, "widelist"), mktQuery := FirstChild(root, "mktquery"))
  }

  /** The tmquery section, when the root has one. */
  function WithTimeQuery(info: Info, root: Element): Info {
    match FirstChild(root, "tmquery")
    case None => info
    case Some(tmQuery) => LoadTimeQuery(info, tmQuery)
  }

  /** After a successful load every setting holds what reading it gave. */
  lemma LoadSettings(env: JhCrypt.Platform, password: string, root: Element, s: Setting)
    requires FirstChild(root, "program").Some? && Load(env, password, root).ok
    ensures Load(env, password, root).info.values[Ordinal(s)]
         == ValueOf(ReadSetting(env, password, FirstChild(root, "program").value, s))
  {
    var program := FirstChild(root, "program").value;
    var outcomes := Outcomes(env, password, program);
    LoadValues(env, password, root);
    AssignReads(outcomes, SettingCount);
    assert outcomes[Ordinal(s)] == ReadSetting(env, password, program, s);
  }

  /** With a program section, the loaded setting values are those the assignments leave. */
  lemma LoadValues(env: JhCrypt.Platform, password: string, root: Element)
    requires FirstChild(root, "program").Some?
    ensures Load(env, password, root).info.values
         == Assign(Outcomes(env, password, FirstChild(root, "program").value), SettingCount).values
  {
    var afterProgram := AfterProgram(env, password, root);
    assert afterProgram == LoadProgram(env, password, FirstChild(root, "program").value);
  }

  /**
   * After a failed load some setting's read threw, every setting before it
   * holds what it read and every later one is empty.
   */
  lemma LoadFailure(env: JhCrypt.Platform, password: string, root: Element)
    requires !Load(env, password, root).ok
    ensures FirstChild(root, "program").Some?
    ensures var outcomes := Outcomes(env, password, FirstChild(root, "program").value);
      exists f :: 0 <= f < SettingCount && AllRead(outcomes, f) && outcomes[f].Thrown?
        && Load(env, password, root).info.values == ValuesAfter(outcomes, f)
  {
    var outcomes := Outcomes(env, password, FirstChild(root, "program").value);
    LoadValues(env, password, root);
    AssignFailure(outcomes, SettingCount);
    var f :| 0 <= f < SettingCount && FailedAt(outcomes, f, Assign(outcomes, SettingCount));
  }

  /**
   * After a successful load of a program section whose weights do not
   * overflow, the band arrays hold the cumulative bands of the visited slots.
   */
  lemma LoadBands(env: JhCrypt.Platform, password: string, root: Element)
    requires FirstChild(root, "program").Some? && Load(env, password, root).ok
    ensures var info := Load(env, password, root).info;
      var slots := VisitedSlots(FirstChild(root, "program").value, DecryptAttr(env, password, HiddenElement),
                                info.values[Ordinal(SubCycleB)]);
      NoOverflow(slots) ==>
        Cumulative(slots, BandTable(info.subPerDown, info.subPerUp, 1 + WeightBefore(slots, |slots|)))
  {
    LoadKeepsBands(env, password, root);
    BandsOfInfo(Load(env, password, root).info, FirstChild(root, "program").value,
                DecryptAttr(env, password, HiddenElement));
  }

  /** Band arrays computed over the visited slots are cumulative when the weights do not overflow. */
  lemma BandsOfInfo(info: Info, program: Element, hidden: string)
    requires |info.values| == SettingCount
    requires var table := Bands(VisitedSlots(program, hidden, info.values[Ordinal(SubCycleB)]));
      info.subPerDown == table.down && info.subPerUp == table.up
    ensures var slots := VisitedSlots(program, hidden, info.values[Ordinal(SubCycleB)]);
      NoOverflow(slots) ==>
        Cumulative(slots, BandTable(info.subPerDown, info.subPerUp, 1 + WeightBefore(slots, |slots|)))
  {
    var slots := VisitedSlots(program, hidden, info.values[Ordinal(SubCycleB)]);
    if NoOverflow(slots) {
      BandsCumulative(slots);
      assert BandTable(info.subPerDown, info.subPerUp, 1 + WeightBefore(slots, |slots|)) == Bands(slots);
    }
  }

  /** After a successful load the band arrays are those the band loop computes over the visited slots. */
  lemma LoadKeepsBands(env: JhCrypt.Platform, password: string, root: Element)
    requires FirstChild(root, "program").Some? && Load(env, password, root).ok
    ensures var info := Load(env, password, root).info;
      |info.values| == SettingCount
      && var table := Bands(VisitedSlots(FirstChild(root, "program").value, DecryptAttr(env, password, HiddenElement),
                                         info.values[Ordinal(SubCycleB)]));
      info.subPerDown == table.down && info.subPerUp == table.up
  {
    var afterProgram := AfterProgram(env, password, root);
    assert afterProgram == LoadProgram(env, password, FirstChild(root, "program").value);
    assert Load(env, password, root).info == Finish(afterProgram.info, root);
  }

  /**
   * The log URL getters: "" unless the root element is named "global",
   * otherwise the url attribute of set/{logName}, or "" when any step is missing.
   */
  function LogUrl(root: Option<Element>, logName: string): (r: string)
    ensures root.None? || root.value.name != "global" ==> r == ""
    ensures r != "" ==> root.Some? && root.value.name == "global" && FirstChild(root.value, "set").Some?
    ensures r != "" ==> FirstChild(FirstChild(root.value, "set").value, logName).Some?
    ensures r != "" ==> AttributeValue(FirstChild(FirstChild(root.value, "set").value, logName).value, "url") == Some(r)
  {
    if root.None? || root.value.name != "global" then ""
    else
      match FirstChild(root.value, "set")
      case None => ""
      case Some(setSection) =>
        match FirstChild(setSection, logName)
        case None => ""
        case Some(log) => AttributeOrEmpty(log, "url")
  }

  /** A global document with set/ilog@url = u yields u for iLog and "" for the missing uLog. */
  lemma LogUrlExample(u: string)
    ensures var log := Element("ilog", [Attribute("url", u)], []);
      var root := Element("global", [], [Element("set", [], [log])]);
      LogUrl(Some(root), "ilog") == u && LogUrl(Some(root), "ulog") == ""
  {
  }

  /** The decryption that DecryptAttr performs, through the shared JhCrypt state. */
  method DecryptAttrWith(crypt: JhCrypt.Crypt, env: JhCrypt.Platform, encrypted: string) returns (r: string)
    ensures r == DecryptAttr(env, crypt.cryptoPassword, encrypted)
  {
    if encrypted == "" {
      return encrypted;
    }
    r := crypt.Decrypt(env, encrypted);
  }

  /** One line of the program section: GetChildAttrValue(program, DecryptAttr(element), DecryptAttr(attribute)). */
  method ReadOne(env: JhCrypt.Platform, crypt: JhCrypt.Crypt, program: Element, setting: Setting) returns (read: Result<string>)
    ensures read == ReadSetting(env, crypt.cryptoPassword, program, setting)
  {
    var childName := DecryptAttrWith(crypt, env, ElementLiteral(setting));
    var attrName := DecryptAttrWith(crypt, env, AttributeLiteral(setting));
    read := GetChildAttrValue(program, childName, attrName);
  }

  /** Reads setting `i`, which gives outcome `i`. */
  method ReadNth(env: JhCrypt.Platform, crypt: JhCrypt.Crypt, program: Element, i: nat) returns (read: Result<string>)
    requires i < SettingCount
    ensures read == Outcomes(env, crypt.cryptoPassword, program)[i]
  {
    read := ReadOne(env, crypt, program, AllSettings[i]);
  }

  /**
   * A configuration reader: the parsed document, its root, and what
   * LoadInformation extracted from it.
   */
  class ConfigReader {
    var document: Option<Document>
    var root: Option<Element>
    var values: seq<string>
    const subPerDown: array<int>
    const subPerUp: array<int>
    var clickRanges: seq<ClickRange>
    var sTime: string
    var eTime: string
    var qCnt: string
    var timeQueries: seq<TimeQuery>
    var siteList: Option<Element>
    var mktQuery: Option<Element>

    predicate Valid()
      reads this
    {
      subPerDown.Length == 5 && subPerUp.Length == 5 && subPerDown != subPerUp && |values| == SettingCount
    }

    /** What LoadInformation has set, as a value. */
    function Snapshot(): Info
      reads this, subPerDown, subPerUp
    {
      Info(values, subPerDown[..], subPerUp[..], clickRanges, sTime, eTime, qCnt, timeQueries, siteList, mktQuery)
    }

    /** The current value of a setting. */
    function Value(s: Setting): string
      reads this
      requires Valid()
    {
      values[Ordinal(s)]
    }

    constructor ()
      ensures Valid() && document.None? && root.None? && Snapshot() == Cleared()
      ensures fresh(subPerDown) && fresh(subPerUp)
    {
      document := None;
      root := None;
      values := ClearedValues();
      subPerDown := new int[5](_ => 0);
      subPerUp := new int[5](_ => 0);
      clickRanges := [];
      sTime, eTime, qCnt := "", "", "";
      timeQueries := [];
      siteList, mktQuery := None, None;
    }

    /**
     * LoadXml: parses the text with the supplied parser (XDocument.Parse).
     * A parse that throws returns false and leaves the document as it was;
     * otherwise the document and its root are replaced and the result says
     * whether there is a root.
     */
    method LoadXml(content: string, parse: string -> Result<Document>) returns (ok: bool)
      requires Valid()
      modifies this
      ensures Valid() && Snapshot() == old(Snapshot())
      ensures parse(content).Thrown? ==> !ok && document == old(document) && root == old(root)
      ensures parse(content).Ok? ==> document == Some(parse(content).value) && root == parse(content).value.root
      ensures ok <==> parse(content).Ok? && root.Some?
    {
      match parse(content)
      case Thrown(_) =>
        return false;
      case Ok(doc) =>
        document := Some(doc);
        root := doc.root;
        return root.Some?;
    }

    /** UnloadInformation: every setting empty, both band arrays zero, every list empty, both sections null. */
    method UnloadInformation()
      requires Valid()
      modifies this`values, this`clickRanges, this`sTime, this`eTime, this`qCnt, this`timeQueries
      modifies this`siteList, this`mktQuery, subPerDown, subPerUp
      ensures Valid() && Snapshot() == Cleared()
      ensures document == old(document) && root == old(root)
    {
      values := ClearedValues();
      forall i | 0 <= i < 5 {
        subPerDown[i] := 0;
      }
      forall i | 0 <= i < 5 {
        subPerUp[i] := 0;
      }
      clickRanges := [];
      timeQueries := [];
      siteList, mktQuery := None, None;
      sTime, eTime, qCnt := "", "", "";
    }

    /**
     * LoadInformation: false without a root; otherwise the state is cleared
     * and the document read again, as Load describes.
     */
    method LoadInformation(env: JhCrypt.Platform, crypt: JhCrypt.Crypt) returns (ok: bool)
      requires Valid()
      modifies this`values, this`clickRanges, this`sTime, this`eTime, this`qCnt, this`timeQueries
      modifies this`siteList, this`mktQuery, subPerDown, subPerUp
      ensures Valid() && document == old(document) && root == old(root)
      ensures old(root).None? ==> !ok && Snapshot() == old(Snapshot())
      ensures old(root).Some? ==> Loaded(Snapshot(), ok) == Load(env, crypt.cryptoPassword, root.value)
    {
      if root.None? {
        return false;
      }
      UnloadInformation();
      ok := Reload(env, crypt, root.value);
    }

    /** LoadInformation past its root check: the program section, then the rest unless a read threw. */
    method Reload(env: JhCrypt.Platform, crypt: JhCrypt.Crypt, top: Element) returns (ok: bool)
      requires Valid() && Snapshot() == Cleared()
      modifies this`values, this`clickRanges, this`sTime, this`eTime, this`qCnt, this`timeQueries
      modifies this`siteList, this`mktQuery, subPerDown, subPerUp
      ensures Valid() && Loaded(Snapshot(), ok) == Load(env, crypt.cryptoPassword, top)
    {
      var program := FirstChild(top, "program");
      if program.Some? {
        ok := ReadProgram(env, crypt, program.value);
        if !ok {
          return;
        }
      }
      ReadRest(top);
      return true;
    }

    /** The sections after the program section: tmquery, then widelist and mktquery. */
    method ReadRest(top: Element)
      requires Valid() && timeQueries == []
      modifies this`sTime, this`eTime, this`qCnt, this`timeQueries, this`siteList, this`mktQuery
      ensures Valid() && Snapshot() == Finish(old(Snapshot()), top)
    {
      ghost var before := Snapshot();
      var tmQuery := FirstChild(top, "tmquery");
      if tmQuery.Some? {
        ReadTimeQuery(tmQuery.value);
      }
      assert Snapshot() == WithTimeQuery(before, top);
      siteList := FirstChild(top, "widelist");
      mktQuery := FirstChild(top, "mktquery");
    }

    /** The program section of LoadInformation, from cleared state. */
    method ReadProgram(env: JhCrypt.Platform, crypt: JhCrypt.Crypt, program: Element) returns (ok: bool)
      requires Valid() && Snapshot() == Cleared()
      modifies this`values, this`clickRanges, subPerDown, subPerUp
      ensures Valid()
      ensures Loaded(Snapshot(), ok) == LoadProgram(env, crypt.cryptoPassword, program)
    {
      ok := ReadSettings(env, crypt, program);
      assert Snapshot() == Cleared().(values := values);
      if !ok {
        LoadProgramFailed(env, crypt.cryptoPassword, program);
        return;
      }
      ReadTables(env, crypt, program);
    }

    /** The bands and the click ranges of the program section, once every setting was read. */
    method ReadTables(env: JhCrypt.Platform, crypt: JhCrypt.Crypt, program: Element)
      requires Valid() && Snapshot() == Cleared().(values := values)
      requires Assign(Outcomes(env, crypt.cryptoPassword, program), SettingCount) == SettingsRead(values, None)
      modifies this`clickRanges, subPerDown, subPerUp
      ensures Valid() && Loaded(Snapshot(), true) == LoadProgram(env, crypt.cryptoPassword, program)
    {
      var hidden := DecryptAttrWith(crypt, env, HiddenElement);
      HiddenElementValid(env, crypt.cryptoPassword, program);
      ReadBands(program, hidden);
      ReadClickRanges(program);
      LoadProgramRead(env, crypt.cryptoPassword, program);
      assert Snapshot() == Cleared().(values := values, subPerDown := subPerDown[..], subPerUp := subPerUp[..],
                                      clickRanges := clickRanges);
    }

    /** The 21 setting assignments, stopping at the first read that throws. */
    method ReadSettings(env: JhCrypt.Platform, crypt: JhCrypt.Crypt, program: Element) returns (ok: bool)
      requires values == ClearedValues()
      modifies this`values
      ensures var read := Assign(Outcomes(env, crypt.cryptoPassword, program), SettingCount);
        values == read.values && (ok <==> read.failure.None?)
    {
      ghost var outcomes := Outcomes(env, crypt.cryptoPassword, program);
      var i := 0;
      while i < SettingCount
        invariant i <= SettingCount
        invariant Assign(outcomes, i) == SettingsRead(values, None)
      {
        ok := ReadNext(env, crypt, program, i);
        if !ok {
          return;
        }
        i := i + 1;
      }
      return true;
    }

    /** Reads setting `i` and assigns it the value the read returned; a read that throws assigns nothing. */
    method ReadNext(env: JhCrypt.Platform, crypt: JhCrypt.Crypt, program: Element, i: nat) returns (ok: bool)
      requires i < SettingCount
      requires Assign(Outcomes(env, crypt.cryptoPassword, program), i) == SettingsRead(values, None)
      modifies this`values
      ensures ok ==> Assign(Outcomes(env, crypt.cryptoPassword, program), i + 1) == SettingsRead(values, None)
      ensures !ok ==> var read := Assign(Outcomes(env, crypt.cryptoPassword, program), SettingCount);
        values == read.values && read.failure.Some?
    {
      ghost var outcomes := Outcomes(env, crypt.cryptoPassword, program);
      var read := ReadNth(env, crypt, program, i);
      AssignStep(outcomes, i);
      if read.Thrown? {
        AssignStops(outcomes, i + 1, SettingCount);
        return false;
      }
      values := values[i := read.value];
      return true;
    }

    /**
     * The band loop: `for (s = 0; s < nSub && s < 5; s++)`, over the child
     * whose decoded name is `hidden`. Decoding the name again on every pass
     * gives the same text, so it is decoded once by the caller.
     */
    method ReadBands(program: Element, hidden: string)
      requires Valid() && IsNCName(hidden)
      requires subPerDown[..] == ZeroBands && subPerUp[..] == ZeroBands
      modifies subPerDown, subPerUp
      ensures var slots := VisitedSlots(program, hidden, values[Ordinal(SubCycleB)]);
        subPerDown[..] == Bands(slots).down && subPerUp[..] == Bands(slots).up
    {
      var subCycle := values[Ordinal(SubCycleB)];
      var nSub := Numbers.ParseInt(Some(subCycle), 0);
      var nSubDown := 1;
      ghost var count := BandCount(nSub);
      var s := 0;
      while s < nSub && s < 5
        invariant 0 <= s <= count
        invariant forall i :: 0 <= i < 5 ==>
          subPerDown[i] == Bands(BandSlots(program, hidden, s)).down[i] && subPerUp[i] == Bands(BandSlots(program, hidden, s)).up[i]
        invariant nSubDown == Bands(BandSlots(program, hidden, s)).next
      {
        nSubDown := VisitSlot(program, hidden, s, nSubDown);
        s := s + 1;
      }
      assert s == count;
      ghost var table := Bands(BandSlots(program, hidden, s));
      assert subPerDown[..] == table.down;
      assert subPerUp[..] == table.up;
    }

    /** One pass of the band loop: reads subper{s + 1} and fills slot `s` from it. */
    method VisitSlot(program: Element, hidden: string, s: nat, nSubDown: int) returns (next: int)
      requires Valid() && IsNCName(hidden) && s < 5
      requires forall i :: 0 <= i < 5 ==>
        subPerDown[i] == Bands(BandSlots(program, hidden, s)).down[i] && subPerUp[i] == Bands(BandSlots(program, hidden, s)).up[i]
      requires nSubDown == Bands(BandSlots(program, hidden, s)).next
      modifies subPerDown, subPerUp
      ensures forall i :: 0 <= i < 5 ==>
        subPerDown[i] == Bands(BandSlots(program, hidden, s + 1)).down[i] && subPerUp[i] == Bands(BandSlots(program, hidden, s + 1)).up[i]
      ensures next == Bands(BandSlots(program, hidden, s + 1)).next
    {
      var slot := ReadSlot(program, hidden, s);
      assert BandSlots(program, hidden, s + 1) == BandSlots(program, hidden, s) + [slot];
      BandsSnoc(BandSlots(program, hidden, s), slot);
      next := FillSlot(s, Bands(BandSlots(program, hidden, s)), slot, nSubDown);
    }

    /** Reads subper{s + 1}: an empty text leaves the slot alone, any other text is ParseInt(percent, 0). */
    static method ReadSlot(program: Element, hidden: string, s: nat) returns (slot: Slot)
      requires IsNCName(hidden) && s < 5
      ensures slot == SlotOf(SubPercent(program, hidden, s))
    {
      SubPercentRead(program, hidden, s);
      var percent := GetChildAttrValue(program, hidden, SubPerName(s + 1));
      slot := SlotOf(percent.value);
    }

    /** One pass of the band loop: a filled slot spans [nSubDown, nSubDown + weight - 1]; an empty one changes nothing. */
    method FillSlot(s: nat, ghost prev: BandTable, slot: Slot, nSubDown: int) returns (next: int)
      requires Valid() && s < 5 && |prev.down| == 5 && |prev.up| == 5
      requires forall i :: 0 <= i < 5 ==> subPerDown[i] == prev.down[i] && subPerUp[i] == prev.up[i]
      requires nSubDown == prev.next
      modifies subPerDown, subPerUp
      ensures forall i :: 0 <= i < 5 ==>
        subPerDown[i] == BandStep(prev, s, slot).down[i] && subPerUp[i] == BandStep(prev, s, slot).up[i]
      ensures next == BandStep(prev, s, slot).next
    {
      match slot {
        case Empty =>
          next := nSubDown;
        case Filled(w) =>
          subPerDown[s] := nSubDown;
          subPerUp[s] := Numbers.Wrap32(nSubDown + w - 1);
          next := Numbers.Wrap32(subPerUp[s] + 1);
      }
    }

    /** The clrange section: the idx entries whose per and gaper are both positive, in document order. */
    method ReadClickRanges(program: Element)
      requires clickRanges == []
      modifies this`clickRanges
      ensures clickRanges == ClickRanges(program)
    {
      var clRange := FirstChild(program, "clrange");
      if clRange.Some? {
        ReadRanges(ChildrenNamed(clRange.value, "idx"));
      }
    }

    /** The clrange loop over the idx entries. */
    method ReadRanges(idxs: seq<Element>)
      requires clickRanges == []
      modifies this`clickRanges
      ensures clickRanges == Seqs.FilterMap(idxs, ClickRangeOf)
    {
      var j := 0;
      while j < |idxs|
        invariant 0 <= j <= |idxs|
        invariant clickRanges == Seqs.FilterMap(idxs[..j], ClickRangeOf)
      {
        AddClickRange(idxs, j);
        j := j + 1;
      }
      assert idxs[..j] == idxs;
    }

    /** One pass of the clrange loop, over entry `j`. */
    method AddClickRange(idxs: seq<Element>, j: nat)
      requires j < |idxs| && clickRanges == Seqs.FilterMap(idxs[..j], ClickRangeOf)
      modifies this`clickRanges
      ensures clickRanges == Seqs.FilterMap(idxs[..j + 1], ClickRangeOf)
    {
      Seqs.TakeSnoc(idxs, j);
      AppendClickRange(idxs[..j], idxs[j]);
    }

    /** The range of `idx` is appended when both its values are positive. */
    method AppendClickRange(ghost visited: seq<Element>, idx: Element)
      requires clickRanges == Seqs.FilterMap(visited, ClickRangeOf)
      modifies this`clickRanges
      ensures clickRanges == Seqs.FilterMap(visited + [idx], ClickRangeOf)
    {
      Seqs.FilterMapSnoc(visited, idx, ClickRangeOf);
      var range := ClickRangeOf(idx);
      if range.Some? {
        clickRanges := clickRanges + [range.value];
      }
    }

    /** The tmquery section: its attributes, then the qlist entries with a non-empty url, in document order. */
    method ReadTimeQuery(tmQuery: Element)
      requires timeQueries == []
      modifies this`sTime, this`eTime, this`qCnt, this`timeQueries
      ensures sTime == AttributeOrEmpty(tmQuery, "stime") && eTime == AttributeOrEmpty(tmQuery, "etime")
      ensures qCnt == AttributeOrEmpty(tmQuery, "qcnt") && timeQueries == TimeQueries(tmQuery)
    {
      sTime := AttributeOrEmpty(tmQuery, "stime");
      eTime := AttributeOrEmpty(tmQuery, "etime");
      qCnt := AttributeOrEmpty(tmQuery, "qcnt");
      ReadQueries(ChildrenNamed(tmQuery, "qlist"));
    }

    /** The qlist loop: the entries with a non-empty url, in document order. */
    method ReadQueries(qs: seq<Element>)
      requires timeQueries == []
      modifies this`timeQueries
      ensures timeQueries == Seqs.FilterMap(qs, TimeQueryOf)
    {
      var j := 0;
      while j < |qs|
        invariant 0 <= j <= |qs|
        invariant timeQueries == Seqs.FilterMap(qs[..j], TimeQueryOf)
      {
        AddTimeQuery(qs, j);
        j := j + 1;
      }
      assert qs[..j] == qs;
    }

    /** One pass of the qlist loop, over entry `j`. */
    method AddTimeQuery(qs: seq<Element>, j: nat)
      requires j < |qs| && timeQueries == Seqs.FilterMap(qs[..j], TimeQueryOf)
      modifies this`timeQueries
      ensures timeQueries == Seqs.FilterMap(qs[..j + 1], TimeQueryOf)
    {
      Seqs.TakeSnoc(qs, j);
      AppendTimeQuery(qs[..j], qs[j]);
    }

    /** The query of `q` is appended when its url is non-empty. */
    method AppendTimeQuery(ghost visited: seq<Element>, q: Element)
      requires timeQueries == Seqs.FilterMap(visited, TimeQueryOf)
      modifies this`timeQueries
      ensures timeQueries == Seqs.FilterMap(visited + [q], TimeQueryOf)
    {
      Seqs.FilterMapSnoc(visited, q, TimeQueryOf);
      var query := TimeQueryOf(q);
      if query.Some? {
        timeQueries := timeQueries + [query.value];
      }
    }

    function GetILogUrl(): string reads this { LogUrl(root, "ilog") }
    function GetULogUrl(): string reads this { LogUrl(root, "ulog") }
    function GetDLogUrl(): string reads this { LogUrl(root, "dlog") }
  }

  /** An NProgram entry of the install document. */
  datatype NProgram = NProgram(name: string, version: string)

  /** An NFile entry of the install document. */
  datatype NFile = NFile(programName: string, fileId: int, folder: string, filename: string,
                         downloadUrl: string, minSize: string, autoRunKeyName: string)

  /** InstallReader.FindNProgram: the first program whose name matches case-insensitively, or null. */
  function FindNProgram(programs: seq<NProgram>, name: string): (r: Option<NProgram>)
    ensures r.None? <==> forall i :: 0 <= i < |programs| ==> !Text.EqualsIgnoreCase(programs[i].name, name)
    ensures r.Some? ==> exists i :: 0 <= i < |programs| && programs[i] == r.value
                                  && Text.EqualsIgnoreCase(r.value.name, name)
                                  && forall j :: 0 <= j < i ==> !Text.EqualsIgnoreCase(programs[j].name, name)
  {
    match Seqs.FindFirst(programs, (p: NProgram) => Text.EqualsIgnoreCase(p.name, name))
    case Some(i) => Some(programs[i])
    case None => None
  }

  /** InstallReader.FindNFile: the first file of that program (case-insensitive) with that id, or null. */
  function FindNFile(files: seq<NFile>, programName: string, fileId: int): (r: Option<NFile>)
    ensures r.None? <==> forall i :: 0 <= i < |files| ==>
      !(Text.EqualsIgnoreCase(files[i].programName, programName) && files[i].fileId == fileId)
    ensures r.Some? ==> Text.EqualsIgnoreCase(r.value.programName, programName) && r.value.fileId == fileId
    ensures r.Some? ==> exists i :: 0 <= i < |files| && files[i] == r.value && forall j :: 0 <= j < i ==>
      !(Text.EqualsIgnoreCase(files[j].programName, programName) && files[j].fileId == fileId)
  {
    match Seqs.FindFirst(files, (f: NFile) => Text.EqualsIgnoreCase(f.programName, programName) && f.fileId == fileId)
    case Some(i) => Some(files[i])
    case None => None
  }
}

=== FILE: jh_crypt.dfy ===
/**
 * JhCrypt (ToastPop.Core/Crypto/JhCrypt.cs): text obfuscation on top of a
 * fresh Xor256Stream. Encrypt turns the UTF-8 bytes of a string into
 * upper-case hex; Decrypt reverses it, yielding "" for anything it cannot
 * decode and cutting the plaintext at its first zero byte. SHA-256 and the
 * UTF-8 codec are parameters of the model.
 */
module JhCrypt {
  import opened Wrappers
  import Numbers
  import Text
  import opened Xor256

  /** The library functions the wrappers call: SHA-256 and the UTF-8 codec. */
  datatype Platform = Platform(sha256: Bytes -> Digest, utf8Encode: string -> Bytes, utf8Decode: Bytes -> string)

  const DefaultPassword: string := "TGA_util"

  /** The two upper-case hex digits of a byte. */
  function HexPair(b: byte): (r: string)
    ensures |r| == 2
  {
    [Numbers.DigitChar(b as nat / 16), Numbers.DigitChar(b as nat % 16)]
  }

  /** Convert.ToHexString: two upper-case hex digits per byte. */
  function ToHexString(bytes: Bytes): (r: string)
    ensures |r| == 2 * |bytes|
  {
    seq(2 * |bytes|, i requires 0 <= i < 2 * |bytes| => HexPair(bytes[i / 2])[i % 2])
  }

  /** The byte whose hex digits are `hi` and `lo`, or None when either is not a hex digit. */
  function PairValue(hi: char, lo: char): Option<byte> {
    match (Numbers.DigitValue(hi), Numbers.DigitValue(lo))
    case (Some(h), Some(l)) => Some((h * 16 + l) as byte)
    case _ => None
  }

  /** Whether characters 2k and 2k + 1 of `s` are both hex digits, for every k. */
  predicate AllPairs(s: string)
    requires |s| % 2 == 0
  {
    forall k :: 0 <= k < |s| / 2 ==> PairValue(s[2 * k], s[2 * k + 1]).Some?
  }

  /**
   * Convert.FromHexString: the bytes written by pairs of hex digits of either
   * case; None where the source throws a FormatException (odd length or a
   * character that is not a hex digit).
   */
  function FromHexString(s: string): (r: Option<Bytes>)
    ensures r.Some? ==> 2 * |r.value| == |s|
    ensures r.Some? ==> forall k :: 0 <= k < |r.value| ==> PairValue(s[2 * k], s[2 * k + 1]) == Some(r.value[k])
    ensures r.None? <==> |s| % 2 == 1 || exists k :: 0 <= k < |s| / 2 && PairValue(s[2 * k], s[2 * k + 1]).None?
  {
    if |s| % 2 == 1 || !AllPairs(s) then None
    else Some(seq(|s| / 2, k requires 0 <= k < |s| / 2 => PairValue(s[2 * k], s[2 * k + 1]).value))
  }

  /** The hex digits of byte `k` sit at positions 2k and 2k + 1. */
  lemma ToHexStringAt(bytes: Bytes, k: nat)
    requires k < |bytes|
    ensures ToHexString(bytes)[2 * k] == HexPair(bytes[k])[0] && ToHexString(bytes)[2 * k + 1] == HexPair(bytes[k])[1]
  {
    assert (2 * k) / 2 == k && (2 * k + 1) / 2 == k;
  }

  /** ToHexString produces only upper-case hex digits. */
  lemma ToHexStringUpperCase(bytes: Bytes)
    ensures forall i :: 0 <= i < |ToHexString(bytes)| ==>
      Numbers.IsDigit(ToHexString(bytes)[i], 16) && !('a' <= ToHexString(bytes)[i] <= 'z')
  {
    forall i | 0 <= i < |ToHexString(bytes)|
      ensures Numbers.IsDigit(ToHexString(bytes)[i], 16) && !('a' <= ToHexString(bytes)[i] <= 'z')
    {
      var b := bytes[i / 2] as nat;
      Numbers.DigitRoundTrip(b / 16);
      Numbers.DigitRoundTrip(b % 16);
    }
  }

  /** Reading back the two hex digits of a byte gives the byte. */
  lemma PairRoundTrip(b: byte)
    ensures PairValue(HexPair(b)[0], HexPair(b)[1]) == Some(b)
  {
    PairOfDigits(b as nat);
    ByteOfNat(b);
  }

  /** The hex digits of n / 16 and n % 16 read back as n. */
  lemma PairOfDigits(n: nat)
    requires n < 256
    ensures PairValue(Numbers.DigitChar(n / 16), Numbers.DigitChar(n % 16)) == Some(n as byte)
  {
    Numbers.DigitRoundTrip(n / 16);
    Numbers.DigitRoundTrip(n % 16);
    HexSplit(n);
  }

  lemma HexSplit(n: nat)
    requires n < 256
    ensures (n / 16) * 16 + n % 16 == n
  {
  }

  lemma ByteOfNat(b: byte)
    ensures (b as nat) as byte == b
  {
  }

  /** FromHexString reads back exactly what ToHexString wrote. */
  lemma FromToHexString(bytes: Bytes)
    ensures FromHexString(ToHexString(bytes)) == Some(bytes)
  {
    var s := ToHexString(bytes);
    forall k | 0 <= k < |s| / 2
      ensures PairValue(s[2 * k], s[2 * k + 1]) == Some(bytes[k])
    {
      ToHexStringAt(bytes, k);
      PairRoundTrip(bytes[k]);
    }
    assert FromHexString(s).value == bytes;
  }

  /** The bytes before the first zero byte, or all of them when there is none. */
  function UntilFirstZero(bytes: Bytes): (r: Bytes)
    ensures |r| <= |bytes| && r == bytes[..|r|]
    ensures 0 !in r
    ensures |r| < |bytes| ==> bytes[|r|] == 0
  {
    if bytes == [] || bytes[0] == 0 then []
    else [bytes[0]] + UntilFirstZero(bytes[1..])
  }

  /** Bytes that hold no zero are kept whole. */
  lemma UntilFirstZeroNoZero(bytes: Bytes)
    requires 0 !in bytes
    ensures UntilFirstZero(bytes) == bytes
  {
  }

  /** The chain a fresh stream starts from after Initialize(password) and ResetChain(). */
  function InitialChain(env: Platform, passwordBytes: Bytes): (r: Bytes)
    requires passwordBytes != []
    ensures |r| == BlockLength
  {
    KeyFromHash(env.sha256(passwordBytes))
  }

  /**
   * JhCrypt.Encrypt: "" for empty input; otherwise the upper-case hex of the
   * plaintext's UTF-8 bytes run through a fresh stream keyed by `password`.
   * An empty password makes Initialize throw, and Encrypt does not catch it.
   */
  function EncryptText(env: Platform, password: string, plainText: string): (r: Result<string>)
    ensures plainText == "" ==> r == Ok("")
    ensures r.Thrown? <==> plainText != "" && env.utf8Encode(password) == []
    ensures r.Ok? && plainText != "" ==> |r.value| == 2 * |env.utf8Encode(plainText)|
  {
    if plainText == "" then Ok("")
    else
      var passwordBytes := env.utf8Encode(password);
      if passwordBytes == [] then Thrown(ArgumentException)
      else
        var data := env.utf8Encode(plainText);
        Ok(ToHexString(Cipher(InitialChain(env, passwordBytes), data, Encrypting).output))
  }

  /**
   * JhCrypt.Decrypt: "" for empty input and wherever the source catches an
   * exception (an empty password, text that is not hex); otherwise the UTF-8
   * decoding of the decrypted bytes up to the first zero byte.
   */
  function DecryptText(env: Platform, password: string, hexString: string): (r: string)
    ensures hexString == "" || env.utf8Encode(password) == [] || FromHexString(hexString).None? ==> r == ""
  {
    if hexString == "" then ""
    else
      var passwordBytes := env.utf8Encode(password);
      if passwordBytes == [] then ""
      else
        match FromHexString(hexString)
        case None => ""
        case Some(encrypted) =>
          var decrypted := Cipher(InitialChain(env, passwordBytes), encrypted, Decrypting).output;
          env.utf8Decode(UntilFirstZero(decrypted))
  }

  /**
   * Decrypt undoes Encrypt for a non-empty password and any text whose
   * UTF-8 bytes hold no zero, provided the codec round-trips that text.
   */
  lemma DecryptEncryptText(env: Platform, password: string, plainText: string)
    requires env.utf8Encode(password) != []
    requires env.utf8Decode(env.utf8Encode(plainText)) == plainText
    requires plainText != "" ==> env.utf8Encode(plainText) != []
    requires 0 !in env.utf8Encode(plainText)
    ensures EncryptText(env, password, plainText).Ok?
    ensures DecryptText(env, password, EncryptText(env, password, plainText).value) == plainText
  {
    if plainText != "" {
      var chain0 := InitialChain(env, env.utf8Encode(password));
      var data := env.utf8Encode(plainText);
      var enc := Cipher(chain0, data, Encrypting);
      DecryptEncrypt(chain0, data);
      FromToHexString(enc.output);
      UntilFirstZeroNoZero(data);
    }
  }

  /**
   * A plaintext with a zero byte comes back cut short: Decrypt keeps only
   * what precedes the first zero.
   */
  lemma DecryptEncryptTruncates(env: Platform, password: string, plainText: string)
    requires plainText != "" && env.utf8Encode(password) != [] && env.utf8Encode(plainText) != []
    ensures EncryptText(env, password, plainText).Ok?
    ensures DecryptText(env, password, EncryptText(env, password, plainText).value)
         == env.utf8Decode(UntilFirstZero(env.utf8Encode(plainText)))
  {
    var chain0 := InitialChain(env, env.utf8Encode(password));
    var data := env.utf8Encode(plainText);
    var enc := Cipher(chain0, data, Encrypting);
    assert EncryptText(env, password, plainText) == Ok(ToHexString(enc.output));
    DecryptEncrypt(chain0, data);
    FromToHexString(enc.output);
  }

  /**
   * The static JhCrypt class: its one piece of state is the password, which
   * SetPassword replaces. Each Encrypt and Decrypt call builds a fresh
   * stream, so its result depends only on the password and the input.
   */
  class Crypt {
    var cryptoPassword: string

    constructor ()
      ensures cryptoPassword == DefaultPassword
    {
      cryptoPassword := DefaultPassword;
    }

    method SetPassword(password: string)
      modifies this
      ensures cryptoPassword == password
    {
      cryptoPassword := password;
    }

    /** Encrypt(plainText), run on a fresh stream. */
    method Encrypt(env: Platform, plainText: string) returns (r: Result<string>)
      ensures r == EncryptText(env, cryptoPassword, plainText)
    {
      if plainText == "" {
        return Ok("");
      }
      var stream := new Xor256Stream();
      var passwordBytes := env.utf8Encode(cryptoPassword);
      var status := stream.Initialize(Some(passwordBytes), env.sha256);
      if status.Failed? {
        return Thrown(status.exception);
      }
      stream.ResetChain();
      var data := ToArray(env.utf8Encode(plainText));
      var encrypted := stream.Encrypt(data);
      stream.Dispose();
      r := Ok(ToHexString(encrypted[..]));
    }

    /** Decrypt(hexString), run on a fresh stream. */
    method Decrypt(env: Platform, hexString: string) returns (r: string)
      ensures r == DecryptText(env, cryptoPassword, hexString)
    {
      if hexString == "" {
        return "";
      }
      var stream := new Xor256Stream();
      var passwordBytes := env.utf8Encode(cryptoPassword);
      var status := stream.Initialize(Some(passwordBytes), env.sha256);
      if status.Failed? {
        stream.Dispose();
        return "";
      }
      stream.ResetChain();
      var parsed := FromHexString(hexString);
      if parsed.None? {
        stream.Dispose();
        return "";
      }
      var encrypted := ToArray(parsed.value);
      var decrypted := stream.Decrypt(encrypted);
      stream.Dispose();
      var length := FindZero(decrypted);
      r := env.utf8Decode(decrypted[..length]);
    }
  }

  /** A new array holding `s`. */
  method ToArray(s: Bytes) returns (a: array<byte>)
    ensures fresh(a) && a[..] == s
  {
    a := new byte[|s|](i requires 0 <= i < |s| => s[i]);
  }

  /**
   * Array.FindIndex(a, b => b == 0), with -1 replaced by the length: the
   * length of the prefix before the first zero byte.
   */
  method FindZero(a: array<byte>) returns (length: nat)
    ensures length <= a.Length && a[..length] == UntilFirstZero(a[..])
  {
    length := 0;
    while length < a.Length && a[length] != 0
      invariant length <= a.Length && forall k :: 0 <= k < length ==> a[k] != 0
    {
      length := length + 1;
    }
    UntilFirstZeroPrefix(a[..], length);
  }

  /** The prefix before a zero byte (or the end) that holds no zero is UntilFirstZero. */
  lemma {:induction false} UntilFirstZeroPrefix(bytes: Bytes, n: nat)
    requires n <= |bytes| && (forall k :: 0 <= k < n ==> bytes[k] != 0) && (n == |bytes| || bytes[n] == 0)
    ensures UntilFirstZero(bytes) == bytes[..n]
    decreases n
  {
    if n > 0 {
      UntilFirstZeroPrefix(bytes[1..], n - 1);
      assert bytes[..n] == [bytes[0]] + bytes[1..][..n - 1];
    }
  }
}

=== FILE: main_view_model.dfy ===
/**
 * The main window's view model (ToastPop.App/ViewModels/MainViewModel.cs):
 * the tab list, and the two-phase scheduler that walks the site list of the
 * configuration. A key-cycle tick advances a repeat counter and a
 * round-robin index into the site items; an execute tick loads the chosen
 * item in the selected tab behind a probability gate and waits a dwell time
 * and a cycle gap. Timers and Task.Delay become the values the handlers
 * return; the draws of System.Random are inputs.
 */
module MainViewModel {
  import opened Wrappers
  import Seqs
  import Numbers
  import opened XmlTree
  import ConfigReader
  import BrowserTab

  /** The site items of the configuration's site list: SiteList.Elements("item"), none without a list. */
  function SiteItems(siteList: Option<Element>): (r: seq<Element>)
    ensures siteList.None? ==> r == []
  {
    if siteList.None? then [] else ChildrenNamed(siteList.value, "item")
  }

  // ---------------------------------------------------------------------
  // The key-cycle phase
  // ---------------------------------------------------------------------

  /** The scheduler's position: the repeat counter _keyCycleB and the site index _curSiteItem. */
  datatype Cursor = Cursor(keyCycle: int, site: int)

  /**
   * The states the handlers keep the cursor in: both fields are 32-bit
   * values, the counter and the index are never negative, and neither is
   * int.MaxValue, so that incrementing them never wraps around.
   */
  predicate CursorValid(c: Cursor) {
    0 <= c.keyCycle < Numbers.Int32Max && 0 <= c.site < Numbers.Int32Max
  }

  /** Whether a tick with `keyCycleMax` resets the counter and moves to the next site. */
  predicate Advances(c: Cursor, keyCycleMax: int) {
    Numbers.Wrap32(c.keyCycle + 1) >= keyCycleMax
  }

  /**
   * One key-cycle tick with `count` > 0 site items: the counter is
   * incremented; once it reaches keyCycleMax it is reset and the index
   * moves round-robin to the next item.
   */
  function KeyTick(c: Cursor, count: nat, keyCycleMax: int): (r: Cursor)
    requires count > 0
    ensures !Advances(c, keyCycleMax) ==> r.site == c.site
    ensures Advances(c, keyCycleMax) ==> r.keyCycle == 0
    ensures Advances(c, keyCycleMax) && 0 <= c.site < count && count <= Numbers.Int32Max
      ==> r.site == (c.site + 1) % count
    ensures Advances(c, keyCycleMax) && 0 <= c.site < Numbers.Int32Max ==> 0 <= r.site < count
  {
    var k := Numbers.Wrap32(c.keyCycle + 1);
    if k >= keyCycleMax then
      var next := Numbers.Wrap32(c.site + 1);
      var r := Cursor(0, if next >= count then 0 else next);
      assert 0 <= c.site < count && count <= Numbers.Int32Max ==> r.site == (c.site + 1) % count by {
        if 0 <= c.site < count && count <= Numbers.Int32Max {
          RoundRobin(c.site, count);
        }
      }
      r
    else
      Cursor(k, c.site)
  }

  /** Moving past the last of `count` items wraps to the first one. */
  lemma RoundRobin(site: int, count: nat)
    requires 0 <= site < count
    ensures (if site + 1 >= count then 0 else site + 1) == (site + 1) % count
  {
  }

  /** A tick keeps the cursor valid, as long as the item count is a .NET int. */
  lemma KeyTickKeepsValid(c: Cursor, count: nat, keyCycleMax: int)
    requires CursorValid(c) && 0 < count <= Numbers.Int32Max && Numbers.IsInt32(keyCycleMax)
    ensures CursorValid(KeyTick(c, count, keyCycleMax))
    ensures !Advances(c, keyCycleMax) ==> KeyTick(c, count, keyCycleMax) == Cursor(c.keyCycle + 1, c.site)
  {
  }

  /** With keyCycleMax of 1 or less, every tick moves to the next site. */
  lemma EveryTickAdvances(c: Cursor, keyCycleMax: int)
    requires CursorValid(c) && keyCycleMax <= 1
    ensures Advances(c, keyCycleMax)
  {
  }

  /** `n` consecutive ticks. */
  function KeyTicks(c: Cursor, count: nat, keyCycleMax: int, n: nat): (r: Cursor)
    requires count > 0
  {
    if n == 0 then c else KeyTick(KeyTicks(c, count, keyCycleMax, n - 1), count, keyCycleMax)
  }

  /** Before keyCycleMax ticks have passed since a reset, the ticks only count. */
  lemma {:induction false} KeyTicksCount(site: int, count: nat, keyCycleMax: int, n: nat)
    requires 0 < count && n < keyCycleMax <= Numbers.Int32Max
    ensures KeyTicks(Cursor(0, site), count, keyCycleMax, n) == Cursor(n, site)
  {
    if n > 0 {
      KeyTicksCount(site, count, keyCycleMax, n - 1);
    }
  }

  /**
   * Round-robin: from a reset counter, the index stays on its item for
   * keyCycleMax - 1 ticks and the next tick moves it to the following item,
   * wrapping after the last one.
   */
  lemma KeyTicksPeriod(site: int, count: nat, keyCycleMax: int)
    requires 0 <= site < count <= Numbers.Int32Max && 1 <= keyCycleMax <= Numbers.Int32Max
    ensures KeyTicks(Cursor(0, site), count, keyCycleMax, keyCycleMax) == Cursor(0, (site + 1) % count)
  {
    KeyTicksCount(site, count, keyCycleMax, keyCycleMax - 1);
  }

  /**
   * Three items and keyCycleMax 2, starting from a fresh view model: the
   * index after each of the first six ticks is 0, 1, 1, 2, 2, 0. The index
   * moves on the first tick that reaches the maximum, so item 0 gets one
   * turn fewer in the first round.
   */
  lemma KeyTicksFromStart()
    ensures KeyTicks(Cursor(0, 0), 3, 2, 1).site == 0
    ensures KeyTicks(Cursor(0, 0), 3, 2, 2).site == 1
    ensures KeyTicks(Cursor(0, 0), 3, 2, 3).site == 1
    ensures KeyTicks(Cursor(0, 0), 3, 2, 4).site == 2
    ensures KeyTicks(Cursor(0, 0), 3, 2, 5).site == 2
    ensures KeyTicks(Cursor(0, 0), 3, 2, 6).site == 0
  {
    assert KeyTicks(Cursor(0, 0), 3, 2, 1) == Cursor(1, 0);
    assert KeyTicks(Cursor(0, 0), 3, 2, 2) == Cursor(0, 1);
    assert KeyTicks(Cursor(0, 0), 3, 2, 3) == Cursor(1, 1);
    assert KeyTicks(Cursor(0, 0), 3, 2, 4) == Cursor(0, 2);
    assert KeyTicks(Cursor(0, 0), 3, 2, 5) == Cursor(1, 2);
  }

  /** What a key-cycle tick arms: the execute timer, or the key-cycle timer again after a pause in milliseconds. */
  datatype KeyStep = ArmExecute | RearmAfter(ms: nat)

  // ---------------------------------------------------------------------
  // The execute phase
  // ---------------------------------------------------------------------

  /** The draw of Random.Next(1, 1001) that the gate compares with mclick. */
  function GateDraw(draw: nat): (r: int)
    ensures 1 <= r <= 1000
  {
    Numbers.RandomNext(1, 1001, draw).value
  }

  /** The item's "mclick" attribute read as an int: 1000 when it is missing, empty or not a number. */
  function MClick(item: Element): (r: int)
    ensures AttributeValue(item, "mclick").None? ==> r == 1000
    ensures Numbers.IsInt32(r)
  {
    Numbers.ParseInt(AttributeValue(item, "mclick"), 1000)
  }

  /** CheckExecuteProbability: a draw from 1 to 1000 is compared with the item's mclick. */
  function Gate(mclick: int, draw: nat): (r: bool)
    ensures r <==> draw % 1000 < mclick
  {
    GateDraw(draw) <= mclick
  }

  /** mclick of 1000 or more always passes, 0 or less never. */
  lemma GateExtremes(mclick: int, draw: nat)
    ensures mclick >= 1000 ==> Gate(mclick, draw)
    ensures mclick <= 0 ==> !Gate(mclick, draw)
  {
  }

  /** The numbers 0 to n - 1, of which there are n. */
  function Below(n: nat): (r: set<nat>)
    ensures forall d: nat :: d in r <==> d < n
    ensures |r| == n
  {
    if n == 0 then {} else Below(n - 1) + {n - 1}
  }

  /**
   * The gate passes for exactly mclick of the 1000 equally likely draws
   * (none when mclick is negative, all when it is above 1000): it passes
   * with probability mclick / 1000.
   */
  lemma GatePasses(mclick: int)
    ensures |set d: nat | d < 1000 && Gate(mclick, d)| == if mclick < 0 then 0 else if mclick > 1000 then 1000 else mclick
  {
    var k: nat := if mclick < 0 then 0 else if mclick > 1000 then 1000 else mclick;
    assert (set d: nat | d < 1000 && Gate(mclick, d)) == Below(k);
  }

  /**
   * GetSTime / GetCTime: the lower and upper bounds in seconds, read with
   * their defaults; `down` when it is not below `up`, otherwise
   * Random.Next(down, up + 1) in unchecked int arithmetic. When `up` is
   * int.MaxValue the bound wraps around and Random.Next throws.
   */
  function PickSeconds(down: int, up: int, draw: nat): (r: Result<int>)
    requires Numbers.IsInt32(down) && Numbers.IsInt32(up)
    ensures down >= up ==> r == Ok(down)
    ensures down < up && up < Numbers.Int32Max ==> r.Ok? && down <= r.value <= up
    ensures down < up && up == Numbers.Int32Max && down > Numbers.Int32Min ==> r == Thrown(ArgumentOutOfRangeException)
    ensures down < up && up == Numbers.Int32Max && down == Numbers.Int32Min ==> r == Ok(down)
  {
    if down >= up then Ok(down)
    else
      Numbers.Wrap32MaxPlusOne();
      Numbers.RandomNext(down, Numbers.Wrap32(up + 1), draw)
  }

  /** Every second of [down, up] is picked by some draw. */
  lemma PickSecondsCovers(down: int, up: int, v: int)
    requires Numbers.IsInt32(down) && Numbers.IsInt32(up) && down <= v <= up < Numbers.Int32Max && down < up
    ensures PickSeconds(down, up, v - down) == Ok(v)
  {
    Numbers.RandomNextCovers(down, up + 1, v);
  }

  /** A whole number of seconds in milliseconds is never -1. */
  lemma MillisNotInfinite(seconds: int)
    ensures Numbers.Wrap32(seconds * 1000) != -1
  {
    Numbers.Wrap32Congruent(seconds * 1000);
  }

  /**
   * await Task.Delay(seconds * 1000): the product wraps around like unchecked
   * int arithmetic; a negative delay throws (-1, which would wait forever,
   * cannot arise from whole seconds), otherwise the milliseconds waited.
   */
  function DelayMillis(seconds: int): (r: Result<nat>)
    ensures r.Thrown? <==> Numbers.Wrap32(seconds * 1000) < 0
    ensures r.Ok? ==> r.value == Numbers.Wrap32(seconds * 1000)
    ensures 0 <= seconds <= Numbers.Int32Max / 1000 ==> r == Ok(seconds * 1000)
  {
    MillisNotInfinite(seconds);
    var ms := Numbers.Wrap32(seconds * 1000);
    if ms < -1 then Thrown(ArgumentOutOfRangeException) else Ok(ms)
  }

  /** Picking a time and waiting it: the milliseconds waited, or the exception that ends the handler. */
  function Pause(down: int, up: int, draw: nat): (r: Result<nat>)
    requires Numbers.IsInt32(down) && Numbers.IsInt32(up)
    ensures down >= up ==> r == DelayMillis(down)
    ensures r.Thrown? ==> r.exception == ArgumentOutOfRangeException
  {
    match PickSeconds(down, up, draw)
    case Thrown(x) => Thrown(x)
    case Ok(s) => DelayMillis(s)
  }

  /** A pause between two ordinary bounds waits between down and up seconds. */
  lemma PauseBounds(down: int, up: int, draw: nat)
    requires 0 <= down <= Numbers.Int32Max / 1000 && 0 <= up <= Numbers.Int32Max / 1000
    ensures Pause(down, up, draw).Ok?
    ensures down < up ==> down * 1000 <= Pause(down, up, draw).value <= up * 1000
    ensures down >= up ==> Pause(down, up, draw).value == down * 1000
  {
  }

  /** The four timing settings as int.TryParse reads them: the dwell (STime) and cycle (CTime) bounds. */
  datatype Timing = Timing(sDown: int, sUp: int, cDown: int, cUp: int)

  predicate TimingValid(t: Timing) {
    Numbers.IsInt32(t.sDown) && Numbers.IsInt32(t.sUp) && Numbers.IsInt32(t.cDown) && Numbers.IsInt32(t.cUp)
  }

  /** The timing settings of a configuration, with the defaults 3/10 for the dwell and 5/15 for the cycle. */
  function TimingOf(values: seq<string>): (t: Timing)
    requires |values| == ConfigReader.SettingCount
    ensures TimingValid(t)
    ensures values[ConfigReader.Ordinal(ConfigReader.STimeDown)] == "" ==> t.sDown == 3
    ensures values[ConfigReader.Ordinal(ConfigReader.STimeUp)] == "" ==> t.sUp == 10
    ensures values[ConfigReader.Ordinal(ConfigReader.CTimeDown)] == "" ==> t.cDown == 5
    ensures values[ConfigReader.Ordinal(ConfigReader.CTimeUp)] == "" ==> t.cUp == 15
  {
    Timing(Numbers.ParseInt(Some(values[ConfigReader.Ordinal(ConfigReader.STimeDown)]), 3),
           Numbers.ParseInt(Some(values[ConfigReader.Ordinal(ConfigReader.STimeUp)]), 10),
           Numbers.ParseInt(Some(values[ConfigReader.Ordinal(ConfigReader.CTimeDown)]), 5),
           Numbers.ParseInt(Some(values[ConfigReader.Ordinal(ConfigReader.CTimeUp)]), 15))
  }

  /** The generator's outputs for the gate, the dwell time and the cycle time of one execute tick. */
  datatype Draws = Draws(gate: nat, dwell: nat, cycle: nat)

  /**
   * What an execute tick does: the address it loads, if any, the delays it
   * awaits in milliseconds, in order, and the exception that cut it short,
   * if any. Every execute tick ends by starting the key-cycle timer again,
   * whether it returns early, completes, or throws.
   */
  datatype Plan = Plan(target: Option<string>, waits: seq<nat>, failure: Option<Exception>)

  /** The cycle gap that ends every execute tick that gets past the bounds check. */
  function CycleGap(target: Option<string>, waits: seq<nat>, t: Timing, draw: nat): (r: Plan)
    requires TimingValid(t)
    ensures r.target == target
  {
    match Pause(t.cDown, t.cUp, draw)
    case Thrown(x) => Plan(target, waits, Some(x))
    case Ok(ms) => Plan(target, waits + [ms], None)
  }

  /**
   * OnTimerExecuteAsync: without a site list, or with the index past the
   * last item, it only rearms; a negative index throws when the items are
   * indexed. Otherwise an item with a non-empty "url" that passes the gate
   * is loaded and followed by the dwell time; then comes the cycle gap.
   */
  function ExecutePlan(siteList: Option<Element>, site: int, t: Timing, draws: Draws): (r: Plan)
    requires TimingValid(t)
    ensures siteList.None? ==> r == Plan(None, [], None)
    ensures r.target.Some? ==> r.target.value != ""
    ensures |r.waits| <= 2
  {
    if siteList.None? then Plan(None, [], None)
    else
      var items := SiteItems(siteList);
      if site >= |items| then Plan(None, [], None)
      else if site < 0 then Plan(None, [], Some(ArgumentOutOfRangeException))
      else
        var item := items[site];
        var url := AttributeOrEmpty(item, "url");
        if url != "" && Gate(MClick(item), draws.gate) then
          match Pause(t.sDown, t.sUp, draws.dwell)
          case Thrown(x) => Plan(Some(url), [], Some(x))
          case Ok(ms) => CycleGap(Some(url), [ms], t, draws.cycle)
        else
          CycleGap(None, [], t, draws.cycle)
  }

  /**
   * Without an item at the index, an execute tick loads nothing and waits
   * for nothing; it fails only when there is a site list and the index is
   * negative.
   */
  lemma ExecuteOutOfRange(siteList: Option<Element>, site: int, t: Timing, draws: Draws)
    requires TimingValid(t) && !(0 <= site < |SiteItems(siteList)|)
    ensures var r := ExecutePlan(siteList, site, t, draws);
      r.target.None? && r.waits == []
      && (r.failure.Some? <==> siteList.Some? && site < 0)
  {
  }

  /**
   * An execute tick loads an address exactly when the indexed item has a
   * non-empty url that passes the gate, and then it is that url.
   */
  lemma ExecuteLoads(siteList: Option<Element>, site: int, t: Timing, draws: Draws)
    requires TimingValid(t)
    ensures var r := ExecutePlan(siteList, site, t, draws);
      var items := SiteItems(siteList);
      r.target.Some? <==>
        0 <= site < |items| && AttributeOrEmpty(items[site], "url") != ""
        && Gate(MClick(items[site]), draws.gate)
    ensures var r := ExecutePlan(siteList, site, t, draws);
      r.target.Some? ==> r.target.value == AttributeOrEmpty(SiteItems(siteList)[site], "url")
  {
  }

  /**
   * An execute tick that completes waits for the dwell time only when it
   * loaded an address, and always for the cycle gap last.
   */
  lemma ExecuteWaits(siteList: Option<Element>, site: int, t: Timing, draws: Draws)
    requires TimingValid(t) && 0 <= site < |SiteItems(siteList)|
    ensures var r := ExecutePlan(siteList, site, t, draws);
      r.failure.None? ==>
        |r.waits| == (if r.target.Some? then 2 else 1)
        && Pause(t.cDown, t.cUp, draws.cycle) == Ok(r.waits[|r.waits| - 1])
        && (r.target.Some? ==> Pause(t.sDown, t.sUp, draws.dwell) == Ok(r.waits[0]))
  {
  }

  /** With the default timing, a loaded item is watched 3 to 10 seconds and followed by a gap of 5 to 15 seconds. */
  lemma ExecuteDefaultTiming(siteList: Option<Element>, site: int, draws: Draws)
    requires 0 <= site < |SiteItems(siteList)|
    ensures var r := ExecutePlan(siteList, site, Timing(3, 10, 5, 15), draws);
      r.failure.None?
      && 5000 <= r.waits[|r.waits| - 1] <= 15000
      && (r.target.Some? ==> 3000 <= r.waits[0] <= 10000)
  {
    var t := Timing(3, 10, 5, 15);
    PauseBounds(5, 15, draws.cycle);
    PauseBounds(3, 10, draws.dwell);
    ExecuteWaits(siteList, site, t, draws);
  }

  /** The status line while an item loads, "로드 중: " ("loading: ") followed by its address. */
  function LoadingStatus(url: string): string {
    "\U{B85C}\U{B4DC} \U{C911}: " + url
  }

  /** The status line of a new view model, "준비" ("ready"). */
  const ReadyStatus: string := "\U{C900}\U{BE44}"

  class MainViewModel {
    const reader: ConfigReader.ConfigReader
    var keyCycleB: int
    var curSiteItem: int
    var tabs: seq<BrowserTab.BrowserTab>
    var selectedTab: Option<BrowserTab.BrowserTab>
    var statusMessage: string

    /** The scheduler's position. */
    function Position(): Cursor
      reads this
    {
      Cursor(keyCycleB, curSiteItem)
    }

    /** The key-cycle maximum: the KeyCycleB setting, 1 when empty or not a number. */
    function KeyCycleMax(): int
      reads this, reader
      requires reader.Valid()
    {
      Numbers.ParseInt(Some(reader.Value(ConfigReader.KeyCycleB)), 1)
    }

    /** A view model before the configuration is loaded: no tabs, the scheduler at the first item. */
    constructor ()
      ensures fresh(reader) && reader.Valid() && reader.Snapshot() == ConfigReader.Cleared()
      ensures Position() == Cursor(0, 0) && CursorValid(Position())
      ensures tabs == [] && selectedTab.None? && statusMessage == ReadyStatus
    {
      reader := new ConfigReader.ConfigReader();
      keyCycleB, curSiteItem := 0, 0;
      tabs := [];
      selectedTab := None;
      statusMessage := ReadyStatus;
    }

    /**
     * OnTimerKeyCycleAsync: with at least one site item, one tick of the
     * cursor and the execute timer is armed; otherwise the cursor is left
     * alone and the key-cycle timer is started again after 3 seconds.
     */
    method OnTimerKeyCycle() returns (step: KeyStep)
      requires reader.Valid()
      modifies this`keyCycleB, this`curSiteItem
      ensures SiteItems(reader.siteList) == [] ==> step == RearmAfter(3000) && Position() == old(Position())
      ensures SiteItems(reader.siteList) != [] ==>
        step == ArmExecute && Position() == KeyTick(old(Position()), |SiteItems(reader.siteList)|, KeyCycleMax())
    {
      if reader.siteList.Some? {
        var items := ChildrenNamed(reader.siteList.value, "item");
        if |items| > 0 {
          var keyCycleMax := Numbers.ParseInt(Some(reader.Value(ConfigReader.KeyCycleB)), 1);
          Tick(|items|, keyCycleMax);
          return ArmExecute;
        }
      }
      return RearmAfter(3000);
    }

    /** One tick of the cursor over `count` items. */
    method Tick(count: nat, keyCycleMax: int)
      requires count > 0
      modifies this`keyCycleB, this`curSiteItem
      ensures Position() == KeyTick(old(Position()), count, keyCycleMax)
    {
      keyCycleB := Numbers.Wrap32(keyCycleB + 1);
      if keyCycleB >= keyCycleMax {
        keyCycleB := 0;
        curSiteItem := Numbers.Wrap32(curSiteItem + 1);
        if curSiteItem >= count {
          curSiteItem := 0;
        }
      }
    }

    /** The tab that navigation may touch, and its web view. */
    function Selected(): set<object>
      reads this, if selectedTab.Some? then {selectedTab.value} else {}
    {
      if selectedTab.Some? then {selectedTab.value} + selectedTab.value.Control() else {}
    }

    /**
     * OnTimerExecuteAsync: carries out the plan for the current item. A
     * loaded address is sent to the selected tab, if there is one, and shown
     * in the status line; the scheduler's position is not changed.
     */
    method OnTimerExecute(draws: Draws) returns (plan: Plan)
      requires reader.Valid()
      modifies this`statusMessage, Selected()
      ensures plan.target.None? ==> statusMessage == old(statusMessage) && unchanged(old(Selected()))
      ensures plan.target.Some? ==> statusMessage == LoadingStatus(plan.target.value)
      ensures old(selectedTab).Some? && plan.target.Some? ==> old(selectedTab.value).Navigated(plan.target)
      ensures plan == ExecutePlan(old(reader.siteList), old(curSiteItem), TimingOf(old(reader.values)), draws)
    {
      plan := ExecutePlan(reader.siteList, curSiteItem, TimingOf(reader.values), draws);
      if plan.target.Some? {
        Load(plan.target.value);
      }
    }

    /** Sends `url` to the selected tab, if there is one, and shows it in the status line. */
    method Load(url: string)
      modifies this`statusMessage, Selected()
      ensures statusMessage == LoadingStatus(url)
      ensures old(selectedTab).Some? ==> old(selectedTab.value).Navigated(Some(url))
    {
      if selectedTab.Some? {
        selectedTab.value.Navigate(Some(url));
      }
      statusMessage := LoadingStatus(url);
    }

    /**
     * AddNewTab: appends a tab titled "새 탭" that shows `url` and is
     * closeable unless it is the first tab, and selects it when asked.
     */
    method AddNewTab(url: string, selectTab: bool)
      modifies this`tabs, this`selectedTab
      ensures |tabs| == |old(tabs)| + 1 && tabs[..|old(tabs)|] == old(tabs)
      ensures fresh(tabs[|old(tabs)|])
      ensures tabs[|old(tabs)|].currentUrl == url && tabs[|old(tabs)|].title == BrowserTab.NewTabTitle
      ensures tabs[|old(tabs)|].isCloseable <==> old(tabs) != []
      ensures !tabs[|old(tabs)|].disposed && tabs[|old(tabs)|].webView.None?
      ensures !tabs[|old(tabs)|].isLoading && !tabs[|old(tabs)|].canGoBack && !tabs[|old(tabs)|].canGoForward
      ensures selectTab ==> selectedTab == Some(tabs[|old(tabs)|])
      ensures !selectTab ==> selectedTab == old(selectedTab)
    {
      var tab := new BrowserTab.BrowserTab();
      tab.currentUrl := url;
      tab.isCloseable := |tabs| > 0;
      tabs := tabs + [tab];
      if selectTab {
        selectedTab := Some(tab);
      }
    }

    /** The NewTab command: a selected blank tab. */
    method NewTab()
      modifies this`tabs, this`selectedTab
      ensures |tabs| == |old(tabs)| + 1 && tabs[..|old(tabs)|] == old(tabs)
      ensures fresh(tabs[|old(tabs)|]) && tabs[|old(tabs)|].currentUrl == BrowserTab.Blank
      ensures selectedTab == Some(tabs[|old(tabs)|])
    {
      AddNewTab(BrowserTab.Blank, true);
    }

    /**
     * CloseTab: null does nothing; otherwise the tab is disposed and its
     * first occurrence removed, and when that leaves no tab a new blank tab,
     * not closeable, is added and selected. The list is never left empty.
     */
    method CloseTab(tab: Option<BrowserTab.BrowserTab>)
      modifies this`tabs, this`selectedTab, if tab.Some? then {tab.value} else {}
      ensures tab.None? ==> tabs == old(tabs) && selectedTab == old(selectedTab)
      ensures tab.Some? ==> tab.value.disposed && tabs != []
      ensures tab.Some? && Seqs.RemoveFirst(old(tabs), tab.value) != [] ==>
        tabs == Seqs.RemoveFirst(old(tabs), tab.value) && selectedTab == old(selectedTab)
      ensures tab.Some? && Seqs.RemoveFirst(old(tabs), tab.value) == [] ==>
        |tabs| == 1 && fresh(tabs[0]) && tabs[0].currentUrl == BrowserTab.Blank
        && !tabs[0].isCloseable && selectedTab == Some(tabs[0])
    {
      if tab.None? {
        return;
      }
      tab.value.Dispose();
      tabs := Seqs.RemoveFirst(tabs, tab.value);
      if |tabs| == 0 {
        AddNewTab(BrowserTab.Blank, true);
      }
    }

    /** The tabs Dispose may touch. */
    function TabSet(): set<BrowserTab.BrowserTab>
      reads this
    {
      set t | t in tabs
    }

    /**
     * Dispose: every tab is disposed, and a tab that was not disposed before
     * drops its web view; only the web view and the disposed flag change.
     */
    method Dispose()
      modifies TabSet()`webView, TabSet()`disposed
      ensures forall k :: 0 <= k < |tabs| ==> tabs[k].disposed
      ensures forall t :: t in TabSet() ==> Disposed(t)
    {
      var i := 0;
      while i < |tabs|
        invariant 0 <= i <= |tabs|
        invariant forall k :: 0 <= k < i ==> tabs[k].disposed
        invariant forall t :: t in TabSet() ==> Kept(t)
      {
        assert tabs[i] in tabs;
        tabs[i].Dispose();
        i := i + 1;
      }
    }

    /** Since the start, `t` either kept its web view or was disposed and dropped it. */
    twostate predicate Kept(t: BrowserTab.BrowserTab)
      reads t
    {
      (old(t.disposed) ==> t.disposed && t.webView == old(t.webView))
      && (!old(t.disposed) ==> (t.disposed ==> t.webView.None?) && (!t.disposed ==> t.webView == old(t.webView)))
    }

    /** `t` is disposed, and if it was not disposed before it has dropped its web view. */
    twostate predicate Disposed(t: BrowserTab.BrowserTab)
      reads t
    {
      t.disposed && (!old(t.disposed) ==> t.webView.None?)
    }
  }
}

=== FILE: numbers.dfy ===
/**
 * The integer behaviour of the .NET runtime that the modelled code depends
 * on: 32-bit wrap-around of unchecked `int` arithmetic, number formatting
 * (int.ToString(), long.ToString("X")), the subset of int.TryParse that the
 * configuration values use, and the contract of System.Random.Next, whose
 * draw is supplied by the caller.
 */
module Numbers {
  import opened Wrappers
  import Seqs
  import Text

  const Int32Min: int := -0x8000_0000
  const Int32Max: int := 0x7FFF_FFFF

  predicate IsInt32(x: int) {
    Int32Min <= x <= Int32Max
  }

  /** The value of unchecked C# `int` arithmetic: the two's-complement wrap-around of `x`. */
  function Wrap32(x: int): (r: int)
    ensures IsInt32(r)
    ensures IsInt32(x) ==> r == x
  {
    if IsInt32(x) then x else WrapAround(x)
  }

  /** The wrap-around of a value outside the 32-bit range. */
  function WrapAround(x: int): (r: int)
    requires !IsInt32(x)
    ensures IsInt32(r)
  {
    (x - Int32Min) % 0x1_0000_0000 + Int32Min
  }

  /** The wrapped value differs from the exact one by a multiple of 2^32. */
  lemma Wrap32Congruent(x: int)
    ensures (x - Wrap32(x)) % 0x1_0000_0000 == 0
  {
    if !IsInt32(x) {
      assert Wrap32(x) == WrapAround(x);
    }
  }

  /** int.MaxValue + 1 wraps around to int.MinValue. */
  lemma Wrap32MaxPlusOne()
    ensures Wrap32(Int32Max + 1) == Int32Min
  {
  }

  /** The digit for `d` in bases up to 16: '0'..'9', then the upper-case letters 'A'..'F'. */
  function DigitChar(d: nat): (c: char)
    requires d < 16
  {
    if d < 10 then ('0' as int + d) as char else ('A' as int + d - 10) as char
  }

  /** The value of a decimal or hexadecimal digit of either case, or None for any other character. */
  function DigitValue(c: char): (r: Option<nat>)
    ensures r.Some? ==> r.value < 16
  {
    if '0' <= c <= '9' then Some(c as int - '0' as int)
    else if 'A' <= c <= 'F' then Some(c as int - 'A' as int + 10)
    else if 'a' <= c <= 'f' then Some(c as int - 'a' as int + 10)
    else None
  }

  /** Whether `c` is a digit of base `base`. */
  predicate IsDigit(c: char, base: nat) {
    DigitValue(c).Some? && DigitValue(c).value < base
  }

  /** Every digit reads back as the value it was printed for, in either case. */
  lemma DigitRoundTrip(d: nat)
    requires d < 16
    ensures DigitValue(DigitChar(d)) == Some(d)
    ensures DigitValue(Text.ToLowerChar(DigitChar(d))) == Some(d)
  {
  }

  /**
   * The digits of `n` in base `base`, most significant first, without leading
   * zeros ("0" for zero): int.ToString() of a non-negative value in base 10,
   * long.ToString("X") in base 16.
   */
  function FormatNat(n: nat, base: nat): (s: string)
    requires 2 <= base <= 16
    ensures |s| >= 1
    decreases n
  {
    if n < base then [DigitChar(n)]
    else
      DivModBounds(n, base);
      FormatNat(n / base, base) + [DigitChar(n % base)]
  }

  lemma DivModBounds(n: nat, base: nat)
    requires 2 <= base <= n
    ensures n / base < n && n % base < base
  {
  }

  /** Every character FormatNat prints is a digit of the base. */
  lemma {:induction false} FormatNatDigits(n: nat, base: nat)
    requires 2 <= base <= 16
    ensures forall i :: 0 <= i < |FormatNat(n, base)| ==> IsDigit(FormatNat(n, base)[i], base)
    decreases n
  {
    if n < base {
      DigitCharIsDigit(n, base);
    } else {
      DivModBounds(n, base);
      FormatNatDigits(n / base, base);
      FormatNatSnoc(n, base);
      DigitCharIsDigit(n % base, base);
    }
  }

  lemma DigitCharIsDigit(d: nat, base: nat)
    requires d < base <= 16
    ensures IsDigit(DigitChar(d), base)
  {
    DigitRoundTrip(d);
  }

  /**
   * The value of the digit string `s` in base `base`, or None when some
   * character is not a digit of that base. The empty string has value 0.
   */
  function DigitsValue(s: string, base: nat): (r: Option<nat>)
    requires 2 <= base <= 16
  {
    if s == [] then Some(0)
    else
      match DigitsValue(s[..|s| - 1], base)
      case None => None
      case Some(v) =>
        match DigitValue(s[|s| - 1])
        case Some(d) => if d < base then Some(v * base + d) else None
        case None => None
  }

  /** The value of a non-empty digit string, or None. */
  function ParseNat(s: string, base: nat): (r: Option<nat>)
    requires 2 <= base <= 16
    ensures r.Some? ==> s != []
  {
    if s == [] then None else DigitsValue(s, base)
  }

  /** A digit string is accepted exactly when every character is a digit of the base. */
  lemma {:induction false} DigitsValueAccepts(s: string, base: nat)
    requires 2 <= base <= 16
    ensures DigitsValue(s, base).Some? <==> forall i :: 0 <= i < |s| ==> IsDigit(s[i], base)
    decreases |s|
  {
    if s != [] {
      var p := s[..|s| - 1];
      DigitsValueAccepts(p, base);
      assert forall i :: 0 <= i < |p| ==> p[i] == s[i];
    }
  }

  /** Parsing what FormatNat printed gives the number back. */
  lemma {:induction false} ParseFormatNat(n: nat, base: nat)
    requires 2 <= base <= 16
    ensures ParseNat(FormatNat(n, base), base) == Some(n)
    decreases n
  {
    if n < base {
      DigitRoundTrip(n);
      DigitsValueSnoc([], DigitChar(n), base, 0, n);
      assert [] + [DigitChar(n)] == [DigitChar(n)];
    } else {
      DivModBounds(n, base);
      ParseFormatNat(n / base, base);
      FormatNatSnoc(n, base);
      DivMod(n, base);
      DigitRoundTrip(n % base);
      DigitsValueSnoc(FormatNat(n / base, base), DigitChar(n % base), base, n / base, n % base);
    }
  }

  lemma FormatNatSnoc(n: nat, base: nat)
    requires 2 <= base <= 16 && n >= base
    ensures FormatNat(n, base) == FormatNat(n / base, base) + [DigitChar(n % base)]
  {
  }

  lemma DivMod(n: nat, base: nat)
    requires base >= 2
    ensures (n / base) * base + n % base == n
  {
  }

  lemma DigitsValueSnoc(p: string, c: char, base: nat, v: nat, d: nat)
    requires 2 <= base <= 16
    requires DigitsValue(p, base) == Some(v) && DigitValue(c) == Some(d) && d < base
    ensures DigitsValue(p + [c], base) == Some(v * base + d)
  {
    assert (p + [c])[..|p + [c]| - 1] == p;
  }

  /** Lower-casing a digit string does not change its value: "1A2F" and "1a2f" read the same. */
  lemma {:induction false} DigitsValueToLower(s: string, base: nat)
    requires 2 <= base <= 16
    ensures DigitsValue(Text.ToLower(s), base) == DigitsValue(s, base)
    decreases |s|
  {
    if s != [] {
      var p := s[..|s| - 1];
      var t := Text.ToLower(s);
      assert t[..|t| - 1] == Text.ToLower(p);
      DigitsValueToLower(p, base);
      assert DigitValue(t[|t| - 1]) == DigitValue(s[|s| - 1]);
    }
  }

  /** Hexadecimal text in lower case still reads back as the number it was made from. */
  lemma ParseLowerHex(n: nat)
    ensures ParseNat(Text.ToLower(FormatNat(n, 16)), 16) == Some(n)
  {
    DigitsValueToLower(FormatNat(n, 16), 16);
    ParseFormatNat(n, 16);
  }

  /** int.ToString() in the invariant culture. */
  function IntText(n: int): (s: string)
    ensures s != []
  {
    if n < 0 then "-" + FormatNat(-n, 10) else FormatNat(n, 10)
  }

  /** The white space that NumberStyles.Integer allows around a number: U+0009 to U+000D and U+0020. */
  predicate IsNumberWhiteSpace(c: char) {
    c == ' ' || '\t' <= c <= '\r'
  }

  /**
   * int.TryParse(s, out v) with NumberStyles.Integer, restricted to:
   * optional surrounding white space, an optional '-' or '+', one or more
   * ASCII decimal digits, and a value in the 32-bit range.
   */
  function TryParseInt32(s: string): (r: Option<int>)
    ensures r.Some? ==> IsInt32(r.value)
  {
    var t := Text.TrimEndWhere(Text.TrimStartWhere(s, IsNumberWhiteSpace), IsNumberWhiteSpace);
    if t == [] then None
    else
      var body := if t[0] == '-' || t[0] == '+' then t[1..] else t;
      match ParseNat(body, 10)
      case None => None
      case Some(v) =>
        var x: int := if t[0] == '-' then -(v as int) else v as int;
        if IsInt32(x) then Some(x) else None
  }

  /**
   * The ParseInt helper of ConfigReader and MainViewModel: the default for a
   * missing (null) or empty value or for text that int.TryParse rejects,
   * otherwise the parsed value.
   */
  function ParseInt(value: Option<string>, defaultValue: int): (r: int)
    ensures value.None? || value == Some("") ==> r == defaultValue
    ensures r == defaultValue || (value.Some? && TryParseInt32(value.value) == Some(r))
    ensures value.Some? && value.value != "" && TryParseInt32(value.value).None? ==> r == defaultValue
  {
    if value.None? || value.value == "" then defaultValue
    else
      match TryParseInt32(value.value)
      case Some(v) => v
      case None => defaultValue
  }

  /** Number white space is not trimmed from a string that starts and ends with a digit or sign. */
  lemma NumberTrimNoop(s: string)
    requires s != [] && !IsNumberWhiteSpace(s[0]) && !IsNumberWhiteSpace(s[|s| - 1])
    ensures Text.TrimEndWhere(Text.TrimStartWhere(s, IsNumberWhiteSpace), IsNumberWhiteSpace) == s
  {
  }

  /** int.TryParse accepts what int.ToString() prints, for every 32-bit value. */
  lemma TryParseIntText(n: int)
    requires IsInt32(n)
    ensures TryParseInt32(IntText(n)) == Some(n)
  {
    var v: nat := if n < 0 then -n else n;
    DecimalDigits(v);
    var digits := FormatNat(v, 10);
    if n < 0 {
      var s := IntText(n);
      assert s[0] == '-' && s[1..] == digits && s[|s| - 1] == digits[|digits| - 1];
      NumberTrimNoop(s);
      TryParseSigned(s, v);
    } else {
      NumberTrimNoop(digits);
      TryParseUnsigned(digits, v);
    }
  }

  lemma TryParseSigned(s: string, v: nat)
    requires s != [] && s[0] == '-' && ParseNat(s[1..], 10) == Some(v) && v <= -Int32Min
    requires Text.TrimEndWhere(Text.TrimStartWhere(s, IsNumberWhiteSpace), IsNumberWhiteSpace) == s
    ensures TryParseInt32(s) == Some(-(v as int))
  {
  }

  lemma TryParseUnsigned(s: string, v: nat)
    requires s != [] && s[0] != '-' && s[0] != '+' && ParseNat(s, 10) == Some(v) && v <= Int32Max
    requires Text.TrimEndWhere(Text.TrimStartWhere(s, IsNumberWhiteSpace), IsNumberWhiteSpace) == s
    ensures TryParseInt32(s) == Some(v)
  {
  }

  /** The decimal digits of `v` start and end with a digit and parse back to `v`. */
  lemma DecimalDigits(v: nat)
    ensures var digits := FormatNat(v, 10);
      '0' <= digits[0] <= '9' && '0' <= digits[|digits| - 1] <= '9' && ParseNat(digits, 10) == Some(v)
  {
    ParseFormatNat(v, 10);
    FormatNatDigits(v, 10);
    var digits := FormatNat(v, 10);
    DecimalDigit(digits[0]);
    DecimalDigit(digits[|digits| - 1]);
  }

  /** A digit of base 10 is one of '0' to '9'. */
  lemma DecimalDigit(c: char)
    requires IsDigit(c, 10)
    ensures '0' <= c <= '9'
  {
  }

  /** ParseInt gives back any 32-bit value printed with int.ToString(), whatever the default. */
  lemma ParseIntText(n: int, defaultValue: int)
    requires IsInt32(n)
    ensures ParseInt(Some(IntText(n)), defaultValue) == n
  {
    TryParseIntText(n);
  }

  /**
   * System.Random.Next(minValue, maxValue), with the generator's output
   * supplied as `draw`: throws when minValue > maxValue, returns minValue when
   * the bounds are equal, and otherwise a value of [minValue, maxValue).
   */
  function RandomNext(minValue: int, maxValue: int, draw: nat): (r: Result<int>)
    ensures r.Thrown? <==> minValue > maxValue
    ensures r.Thrown? ==> r.exception == ArgumentOutOfRangeException
    ensures r.Ok? && minValue == maxValue ==> r.value == minValue
    ensures r.Ok? && minValue < maxValue ==> minValue <= r.value < maxValue
  {
    if minValue > maxValue then Thrown(ArgumentOutOfRangeException)
    else if minValue == maxValue then Ok(minValue)
    else Ok(minValue + draw % (maxValue - minValue))
  }

  /** Every value of a non-empty range [minValue, maxValue) is the outcome of some draw. */
  lemma RandomNextCovers(minValue: int, maxValue: int, v: int)
    requires minValue <= v < maxValue
    ensures RandomNext(minValue, maxValue, v - minValue) == Ok(v)
  {
  }
}

=== FILE: system_utils.dfy ===
/**
 * The pure helpers of ToastPop.Core/Utils/SystemUtils.cs: expansion of the
 * folder tokens in a path, the command line stored under the Windows "Run"
 * key, the client id made from the MAC address and the clock, and the
 * percentage draw. The folder locations, the MAC address, the clock and the
 * generator's output are parameters.
 */
module SystemUtils {
  import opened Wrappers
  import Seqs
  import Text
  import Numbers

  /** The special folders PathFilter substitutes, as the operating system reports them. */
  datatype Folders = Folders(programFiles: string, appData: string, localAppData: string, temp: string, windows: string)

  /** No folder value holds a '%', so no substituted folder can start a token. */
  predicate FoldersPlain(f: Folders) {
    '%' !in f.programFiles && '%' !in f.appData && '%' !in f.localAppData && '%' !in f.temp && '%' !in f.windows
  }

  /**
   * FileHelper.PathFilter: null or empty is returned as it is; otherwise
   * %PROGRAMFILES, %APPDATA, %LOCALAPPDATA, %TEMP and %WINDIR are replaced,
   * in that order, with the folders they name.
   */
  function PathFilter(path: Option<string>, f: Folders): (r: Option<string>)
    ensures path.None? ==> r.None?
    ensures path == Some("") ==> r == Some("")
    ensures path.Some? ==> r.Some?
  {
    if path.None? || path.value == "" then path
    else
      var s1 := Text.Replace(path.value, "%PROGRAMFILES", f.programFiles);
      var s2 := Text.Replace(s1, "%APPDATA", f.appData);
      var s3 := Text.Replace(s2, "%LOCALAPPDATA", f.localAppData);
      var s4 := Text.Replace(s3, "%TEMP", f.temp);
      Some(Text.Replace(s4, "%WINDIR", f.windows))
  }

  /** A path without '%' is returned unchanged. */
  lemma PathFilterPlain(path: string, f: Folders)
    requires '%' !in path
    ensures PathFilter(Some(path), f) == Some(path)
  {
    Text.ReplaceWithoutLead(path, "%PROGRAMFILES", f.programFiles);
    Text.ReplaceWithoutLead(path, "%APPDATA", f.appData);
    Text.ReplaceWithoutLead(path, "%LOCALAPPDATA", f.localAppData);
    Text.ReplaceWithoutLead(path, "%TEMP", f.temp);
    Text.ReplaceWithoutLead(path, "%WINDIR", f.windows);
  }

  /**
   * A path under %LOCALAPPDATA becomes a path under the local application
   * data folder: the earlier %APPDATA pass does not touch the token, since
   * "%LOCALAPPDATA" does not contain "%APPDATA".
   */
  lemma PathFilterLocalAppData(rest: string, f: Folders)
    requires '%' !in rest && FoldersPlain(f)
    ensures PathFilter(Some("%LOCALAPPDATA" + rest), f) == Some(f.localAppData + rest)
  {
    var path := "%LOCALAPPDATA" + rest;
    assert path[1..] == "LOCALAPPDATA" + rest;
    assert !Text.OccursAt(path, "%PROGRAMFILES", 0) by {
      assert path[1] != "%PROGRAMFILES"[1];
    }
    Text.ReplaceUnmatchedLead(path, "%PROGRAMFILES", f.programFiles);
    assert !Text.OccursAt(path, "%APPDATA", 0) by {
      assert path[1] != "%APPDATA"[1];
    }
    Text.ReplaceUnmatchedLead(path, "%APPDATA", f.appData);
    Text.ReplaceLeading("%LOCALAPPDATA", rest, f.localAppData);
    Text.ReplaceWithoutLead(rest, "%LOCALAPPDATA", f.localAppData);
    var expanded := f.localAppData + rest;
    Text.ReplaceWithoutLead(expanded, "%TEMP", f.temp);
    Text.ReplaceWithoutLead(expanded, "%WINDIR", f.windows);
  }

  /** Likewise a path under %APPDATA becomes a path under the roaming application data folder. */
  lemma PathFilterAppData(rest: string, f: Folders)
    requires '%' !in rest && FoldersPlain(f)
    ensures PathFilter(Some("%APPDATA" + rest), f) == Some(f.appData + rest)
  {
    var path := "%APPDATA" + rest;
    assert path[1..] == "APPDATA" + rest;
    assert !Text.OccursAt(path, "%PROGRAMFILES", 0) by {
      assert |path| < 13 || path[1] != "%PROGRAMFILES"[1];
    }
    Text.ReplaceUnmatchedLead(path, "%PROGRAMFILES", f.programFiles);
    Text.ReplaceLeading("%APPDATA", rest, f.appData);
    Text.ReplaceWithoutLead(rest, "%APPDATA", f.appData);
    var expanded := f.appData + rest;
    Text.ReplaceWithoutLead(expanded, "%LOCALAPPDATA", f.localAppData);
    Text.ReplaceWithoutLead(expanded, "%TEMP", f.temp);
    Text.ReplaceWithoutLead(expanded, "%WINDIR", f.windows);
  }

  /**
   * The command line RegistryHelper.AddToStartup stores: the executable's
   * path in double quotes, followed by a space and the arguments unless
   * they are null or empty.
   */
  function StartupValue(exePath: string, args: Option<string>): (r: string)
    ensures |r| >= |exePath| + 2 && r[0] == '"' && r[1..|exePath| + 1] == exePath && r[|exePath| + 1] == '"'
    ensures |r| == |exePath| + 2 <==> args.None? || args.value == ""
  {
    if args.None? || args.value == "" then "\"" + exePath + "\""
    else "\"" + exePath + "\" " + args.value
  }

  /**
   * Reading a stored command line back, as Windows splits it: the quoted
   * executable path, then the arguments after one space, if any.
   */
  function ParseStartupValue(value: string): (r: Option<(string, string)>)
  {
    if value == [] || value[0] != '"' then None
    else
      match Seqs.IndexOf(value[1..], '"')
      case None => None
      case Some(j) =>
        var exePath := value[1..j + 1];
        var tail := value[j + 2..];
        if tail == [] then Some((exePath, ""))
        else if tail[0] == ' ' && tail[1..] != [] then Some((exePath, tail[1..]))
        else None
  }

  /**
   * For an executable path without double quotes, the stored command line
   * gives back the path and the arguments (empty when there were none).
   */
  lemma StartupValueRoundTrip(exePath: string, args: Option<string>)
    requires '"' !in exePath
    ensures ParseStartupValue(StartupValue(exePath, args))
         == Some((exePath, if args.None? then "" else args.value))
  {
    var tail := if args.None? || args.value == "" then [] else " " + args.value;
    var v := "\"" + exePath + "\"" + tail;
    assert StartupValue(exePath, args) == v;
    QuotedSplit(exePath, tail);
    assert ParseStartupValue(v) == if tail == [] then Some((exePath, "")) else Some((exePath, tail[1..]));
  }

  /** The quoted path of a stored command line ends at the first '"' after the opening one. */
  lemma QuotedSplit(exePath: string, tail: string)
    requires '"' !in exePath
    ensures var v := "\"" + exePath + "\"" + tail;
      v != [] && v[0] == '"' && Seqs.IndexOf(v[1..], '"') == Some(|exePath|)
      && v[1..|exePath| + 1] == exePath && v[|exePath| + 2..] == tail
  {
    Seqs.Wrapped('"', exePath, tail);
    Seqs.IndexOfAfter(exePath, "\"" + tail, '"');
  }

  /**
   * ClientIdHelper.GenerateClientId: the MAC address without ':' separators,
   * '_', and the clock's ticks in upper-case hexadecimal, all lower-cased.
   */
  function GenerateClientId(mac: string, ticks: nat): (r: string)
    ensures ':' !in r
    ensures forall i :: 0 <= i < |r| ==> !('A' <= r[i] <= 'Z')
  {
    var bare := Text.Replace(mac, ":", "");
    var hex := Numbers.FormatNat(ticks, 16);
    Text.ReplaceRemoves(mac, ':');
    Numbers.FormatNatDigits(ticks, 16);
    assert ':' !in hex by {
      assert !Numbers.IsDigit(':', 16);
    }
    Text.ToLowerKeeps(bare + "_" + Numbers.FormatNat(ticks, 16), ':');
    Text.ToLower(bare + "_" + Numbers.FormatNat(ticks, 16))
  }

  /**
   * The tick count can be read back from a client id: its last
   * |hex digits| characters are the lower-case hexadecimal ticks, which
   * parse to the ticks, and they follow the '_'.
   */
  lemma ClientIdTicks(mac: string, ticks: nat)
    ensures var id := GenerateClientId(mac, ticks);
      var n := |Numbers.FormatNat(ticks, 16)|;
      n < |id| && id[|id| - n - 1] == '_' && Numbers.ParseNat(id[|id| - n..], 16) == Some(ticks)
  {
    var head := Text.Replace(mac, ":", "") + "_";
    var hex := Numbers.FormatNat(ticks, 16);
    Text.ToLowerAppend(head, hex);
    var id := Text.ToLower(head) + Text.ToLower(hex);
    assert GenerateClientId(mac, ticks) == id;
    assert id[|head| - 1] == Text.ToLowerChar('_');
    assert id[|id| - |hex|..] == Text.ToLower(hex);
    Numbers.ParseLowerHex(ticks);
  }

  /**
   * RandomHelper.NextPercent: Random.Next(1, range + 1) in unchecked int
   * arithmetic, with the generator's output supplied as `draw`.
   */
  function NextPercent(range: int, draw: nat): (r: Result<int>)
    requires Numbers.IsInt32(range)
    ensures 1 <= range < Numbers.Int32Max ==> r.Ok? && 1 <= r.value <= range
    ensures range == 0 ==> r == Ok(1)
    ensures range < 0 || range == Numbers.Int32Max ==> r == Thrown(ArgumentOutOfRangeException)
  {
    Numbers.Wrap32MaxPlusOne();
    Numbers.RandomNext(1, Numbers.Wrap32(range + 1), draw)
  }

  /** Every percentage from 1 to range is drawn by some output of the generator. */
  lemma NextPercentCovers(range: int, v: int)
    requires 1 <= v <= range < Numbers.Int32Max
    ensures NextPercent(range, v - 1) == Ok(v)
  {
    Numbers.RandomNextCovers(1, range + 1, v);
  }
}

=== FILE: text.dfy ===
/**
 * The .NET string operations that the modelled code calls: white-space
 * tests and trimming, ordinal case-insensitive comparison, lower-casing and
 * String.Replace. Strings are sequences of Unicode scalar values.
 */
module Text {

  /** char.IsWhiteSpace: the characters with the Unicode White_Space property. */
  predicate IsWhiteSpace(c: char) {
    c == ' ' || ('\t' <= c <= '\r') || c == '\U{85}' || c == '\U{A0}' || c == '\U{1680}'
    || ('\U{2000}' <= c <= '\U{200A}') || c == '\U{2028}' || c == '\U{2029}'
    || c == '\U{202F}' || c == '\U{205F}' || c == '\U{3000}'
  }

  /** string.IsNullOrWhiteSpace for a non-null string. */
  predicate IsWhiteSpaceOnly(s: string) {
    forall i :: 0 <= i < |s| ==> IsWhiteSpace(s[i])
  }

  /** Drops the longest prefix of `s` whose characters all satisfy `p`. */
  function TrimStartWhere(s: string, p: char -> bool): (r: string)
    ensures |r| <= |s| && r == s[|s| - |r|..]
    ensures forall i :: 0 <= i < |s| - |r| ==> p(s[i])
    ensures r == [] || !p(r[0])
  {
    if s != [] && p(s[0]) then TrimStartWhere(s[1..], p) else s
  }

  /** Drops the longest suffix of `s` whose characters all satisfy `p`. */
  function TrimEndWhere(s: string, p: char -> bool): (r: string)
    ensures |r| <= |s| && r == s[..|r|]
    ensures forall i :: |r| <= i < |s| ==> p(s[i])
    ensures r == [] || !p(r[|r| - 1])
  {
    if s != [] && p(s[|s| - 1]) then TrimEndWhere(s[..|s| - 1], p) else s
  }

  /** string.Trim(): removes leading and trailing white space. */
  function Trim(s: string): string {
    TrimEndWhere(TrimStartWhere(s, IsWhiteSpace), IsWhiteSpace)
  }

  /** A string trims to the empty string exactly when it is white space only. */
  lemma TrimEmptyIffWhiteSpace(s: string)
    ensures Trim(s) == [] <==> IsWhiteSpaceOnly(s)
  {
    var t := TrimStartWhere(s, IsWhiteSpace);
    if t != [] {
      assert !IsWhiteSpace(t[0]) && t[0] == s[|s| - |t|];
      assert TrimEndWhere(t, IsWhiteSpace) != [];
    }
  }

  /** Trimming a string that neither starts nor ends with white space changes nothing. */
  lemma TrimNoop(s: string)
    requires s != [] ==> !IsWhiteSpace(s[0]) && !IsWhiteSpace(s[|s| - 1])
    ensures Trim(s) == s
  {
  }

  /** Trim() yields a string that neither starts nor ends with white space. */
  lemma TrimEnds(s: string)
    ensures Trim(s) != [] ==> !IsWhiteSpace(Trim(s)[0]) && !IsWhiteSpace(Trim(s)[|Trim(s)| - 1])
  {
    var t := TrimStartWhere(s, IsWhiteSpace);
    var u := TrimEndWhere(t, IsWhiteSpace);
    if u != [] {
      assert u[0] == t[0];
    }
  }

  /** Invariant-culture lower-casing of one character, restricted to ASCII letters. */
  function ToLowerChar(c: char): (r: char)
    ensures !('A' <= r <= 'Z')
  {
    if 'A' <= c <= 'Z' then (c as int + 32) as char else c
  }

  /** string.ToLowerInvariant(), restricted to ASCII letters. */
  function ToLower(s: string): (r: string)
    ensures |r| == |s|
    ensures forall i :: 0 <= i < |s| ==> r[i] == ToLowerChar(s[i])
  {
    seq(|s|, i requires 0 <= i < |s| => ToLowerChar(s[i]))
  }

  /** Equality under StringComparison.OrdinalIgnoreCase. */
  predicate EqualsIgnoreCase(a: string, b: string) {
    ToLower(a) == ToLower(b)
  }

  /** string.StartsWith(prefix, StringComparison.OrdinalIgnoreCase). */
  predicate StartsWithIgnoreCase(s: string, prefix: string) {
    |prefix| <= |s| && EqualsIgnoreCase(s[..|prefix|], prefix)
  }

  /** Case-insensitive prefixes survive extending the string on the right. */
  lemma StartsWithIgnoreCaseAppend(s: string, t: string, prefix: string)
    requires StartsWithIgnoreCase(s, prefix)
    ensures StartsWithIgnoreCase(s + t, prefix)
  {
    assert (s + t)[..|prefix|] == s[..|prefix|];
  }

  /** Whether `pat` occurs in `s` starting at index `i`. */
  predicate OccursAt(s: string, pat: string, i: nat) {
    i + |pat| <= |s| && s[i..i + |pat|] == pat
  }

  /**
   * String.Replace(pat, rep): scans `s` from the left and replaces every
   * non-overlapping occurrence of `pat` by `rep`; the text that `rep`
   * introduces is not scanned again.
   */
  function Replace(s: string, pat: string, rep: string): (r: string)
    requires pat != []
    ensures |pat| == |rep| ==> |r| == |s|
    ensures rep == pat ==> r == s
    decreases |s|
  {
    if |s| < |pat| then s
    else if s[..|pat|] == pat then rep + Replace(s[|pat|..], pat, rep)
    else [s[0]] + Replace(s[1..], pat, rep)
  }

  /** A string in which `pat` occurs nowhere is returned unchanged. */
  lemma {:induction false} ReplaceAbsent(s: string, pat: string, rep: string)
    requires pat != []
    requires forall i: nat :: !OccursAt(s, pat, i)
    ensures Replace(s, pat, rep) == s
    decreases |s|
  {
    if |s| >= |pat| {
      assert !OccursAt(s, pat, 0);
      assert s[0..|pat|] == s[..|pat|];
      forall i: nat ensures !OccursAt(s[1..], pat, i) {
        assert !OccursAt(s, pat, i + 1);
        if i + |pat| <= |s[1..]| {
          assert s[1..][i..i + |pat|] == s[i + 1..i + 1 + |pat|];
        }
      }
      ReplaceAbsent(s[1..], pat, rep);
      assert [s[0]] + s[1..] == s;
    }
  }

  /** In particular, when the pattern's first character does not occur in `s`. */
  lemma ReplaceWithoutLead(s: string, pat: string, rep: string)
    requires pat != [] && pat[0] !in s
    ensures Replace(s, pat, rep) == s
  {
    forall i: nat ensures !OccursAt(s, pat, i) {
      assert i + |pat| <= |s| ==> s[i..i + |pat|][0] == s[i];
    }
    ReplaceAbsent(s, pat, rep);
  }

  /** A leading occurrence is replaced and the scan continues after it. */
  lemma ReplaceLeading(pat: string, rest: string, rep: string)
    requires pat != []
    ensures Replace(pat + rest, pat, rep) == rep + Replace(rest, pat, rep)
  {
    assert (pat + rest)[..|pat|] == pat;
    assert (pat + rest)[|pat|..] == rest;
  }

  /**
   * A leading character that cannot start an occurrence is copied and the
   * scan continues after it.
   */
  lemma ReplaceSkip(c: char, rest: string, pat: string, rep: string)
    requires pat != []
    requires !OccursAt([c] + rest, pat, 0)
    ensures Replace([c] + rest, pat, rep) == [c] + Replace(rest, pat, rep)
  {
    var s := [c] + rest;
    assert s[1..] == rest;
    if |s| >= |pat| {
      assert s[0..|pat|] == s[..|pat|];
    } else {
      ReplaceWithoutLeadShort(rest, pat, rep);
    }
  }

  /** A string shorter than the pattern is returned unchanged. */
  lemma ReplaceWithoutLeadShort(s: string, pat: string, rep: string)
    requires pat != [] && |s| < |pat|
    ensures Replace(s, pat, rep) == s
  {
  }

  /** An occurrence in the tail at i is an occurrence in the whole text at i + 1. */
  lemma OccursTail(t: string, pat: string, i: nat)
    requires t != []
    ensures OccursAt(t[1..], pat, i) <==> OccursAt(t, pat, i + 1)
  {
    if i + |pat| <= |t[1..]| {
      assert t[1..][i..i + |pat|] == t[i + 1..i + 1 + |pat|];
    }
  }

  /** Replacement distributes over a split point at which no occurrence straddles. */
  lemma {:induction false} ReplacePrefixAbsent(s: string, rest: string, pat: string, rep: string)
    requires pat != []
    requires forall i: nat :: i < |s| ==> !OccursAt(s + rest, pat, i)
    ensures Replace(s + rest, pat, rep) == s + Replace(rest, pat, rep)
    decreases |s|
  {
    if s != [] {
      assert !OccursAt(s + rest, pat, 0);
      assert s + rest == [s[0]] + (s[1..] + rest);
      ReplaceSkip(s[0], s[1..] + rest, pat, rep);
      assert (s + rest)[1..] == s[1..] + rest;
      forall i: nat | i < |s[1..]| ensures !OccursAt(s[1..] + rest, pat, i) {
        assert !OccursAt(s + rest, pat, i + 1);
        OccursTail(s + rest, pat, i);
      }
      ReplacePrefixAbsent(s[1..], rest, pat, rep);
      assert s + Replace(rest, pat, rep) == [s[0]] + (s[1..] + Replace(rest, pat, rep));
    } else {
      assert s + rest == rest;
    }
  }

  /** Text without the pattern's first character is copied, and the scan goes on after it. */
  lemma ReplaceAfterPlain(s: string, rest: string, pat: string, rep: string)
    requires pat != [] && pat[0] !in s
    ensures Replace(s + rest, pat, rep) == s + Replace(rest, pat, rep)
  {
    forall i: nat | i < |s| ensures !OccursAt(s + rest, pat, i) {
      assert (s + rest)[i] == s[i];
    }
    ReplacePrefixAbsent(s, rest, pat, rep);
  }

  /**
   * A string whose first character starts no occurrence and whose other
   * characters cannot start one is returned unchanged.
   */
  lemma ReplaceUnmatchedLead(s: string, pat: string, rep: string)
    requires pat != [] && s != [] && !OccursAt(s, pat, 0) && pat[0] !in s[1..]
    ensures Replace(s, pat, rep) == s
  {
    assert s == [s[0]] + s[1..];
    ReplaceSkip(s[0], s[1..], pat, rep);
    ReplaceWithoutLead(s[1..], pat, rep);
  }

  /** Replacing a character by the empty string removes every occurrence of it. */
  lemma {:induction false} ReplaceRemoves(s: string, c: char)
    ensures c !in Replace(s, [c], "")
    decreases |s|
  {
    if s != [] {
      ReplaceRemoves(s[1..], c);
    }
  }

  /** Lower-casing leaves a string without upper-case letters as it is. */
  lemma ToLowerNoUpper(s: string)
    requires forall i :: 0 <= i < |s| ==> !('A' <= s[i] <= 'Z')
    ensures ToLower(s) == s
  {
  }

  /** Lower-casing works character by character, so it distributes over concatenation. */
  lemma ToLowerAppend(a: string, b: string)
    ensures ToLower(a + b) == ToLower(a) + ToLower(b)
  {
    forall i | 0 <= i < |a + b| ensures ToLower(a + b)[i] == (ToLower(a) + ToLower(b))[i] {
      if i >= |a| {
        assert (a + b)[i] == b[i - |a|];
      }
    }
  }

  /** Lower-casing never introduces a character that is not a letter. */
  lemma ToLowerKeeps(s: string, c: char)
    requires c !in s && !('A' <= c <= 'Z') && !('a' <= c <= 'z')
    ensures c !in ToLower(s)
  {
  }
}

=== FILE: wrappers.dfy ===
/**
 * Small value types shared by every module of the model: an optional value
 * (a .NET reference that may be null) and the outcome of an operation that
 * may throw one of the .NET exceptions the modelled code can raise.
 */
module Wrappers {

  datatype Option<+T> = None | Some(value: T)

  /** The .NET exception kinds that the modelled code can raise. */
  datatype Exception =
    | ArgumentException            // e.g. an empty password, an empty XML name
    | ArgumentOutOfRangeException  // Random.Next(min, max) with min > max, Task.Delay(ms) with ms < -1
    | FormatException              // Convert.FromHexString on malformed text
    | XmlException                 // an XName built from a string that is not an NCName

  /** The outcome of a call that either returns a value or throws. */
  datatype Result<+T> = Ok(value: T) | Thrown(exception: Exception)

  /** The outcome of a call that returns nothing: it completes or it throws. */
  datatype Status = Completed | Failed(exception: Exception)
}

/**
 * Sequence operations of the .NET collection classes that the modelled code
 * relies on: filtering a document-ordered list and List.Remove.
 */
module Seqs {
  import opened Wrappers

  /**
   * The elements of `xs` for which `f` yields a value, mapped through `f`, in
   * the order of `xs`. This is what a `foreach` loop that appends a converted
   * entry to a list only when it passes a test produces.
   */
  function FilterMap<T, U>(xs: seq<T>, f: T -> Option<U>): (r: seq<U>)
    ensures |r| <= |xs|
  {
    if xs == [] then []
    else
      var prev := FilterMap(xs[..|xs| - 1], f);
      match f(xs[|xs| - 1])
      case Some(u) => prev + [u]
      case None => prev
  }

  /** Appending one more element extends the result by that element's image, if any. */
  lemma FilterMapSnoc<T, U>(xs: seq<T>, x: T, f: T -> Option<U>)
    ensures FilterMap(xs + [x], f) == FilterMap(xs, f) + (if f(x).Some? then [f(x).value] else [])
  {
    assert (xs + [x])[..|xs + [x]| - 1] == xs;
  }

  /** Filtering distributes over concatenation: document order is preserved. */
  lemma {:induction false} FilterMapAppend<T, U>(xs: seq<T>, ys: seq<T>, f: T -> Option<U>)
    ensures FilterMap(xs + ys, f) == FilterMap(xs, f) + FilterMap(ys, f)
    decreases |ys|
  {
    if ys == [] {
      assert xs + ys == xs;
    } else {
      var ys' := ys[..|ys| - 1];
      var y := ys[|ys| - 1];
      assert ys == ys' + [y];
      assert xs + ys == (xs + ys') + [y];
      FilterMapAppend(xs, ys', f);
      FilterMapSnoc(xs + ys', y, f);
      FilterMapSnoc(ys', y, f);
    }
  }

  /**
   * A value is in the filtered list exactly when some element of `xs` maps
   * to it.
   */
  lemma {:induction false} FilterMapMember<T, U>(xs: seq<T>, f: T -> Option<U>, u: U)
    ensures u in FilterMap(xs, f) <==> exists i :: 0 <= i < |xs| && f(xs[i]) == Some(u)
    decreases |xs|
  {
    if xs != [] {
      var xs' := xs[..|xs| - 1];
      var x := xs[|xs| - 1];
      assert xs == xs' + [x];
      FilterMapMember(xs', f, u);
      FilterMapSnoc(xs', x, f);
      if u in FilterMap(xs, f) {
        if u in FilterMap(xs', f) {
          var i :| 0 <= i < |xs'| && f(xs'[i]) == Some(u);
          assert xs[i] == xs'[i];
        } else {
          assert f(xs[|xs| - 1]) == Some(u);
        }
      }
      if exists i :: 0 <= i < |xs| && f(xs[i]) == Some(u) {
        var i :| 0 <= i < |xs| && f(xs[i]) == Some(u);
        if i < |xs'| {
          assert xs'[i] == xs[i];
        }
      }
    }
  }

  /** The prefix of length j + 1 is the prefix of length j followed by element j. */
  lemma TakeSnoc<T>(s: seq<T>, j: nat)
    requires j < |s|
    ensures s[..j + 1] == s[..j] + [s[j]]
  {
  }

  /** The pieces of `a` wrapped in `x` on both sides and followed by `tail`. */
  lemma Wrapped<T>(x: T, a: seq<T>, tail: seq<T>)
    ensures var v := [x] + a + [x] + tail;
      v[0] == x && v[1..] == a + ([x] + tail) && v[1..|a| + 1] == a && v[|a| + 2..] == tail
  {
    var v := [x] + a + [x] + tail;
    assert v[1..] == a + ([x] + tail);
    assert v[|a| + 2..] == tail;
  }

  /** The index of the first element satisfying `p` (Enumerable.FirstOrDefault with a predicate), if any. */
  function FindFirst<T>(xs: seq<T>, p: T -> bool): (r: Option<nat>)
    ensures r.Some? ==> r.value < |xs| && p(xs[r.value]) && forall j :: 0 <= j < r.value ==> !p(xs[j])
    ensures r.None? <==> forall j :: 0 <= j < |xs| ==> !p(xs[j])
  {
    if xs == [] then None
    else if p(xs[0]) then Some(0)
    else
      match FindFirst(xs[1..], p)
      case Some(i) => Some(i + 1)
      case None => None
  }

  /** The index of the first occurrence of `x` in `s`, if any. */
  function IndexOf<T(==)>(s: seq<T>, x: T): (r: Option<nat>)
    ensures r.Some? ==> r.value < |s| && s[r.value] == x && x !in s[..r.value]
    ensures r.None? <==> x !in s
  {
    if s == [] then None
    else if s[0] == x then Some(0)
    else
      match IndexOf(s[1..], x)
      case Some(i) => (assert s[1..][..i] == s[1..i + 1]; Some(i + 1))
      case None => None
  }

  /** The first occurrence of `x` right after a stretch without it is found there. */
  lemma IndexOfAfter<T>(a: seq<T>, b: seq<T>, x: T)
    requires x !in a && b != [] && b[0] == x
    ensures IndexOf(a + b, x) == Some(|a|)
  {
    assert (a + b)[|a|] == x;
  }

  /**
   * Collection<T>.Remove(x): removes the first occurrence of `x`, if there is
   * one, and leaves the sequence unchanged otherwise.
   */
  function RemoveFirst<T(==)>(s: seq<T>, x: T): (r: seq<T>)
    ensures r == s <==> x !in s
  {
    match IndexOf(s, x)
    case Some(i) => s[..i] + s[i + 1..]
    case None => s
  }

  lemma RemoveFirstSize<T>(s: seq<T>, x: T)
    ensures |RemoveFirst(s, x)| == if x in s then |s| - 1 else |s|
    ensures multiset(RemoveFirst(s, x)) == multiset(s) - multiset{x}
  {
    match IndexOf(s, x)
    case Some(i) =>
      assert s == s[..i] + [x] + s[i + 1..];
    case None =>
      assert multiset(s)[x] == 0;
  }
}

=== FILE: xml_tree.dfy ===
/**
 * The parts of System.Xml.Linq that the modelled code touches: an element
 * tree as a value, and the lookups XElement.Element(name),
 * XElement.Elements(name) and XElement.Attribute(name). Names are compared
 * as plain local names; namespaces are not modelled.
 */
module XmlTree {
  import opened Wrappers
  import Seqs

  datatype Attribute = Attribute(name: string, value: string)

  datatype Element = Element(name: string, attributes: seq<Attribute>, children: seq<Element>)

  /** What XDocument.Parse returns: a document whose root element may be absent. */
  datatype Document = Document(root: Option<Element>)

  /** A character that may start an XML name (section 2.3 of XML 1.0, fifth edition), colon excluded. */
  predicate IsNameStartChar(c: char) {
    ('A' <= c <= 'Z') || c == '_' || ('a' <= c <= 'z')
    || ('\U{C0}' <= c <= '\U{D6}') || ('\U{D8}' <= c <= '\U{F6}') || ('\U{F8}' <= c <= '\U{2FF}')
    || ('\U{370}' <= c <= '\U{37D}') || ('\U{37F}' <= c <= '\U{1FFF}') || ('\U{200C}' <= c <= '\U{200D}')
    || ('\U{2070}' <= c <= '\U{218F}') || ('\U{2C00}' <= c <= '\U{2FEF}') || ('\U{3001}' <= c <= '\U{D7FF}')
    || ('\U{F900}' <= c <= '\U{FDCF}') || ('\U{FDF0}' <= c <= '\U{FFFD}') || ('\U{10000}' <= c <= '\U{EFFFF}')
  }

  /** A character that may continue an XML name, colon excluded. */
  predicate IsNameChar(c: char) {
    IsNameStartChar(c) || c == '-' || c == '.' || ('0' <= c <= '9') || c == '\U{B7}'
    || ('\U{300}' <= c <= '\U{36F}') || ('\U{203F}' <= c <= '\U{2040}')
  }

  /** A non-colonized name (NCName): what an XName's local name must be. */
  predicate IsNCName(s: string) {
    s != [] && IsNameStartChar(s[0]) && forall i :: 1 <= i < |s| ==> IsNameChar(s[i])
  }

  /**
   * The implicit conversion of a string to an XName: an empty string throws
   * an ArgumentException and any other string that is not an NCName throws
   * an XmlException.
   */
  function ToXName(s: string): (r: Result<string>)
    ensures r.Ok? <==> IsNCName(s)
    ensures r.Ok? ==> r.value == s
  {
    if s == [] then Thrown(ArgumentException)
    else if IsNCName(s) then Ok(s)
    else Thrown(XmlException)
  }

  /** XElement.Element(name) for a valid name: the first child element with that name. */
  function FirstChild(e: Element, name: string): (r: Option<Element>)
    ensures r.Some? ==> r.value in e.children && r.value.name == name
    ensures r.None? <==> forall i :: 0 <= i < |e.children| ==> e.children[i].name != name
  {
    FirstNamed(e.children, name)
  }

  function FirstNamed(es: seq<Element>, name: string): (r: Option<Element>)
    ensures r.Some? ==> r.value in es && r.value.name == name
    ensures r.None? <==> forall i :: 0 <= i < |es| ==> es[i].name != name
  {
    if es == [] then None
    else if es[0].name == name then Some(es[0])
    else FirstNamed(es[1..], name)
  }

  /** FirstChild finds the first child with the name: every earlier child has another name. */
  lemma {:induction false} FirstNamedIsFirst(es: seq<Element>, name: string)
    requires FirstNamed(es, name).Some?
    ensures exists i :: 0 <= i < |es| && es[i] == FirstNamed(es, name).value
                     && forall j :: 0 <= j < i ==> es[j].name != name
    decreases |es|
  {
    if es[0].name != name {
      FirstNamedIsFirst(es[1..], name);
      var i :| 0 <= i < |es[1..]| && es[1..][i] == FirstNamed(es[1..], name).value
               && forall j :: 0 <= j < i ==> es[1..][j].name != name;
      assert es[i + 1] == es[1..][i];
      forall j | 0 <= j < i + 1
        ensures es[j].name != name
      {
        if j > 0 {
          assert es[j] == es[1..][j - 1];
        }
      }
    }
  }

  /** XElement.Attribute(name)?.Value for a valid name: the value of the attribute with that name, if any. */
  function AttributeValue(e: Element, name: string): (r: Option<string>)
    ensures r.Some? ==> exists i :: 0 <= i < |e.attributes| && e.attributes[i] == Attribute(name, r.value)
    ensures r.None? <==> forall i :: 0 <= i < |e.attributes| ==> e.attributes[i].name != name
  {
    ValueNamed(e.attributes, name)
  }

  function ValueNamed(attrs: seq<Attribute>, name: string): (r: Option<string>)
    ensures r.Some? ==> exists i :: 0 <= i < |attrs| && attrs[i] == Attribute(name, r.value)
    ensures r.None? <==> forall i :: 0 <= i < |attrs| ==> attrs[i].name != name
  {
    if attrs == [] then None
    else if attrs[0].name == name then Some(attrs[0].value)
    else
      var r := ValueNamed(attrs[1..], name);
      if r.Some? then
        assert exists i :: 0 <= i < |attrs[1..]| && attrs[1..][i] == Attribute(name, r.value);
        var i :| 0 <= i < |attrs[1..]| && attrs[1..][i] == Attribute(name, r.value);
        assert attrs[i + 1] == Attribute(name, r.value);
        r
      else r
  }

  /** `Attribute(name)?.Value ?? string.Empty`. */
  function AttributeOrEmpty(e: Element, name: string): (r: string)
    ensures AttributeValue(e, name).None? ==> r == ""
    ensures AttributeValue(e, name).Some? ==> r == AttributeValue(e, name).value
  {
    match AttributeValue(e, name)
    case Some(v) => v
    case None => ""
  }

  /** The test `Elements(name)` applies to one child. */
  function KeepNamed(name: string): Element -> Option<Element> {
    (c: Element) => if c.name == name then Some(c) else None
  }

  /** XElement.Elements(name): the children with that name, in document order. */
  function ChildrenNamed(e: Element, name: string): (r: seq<Element>)
    ensures |r| <= |e.children|
  {
    Seqs.FilterMap(e.children, KeepNamed(name))
  }

  /** A child is among ChildrenNamed exactly when it is a child with that name. */
  lemma ChildrenNamedMember(e: Element, name: string, c: Element)
    ensures c in ChildrenNamed(e, name) <==> c in e.children && c.name == name
  {
    Seqs.FilterMapMember(e.children, KeepNamed(name), c);
    if c in e.children && c.name == name {
      var i :| 0 <= i < |e.children| && e.children[i] == c;
      assert KeepNamed(name)(e.children[i]) == Some(c);
    }
  }

  /** Element(name) with a name that must first be converted to an XName. */
  function ElementNamed(e: Element, name: string): (r: Result<Option<Element>>)
    ensures r.Ok? <==> IsNCName(name)
    ensures r.Ok? ==> r.value == FirstChild(e, name)
  {
    match ToXName(name)
    case Thrown(x) => Thrown(x)
    case Ok(n) => Ok(FirstChild(e, n))
  }

  /** Attribute(name)?.Value with a name that must first be converted to an XName. */
  function AttributeNamed(e: Element, name: string): (r: Result<Option<string>>)
    ensures r.Ok? <==> IsNCName(name)
    ensures r.Ok? ==> r.value == AttributeValue(e, name)
  {
    match ToXName(name)
    case Thrown(x) => Thrown(x)
    case Ok(n) => Ok(AttributeValue(e, n))
  }
}

=== FILE: xor256.dfy ===
/**
 * Xor256Stream (ToastPop.Core/Crypto/JhCrypt.cs): a byte stream cipher
 * over two 256-byte arrays. Each input byte is XORed with the chain byte of
 * its slot (index mod 256), and that chain byte then advances by the
 * ciphertext byte, modulo 256. The key is the SHA-256 digest of the password
 * repeated over 256 bytes; SHA-256 itself is a parameter of the model.
 */
module Xor256 {
  import opened Wrappers

  type byte = bv8
  type Bytes = seq<byte>

  /** A SHA-256 digest: 32 bytes. */
  type Digest = s: Bytes | |s| == 32 witness seq(32, _ => 0 as byte)

  const BlockLength: nat := 256

  /** Whether `s` is 256 zero bytes: a freshly allocated or cleared array. */
  predicate IsCleared(s: Bytes) {
    |s| == BlockLength && forall i :: 0 <= i < |s| ==> s[i] == 0
  }

  /** The 256-byte key derived from a hash: byte i is hash[i % |hash|]. */
  function KeyFromHash(hash: Bytes): (key: Bytes)
    requires hash != []
    ensures |key| == BlockLength
    ensures forall i :: 0 <= i < BlockLength ==> key[i] == hash[i % |hash|]
  {
    seq(BlockLength, i requires 0 <= i => hash[i % |hash|])
  }

  /** For a SHA-256 digest, the key is the digest written out eight times. */
  lemma KeyRepeatsDigest(d: Digest)
    ensures KeyFromHash(d) == d + d + d + d + d + d + d + d
  {
    var key := KeyFromHash(d);
    var eight := d + d + d + d + d + d + d + d;
    forall i | 0 <= i < BlockLength
      ensures key[i] == eight[i]
    {
      var q := i / 32;
      assert i == q * 32 + i % 32;
      assert 0 <= q < 8;
      assert eight[i] == d[i % 32];
    }
  }

  /** XOR of two bytes. */
  function Xor(a: byte, b: byte): byte {
    a ^ b
  }

  /** (byte)((a + b) & 0xFF): addition modulo 256. */
  function AddByte(a: byte, b: byte): byte {
    a + b
  }

  /** Which of the two loops runs: they differ only in which byte advances the chain. */
  datatype Direction = Encrypting | Decrypting

  /** The output produced so far and the chain after it. */
  datatype CipherState = CipherState(output: Bytes, chain: Bytes)

  /**
   * One turn of the Encrypt or Decrypt loop on byte `x` at position `i`: `x`
   * is XORed with the chain byte of slot i % 256, and that slot then
   * advances, modulo 256, by the ciphertext byte: the byte produced when
   * encrypting, the byte consumed when decrypting.
   */
  function Step(prev: CipherState, i: nat, x: byte, dir: Direction): (r: CipherState)
    requires |prev.chain| == BlockLength
    ensures |r.output| == |prev.output| + 1 && |r.chain| == BlockLength
  {
    var slot := i % BlockLength;
    var out := Xor(x, prev.chain[slot]);
    var advance := if dir == Encrypting then out else x;
    CipherState(prev.output + [out], prev.chain[slot := AddByte(prev.chain[slot], advance)])
  }

  /** Running the Encrypt or Decrypt loop over `data` from chain `chain0`. */
  function Cipher(chain0: Bytes, data: Bytes, dir: Direction): (r: CipherState)
    requires |chain0| == BlockLength
    ensures |r.output| == |data| && |r.chain| == BlockLength
  {
    if data == [] then CipherState([], chain0)
    else Step(Cipher(chain0, data[..|data| - 1], dir), |data| - 1, data[|data| - 1], dir)
  }

  /** One more input byte: the step the loop body takes. */
  lemma CipherSnoc(chain0: Bytes, data: Bytes, x: byte, dir: Direction)
    requires |chain0| == BlockLength
    ensures Cipher(chain0, data + [x], dir) == Step(Cipher(chain0, data, dir), |data|, x, dir)
  {
    assert (data + [x])[..|data|] == data;
  }

  /**
   * A decrypting step undoes an encrypting step at the same position from the
   * same chain, and both steps advance the chain alike.
   */
  lemma StepInverse(chain: Bytes, encOut: Bytes, decOut: Bytes, i: nat, x: byte)
    requires |chain| == BlockLength
    ensures var enc := Step(CipherState(encOut, chain), i, x, Encrypting);
            Step(CipherState(decOut, chain), i, enc.output[|encOut|], Decrypting) == CipherState(decOut + [x], enc.chain)
  {
    var c := chain[i % BlockLength];
    var out := Xor(x, c);
    assert (encOut + [out])[|encOut|] == out;
    XorCancels(x, c);
  }

  /** An encrypting step undoes a decrypting step at the same position from the same chain. */
  lemma StepInverseDecrypt(chain: Bytes, decOut: Bytes, encOut: Bytes, i: nat, y: byte)
    requires |chain| == BlockLength
    ensures var dec := Step(CipherState(decOut, chain), i, y, Decrypting);
            Step(CipherState(encOut, chain), i, dec.output[|decOut|], Encrypting) == CipherState(encOut + [y], dec.chain)
  {
    var c := chain[i % BlockLength];
    var out := Xor(y, c);
    assert (decOut + [out])[|decOut|] == out;
    XorCancels(y, c);
  }

  lemma XorCancels(x: byte, c: byte)
    ensures Xor(Xor(x, c), c) == x
  {
  }

  /**
   * Decrypting the ciphertext from the same starting chain gives back the
   * plaintext, and both runs leave the same final chain.
   */
  lemma {:induction false} DecryptEncrypt(chain0: Bytes, plain: Bytes)
    requires |chain0| == BlockLength
    ensures var enc := Cipher(chain0, plain, Encrypting);
            Cipher(chain0, enc.output, Decrypting) == CipherState(plain, enc.chain)
    decreases |plain|
  {
    if plain != [] {
      var p := plain[..|plain| - 1];
      var x := plain[|plain| - 1];
      assert plain == p + [x];
      var prev := Cipher(chain0, p, Encrypting);
      DecryptEncrypt(chain0, p);
      CipherSnoc(chain0, p, x, Encrypting);
      var enc := Step(prev, |p|, x, Encrypting);
      var out := enc.output[|p|];
      assert enc.output == prev.output + [out];
      CipherSnoc(chain0, prev.output, out, Decrypting);
      StepInverse(prev.chain, prev.output, p, |p|, x);
    }
  }

  /** Encrypting the plaintext that a decryption produced gives back the ciphertext. */
  lemma {:induction false} EncryptDecrypt(chain0: Bytes, cipher: Bytes)
    requires |chain0| == BlockLength
    ensures var dec := Cipher(chain0, cipher, Decrypting);
            Cipher(chain0, dec.output, Encrypting) == CipherState(cipher, dec.chain)
    decreases |cipher|
  {
    if cipher != [] {
      var p := cipher[..|cipher| - 1];
      var y := cipher[|cipher| - 1];
      assert cipher == p + [y];
      var prev := Cipher(chain0, p, Decrypting);
      EncryptDecrypt(chain0, p);
      CipherSnoc(chain0, p, y, Decrypting);
      var dec := Step(prev, |p|, y, Decrypting);
      var out := dec.output[|p|];
      assert dec.output == prev.output + [out];
      CipherSnoc(chain0, prev.output, out, Encrypting);
      StepInverseDecrypt(prev.chain, prev.output, p, |p|, y);
    }
  }

  /**
   * Up to 256 bytes every slot is used at most once, so the chain keeps its
   * starting value in the slots not yet reached.
   */
  lemma {:induction false} CipherUntouchedSlots(chain0: Bytes, data: Bytes, dir: Direction)
    requires |chain0| == BlockLength && |data| <= BlockLength
    ensures forall j :: |data| <= j < BlockLength ==> Cipher(chain0, data, dir).chain[j] == chain0[j]
    decreases |data|
  {
    if data != [] {
      CipherUntouchedSlots(chain0, data[..|data| - 1], dir);
    }
  }

  /** Up to 256 bytes, output byte i is input byte i XORed with starting chain byte i. */
  lemma {:induction false} CipherShortInput(chain0: Bytes, data: Bytes, dir: Direction)
    requires |chain0| == BlockLength && |data| <= BlockLength
    ensures forall i :: 0 <= i < |data| ==> Cipher(chain0, data, dir).output[i] == data[i] ^ chain0[i]
    decreases |data|
  {
    if data != [] {
      var p := data[..|data| - 1];
      CipherShortInput(chain0, p, dir);
      CipherUntouchedSlots(chain0, p, dir);
      forall i | 0 <= i < |p|
        ensures Cipher(chain0, data, dir).output[i] == data[i] ^ chain0[i]
      {
        assert data[i] == p[i];
      }
    }
  }

  /** Running over a concatenation is running over the first part, then the second from where it left off. */
  lemma {:induction false} CipherOutputPrefix(chain0: Bytes, data: Bytes, n: nat, dir: Direction)
    requires |chain0| == BlockLength && n <= |data|
    ensures Cipher(chain0, data[..n], dir).output == Cipher(chain0, data, dir).output[..n]
    decreases |data|
  {
    if n < |data| {
      var p := data[..|data| - 1];
      assert data[..n] == p[..n];
      CipherOutputPrefix(chain0, p, n, dir);
    } else {
      assert data[..n] == data;
    }
  }

  /**
   * The stream object. `key` and `chain` are the two 256-byte arrays the
   * object allocates once; BlockSize is the constant -1 of the source.
   */
  class Xor256Stream {
    const key: array<byte>
    const chain: array<byte>
    const blockSize: int
    var disposed: bool

    predicate Valid()
      reads this
    {
      key.Length == BlockLength && chain.Length == BlockLength && key != chain
    }

    constructor ()
      ensures Valid() && fresh(key) && fresh(chain)
      ensures IsCleared(key[..]) && IsCleared(chain[..])
      ensures blockSize == -1 && !disposed
    {
      key := new byte[BlockLength](_ => 0);
      chain := new byte[BlockLength](_ => 0);
      blockSize := -1;
      disposed := false;
    }

    /**
     * Initialize(byte[] password): an absent or empty password throws an
     * ArgumentException and changes nothing; otherwise the key is derived
     * from the password's SHA-256 digest and the chain reset to it.
     */
    method Initialize(password: Option<Bytes>, sha256: Bytes -> Digest) returns (status: Status)
      requires Valid()
      modifies key, chain
      ensures status.Failed? <==> password.None? || password.value == []
      ensures status.Failed? ==> status.exception == ArgumentException
      ensures status.Failed? ==> key[..] == old(key[..]) && chain[..] == old(chain[..])
      ensures status.Completed? ==> key[..] == KeyFromHash(sha256(password.value)) && chain[..] == key[..]
    {
      if password.None? || password.value == [] {
        return Failed(ArgumentException);
      }
      var hash := sha256(password.value);
      for i := 0 to BlockLength
        invariant key[..i] == KeyFromHash(hash)[..i]
      {
        key[i] := hash[i % |hash|];
      }
      assert key[..] == key[..BlockLength];
      ResetChain();
      status := Completed;
    }

    /** ResetChain(): the chain becomes a copy of the key. */
    method ResetChain()
      requires Valid()
      modifies chain
      ensures chain[..] == key[..]
    {
      forall i | 0 <= i < BlockLength {
        chain[i] := key[i];
      }
    }

    /**
     * Encrypt(data): an absent input gives an empty array; otherwise a new
     * array holding the ciphertext, with the chain advanced past it.
     */
    method Encrypt(data: array?<byte>) returns (result: array<byte>)
      requires Valid() && data != chain
      modifies chain
      ensures fresh(result)
      ensures data == null ==> result.Length == 0 && chain[..] == old(chain[..])
      ensures data != null ==> result[..] == Cipher(old(chain[..]), data[..], Encrypting).output
      ensures data != null ==> chain[..] == Cipher(old(chain[..]), data[..], Encrypting).chain
    {
      result := Run(data, Encrypting);
    }

    /**
     * Decrypt(data): an absent input gives an empty array; otherwise a new
     * array holding the plaintext, with the chain advanced by the ciphertext.
     */
    method Decrypt(data: array?<byte>) returns (result: array<byte>)
      requires Valid() && data != chain
      modifies chain
      ensures fresh(result)
      ensures data == null ==> result.Length == 0 && chain[..] == old(chain[..])
      ensures data != null ==> result[..] == Cipher(old(chain[..]), data[..], Decrypting).output
      ensures data != null ==> chain[..] == Cipher(old(chain[..]), data[..], Decrypting).chain
    {
      result := Run(data, Decrypting);
    }

    /** The loop shared by Encrypt and Decrypt. */
    method Run(data: array?<byte>, dir: Direction) returns (result: array<byte>)
      requires Valid() && data != chain
      modifies chain
      ensures fresh(result)
      ensures data == null ==> result.Length == 0 && chain[..] == old(chain[..])
      ensures data != null ==> result[..] == Cipher(old(chain[..]), data[..], dir).output
      ensures data != null ==> chain[..] == Cipher(old(chain[..]), data[..], dir).chain
    {
      if data == null {
        return new byte[0];
      }
      ghost var chain0 := chain[..];
      result := new byte[data.Length];
      for i := 0 to data.Length
        invariant data[..] == old(data[..])
        invariant result[..i] == Cipher(chain0, data[..i], dir).output
        invariant chain[..] == Cipher(chain0, data[..i], dir).chain
      {
        CipherSnoc(chain0, data[..i], data[i], dir);
        assert data[..i + 1] == data[..i] + [data[i]];
        Turn(result, i, data[i], dir, Cipher(chain0, data[..i], dir));
      }
      assert data[..] == data[..data.Length];
      assert result[..] == result[..data.Length];
    }

    /** One turn of the loop: byte `x` at position `i`, through chain slot i % 256. */
    method Turn(result: array<byte>, i: nat, x: byte, dir: Direction, ghost prev: CipherState)
      requires Valid() && i < result.Length && result != chain
      requires chain[..] == prev.chain && result[..i] == prev.output
      modifies result, chain
      ensures chain[..] == Step(prev, i, x, dir).chain && result[..i + 1] == Step(prev, i, x, dir).output
    {
      var index := i % BlockLength;
      result[i] := Xor(x, chain[index]);
      var advance := if dir == Encrypting then result[i] else x;
      chain[index] := AddByte(chain[index], advance);
      assert result[..i + 1] == result[..i] + [result[i]];
    }

    /** Dispose(): the first call clears both arrays; later calls do nothing. */
    method Dispose()
      requires Valid()
      modifies this, key, chain
      ensures disposed
      ensures old(disposed) ==> key[..] == old(key[..]) && chain[..] == old(chain[..])
      ensures !old(disposed) ==> IsCleared(key[..]) && IsCleared(chain[..])
    {
      if !disposed {
        forall i | 0 <= i < BlockLength {
          key[i] := 0;
        }
        forall i | 0 <= i < BlockLength {
          chain[i] := 0;
        }
        disposed := true;
      }
    }
  }
}
